=== FILE: README.md ===
# XDL codec model

A Dafny model of the XDL/JSON codec of the ASL library, with proofs about it. XDL is a
superset of JSON. It adds `//` and `/* */` comments, unquoted `name=value` members, `Y`/`N`
booleans, newline as a separator, trailing commas and a `ClassName{...}` class tag.

The model has three parts.

- **`XdlParser` (parser.dfy).** This is `XdlParser::parse`, the character-driven state
  machine, together with the tree-building sink that its callbacks drive.
  - The parser state is one record: the 19 lexical states, the context stack with its four
    comment sub-contexts, the `_inComment` flag, the token buffer, the `\u` buffer, the
    container stack and the stack of pending property names.
  - `Step(p, c)` is one iteration of the `while` loop. It returns `Again` for the source's
    `s--` and `Halt` for its `return`. It follows the code in every branch but one: in
    ENDCOMMENT a second `*` keeps the comment ready to close, where the code drops back to
    COMMENT. `Findings.StepAsWritten` is the code's rule, and `Findings.DecodeAgrees` shows
    that the two decode every text without two stars in a row alike.
  - `Feed` reads a character a second time when `Step` asks for it.
  - `Loop` stops at the end of the text or at a NUL, as a C string does.
  - `Decode(s)` is `value(parse(parse(init, s), " "))`.
- **`XdlWriter` and `XdlEncoder` (writer.dfy, encoder.dfy).** These are the writer callbacks
  and the recursive walk `XdlEncoder::_encode`. The walk covers the pretty and the compact
  layout and the `_level`/`_indent` bookkeeping. `EncodeWith` is `XdlEncoder::encode` on an
  encoder that may have been used before. The initial member count of a dictionary,
  `ClassLead`, is the corrected one: it counts a JSON class member only when one was
  written. `Findings.EncAsWritten` is the walk with the code's count, and
  `Findings.EncAgrees` shows that it writes the same text for every value the format can
  carry.
- **Values (values.dfy).** A `Value` is one of `Int`, `Num(token)`, `Str`, `Bool`, `Null`,
  `None`, `Arr` and `Dic`.
  - A double is an opaque token: the text the parser collected or the writer emits.
  - A dictionary is an association list in insertion order. `set` overwrites an existing
    name in place.

The proofs are grouped in further modules.

- `ParserInvariant`: the structural invariant of the parser state. It holds initially and
  after every character.
- `ParserFacts`:
  - errors are final;
  - parsing in pieces is parsing the whole;
  - a pushed-back character is read at most twice;
  - the lexical rules for integers, numbers, comments and bare words.
- `Leniency`: the inputs accepted beyond JSON.
- `ScalarReading` and `TreeReading`: the parser reads back each text the writer produces, from
  scalars up to whole trees.
- `EncoderFacts`: a reference text `Compact(v, json)`, independent of the encoder's loops. It
  also covers the level and indentation the encoder leaves behind.
- `Codec`: the round trip `decode(encode(v)) == v`, and what `decode` makes of several
  top-level values and of long integers.
- `Findings`: two defects, each modelled as written and corrected.

Three behaviours of the code are easy to miss.

- Outside strings, a `/` starts a comment in every state, also in the middle of a number
  or a bare word. So a comment can split a token: `1/**/2` decodes to 12
  (`Leniency.CommentInsideInteger`, `Leniency.CommentSplitsTwelve`), and `Foo/**/{}` is a
  class tag. This holds for every comment body only under the corrected comment rule. As
  written, a body ending in `*` never closes: `1/***/2` decodes to NONE
  (`Findings.StarsInIntegerAsWritten`), and the corrected parser reads 12
  (`Leniency.StarsInInteger`). See Findings.

- A `}` right after `=` closes the object, so `{x=}` decodes to an empty dictionary, and the
  name `x` stays on the name stack (`Leniency.EmptyValueCloses`).
- Every top-level value is appended to the root list, and `value()` returns the last one
  (`Codec.LastValueWins`).

A Dafny `char` in this model stands for one byte of the C string the code reads and writes.
Text outside ASCII is therefore modelled as its UTF-8 bytes. Under the assumptions below,
no byte of 0x80 or above is white space or alphanumeric.

Some source behaviour is unknown because the code is not among the source files. The model
assumes the following.

- `myisspace` is the C-locale set of white space: space, `\t`, `\n`, `\v`, `\f` and `\r`.
- `myisalnum` covers the ASCII letters and digits.
- `myatoiz` reads a decimal integer.
- `ASL_XDLCLASS` is `"$type"`.
- `Var::toString` of a class entry is the string for a string value, and empty otherwise.

## Model

| member | source | states |
|---|---|---|
| Values.SetField | src/Xdl.cpp:632-636 | after `set(name, x)` the dictionary has `name` and it maps to `x`; an existing name keeps its place (the list of names is unchanged), a new one is appended at the end |
| Values.SetFieldKeepsUnique | src/Xdl.cpp:632-636 | a dictionary filled only through `set` never holds the same name twice |
| Values.Lookup | src/Xdl.cpp:707-709 | a missing name gives NONE; the first entry under a name is the one found |
| Chars.AtoI | src/Xdl.cpp:199-202 | a decimal text of n characters has a value strictly between -10^n and 10^n, so a buffer of at most nine characters fits in a 32-bit int |
| Chars.DecimalTextRoundTrip | src/Xdl.cpp:754-759 | the decimal text written for any integer reads back as that integer |
| Chars.DecimalTextShort | src/Xdl.cpp:199-202 | the text of `i` has at most nine characters exactly when -99,999,999 <= i <= 999,999,999, so whether the reader makes an int or a double depends only on the value |
| XdlParser.Reset | src/Xdl.cpp:87-93 | the context stack is back to ROOT alone, the state is WAIT_VALUE and the buffer is empty; containers, pending names and the comment flag are left as they were |
| XdlParser.Put | src/Xdl.cpp:624-640 | with an array on top the value is appended and the names are untouched; with a dictionary on top and a pending name, the value is stored under the most recent name, which is popped; the state, the contexts, the buffer and the kind of every container are unchanged |
| XdlParser.RootValue | src/Xdl.cpp:565-574 | NONE after ERR and whenever the parser did not stop at ROOT waiting for a value; any other result is an item of the root list |
| XdlParser.IntegerValue | src/Xdl.cpp:199-202 | a buffer of at most nine characters gives an int whose value is the decimal value of the buffer; a longer one gives a double with the same text |
| XdlParser.Step | src/Xdl.cpp:95-543 | with the corrected ENDCOMMENT rule (see Findings): an iteration only returns in ERR, and an iteration in ERR stays in ERR and goes on to the next character |
| XdlParser.Feed | src/Xdl.cpp:203-206 | a character read a second time after `s--` can only stop the loop in ERR, and ERR is never left |
| XdlParser.Loop | src/Xdl.cpp:99 | no text leads out of ERR |
| XdlParser.Parse | src/Xdl.cpp:97-98 | `parse` on a parser in ERR changes nothing |
| XdlParser.Decode | src/Xdl.cpp:576-581 | text that leaves the parser in ERR decodes to NONE |
| XdlWriter.CText | src/Xdl.cpp:706-709 | the class handed to `begin_object` as a C string is the longest NUL-free prefix of the class text |
| XdlWriter.Quote | src/Xdl.cpp:825-847 | `new_string` output starts and ends with a double quote |
| XdlWriter.Reset | src/Xdl.cpp:749-752 | the output is emptied and the pretty and JSON flags are kept |
| XdlEncoder.Enc | src/Xdl.cpp:649-742 | encoding only appends to the output and never changes the pretty or JSON flag |
| XdlEncoder.ClassLead | src/Xdl.cpp:712 | the corrected count (see Findings): the member count starts at one exactly when `begin_object` has already written a class member (JSON with a non-empty class), so that only then does the first member get a comma |
| XdlEncoder.EncodeWith | include/asl/Xdl.h:132-139 | `encode` sets both flags as asked and returns exactly the output buffer |
| ParserInvariant.InitWf | src/Xdl.cpp:545-554 | a new parser satisfies the invariant: ROOT at the bottom, one container per structural context, the root container an array, one array per ARRAY context and one dictionary per OBJECT context, enough pending names for every object awaiting a value, comment contexts only on top and only while `_inComment` is set |
| ParserInvariant.StepWf | src/Xdl.cpp:95-543 | every iteration of the loop, in every state and context, keeps the invariant |
| ParserInvariant.FeedWf | src/Xdl.cpp:95-543 | a character read once more after `s--` keeps the invariant |
| ParserInvariant.LoopWf | src/Xdl.cpp:99-543 | the invariant holds after any text |
| ParserInvariant.ParseWf | src/Xdl.cpp:95-99 | `parse` keeps the invariant |
| ParserInvariant.DecodeWf | src/Xdl.cpp:576-581 | the parser `decode` ends with satisfies the invariant for every input |
| ParserInvariant.PutHasName | src/Xdl.cpp:632-635 | whenever a value completes inside an object, the top container is a dictionary and a pending name exists, so `_props.top()` is never read from an empty stack |
| ParserInvariant.CloseHasName | src/Xdl.cpp:598-612 | whenever `end_array`/`end_object` hand a closed container to `put` inside an enclosing object, that object's container is a dictionary and a pending name exists |
| ParserFacts.ErrorIsFinal | src/Xdl.cpp:97-98 | once a parse ends in ERR, every later `parse` changes nothing and `value()` is NONE, so an error never yields a partial tree |
| ParserFacts.LoopAppend | src/Xdl.cpp:99 | NUL-free text that does not end in ERR reads the same in one piece or in two |
| ParserFacts.ParseAppend | src/Xdl.cpp:95-99 | `parse(a)` then `parse(b)` is `parse(a + b)` when `a` is NUL-free and does not end in ERR |
| ParserFacts.ErrorPrefix | src/Xdl.cpp:99-543 | if a prefix ends in ERR, every longer text ends in ERR |
| ParserFacts.DecodeOneParse | src/Xdl.cpp:576-581 | for NUL-free text, `decode` is one pass over the text followed by a space |
| ParserFacts.MachineAgain | src/Xdl.cpp:203-206 | every pushback (INT, NUMBER, NUMBER_EV, PROPERTY, IDENTIFIER) moves to a waiting state (WAIT_VALUE, WAIT_SEP, WAIT_EQUAL or WAIT_OBJ), which never pushes back, and leaves the comment flag alone |
| ParserFacts.WaitingConsumes | src/Xdl.cpp:349-465 | the waiting states never push a character back |
| ParserFacts.PushbackOnce | src/Xdl.cpp:203-206 | a character pushed back is consumed on its second reading, so the reprocessing depth is at most one |
| ParserFacts.ResumeAgain | src/Xdl.cpp:150-158 | when a character that ends a comment is pushed back, the parser is out of the comment and in a waiting state |
| ParserFacts.IntegerLiteral | src/Xdl.cpp:188-203 | an integer literal with a leading zero followed by more digits (`01`, `-01`) decodes to NONE; otherwise up to nine characters decode to an int of the literal's value and longer ones to a double with the literal's text |
| ParserFacts.NeedsDigit | src/Xdl.cpp:161-253 | after `-`, after `.` and after an exponent sign, the next character other than `/` is accepted exactly when it is a digit, and then it is appended; a `/` opens a comment inside the token |
| ParserFacts.ExponentStart | src/Xdl.cpp:225-241 | after `e`/`E` the next character other than `/` is accepted exactly when it is a digit or a sign; a `/` opens a comment inside the token |
| ParserFacts.IntegerEnd | src/Xdl.cpp:188-209 | any other character except `/`, which opens a comment inside the token, ends an integer: a lone `-` or a leading zero is ERR, otherwise the integer is stored and the character read again |
| ParserFacts.NumberEnd | src/Xdl.cpp:254-310 | a fraction or exponent number ends exactly at `,`, white space, `]` or `}`, which is read again after the number is stored; any other non-digit other than `/` is ERR, and a `/` opens a comment inside the token |
| ParserFacts.BlockCommentInvisible | src/Xdl.cpp:100-160 | outside strings, a `/* */` comment leaves the parser exactly as if it were absent; this is the corrected ENDCOMMENT rule (see Findings) |
| ParserFacts.LineCommentInvisible | src/Xdl.cpp:123-129 | `//` up to a line break is skipped and the line break is then read as input |
| ParserFacts.LoneSlash | src/Xdl.cpp:114-122 | outside strings, a `/` followed by anything other than `/` or `*` is ERR |
| ParserFacts.WordRead | src/Xdl.cpp:497-516 | a bare word is collected whole in IDENTIFIER |
| ParserFacts.WordSpace | src/Xdl.cpp:497-516 | a space after a bare word stores its keyword value (`Y`/`true`, `N`/`false`, `null`) at the root, and after any other word waits for `{` |
| ParserFacts.BareWord | src/Xdl.cpp:497-516 | a document that is one bare word decodes to its keyword value, and to NONE when it is not a keyword |
| ParserFacts.ClassTag | src/Xdl.cpp:430-443 | a non-keyword word, white space, then `{` opens a dictionary whose only entry stores the word under the class key |
| ParserFacts.WordNeedsBrace | src/Xdl.cpp:497-516 | a non-keyword word followed by anything other than a word character, white space, `{` or `/` is ERR; a `/` opens a comment inside the word |
| Leniency.TrailingCommaArray | src/Xdl.cpp:392-402 | a `,` right before `]` changes nothing |
| Leniency.TrailingCommaObject | src/Xdl.cpp:454-459 | a `,` right before `}` changes nothing |
| Leniency.NewlineSeparates | src/Xdl.cpp:409-411 | between items or members a line break reads exactly like a comma |
| Leniency.EmptyValueStep | src/Xdl.cpp:381-386 | `}` right after `=` or `:` closes the object |
| Leniency.CommentInsideInteger | src/Xdl.cpp:100-108 | a block comment between the characters of an integer literal and the rest of the text is invisible to `decode`: the digits after it continue the same token; this is the corrected ENDCOMMENT rule (see Findings), and as written a body ending in `*` does not close |
| Leniency.CommentSplitsTwelve | src/Xdl.cpp:100-108 | `1/**/2` decodes to the integer 12 |
| Leniency.StarsInInteger | src/Xdl.cpp:100-160 | with the corrected ENDCOMMENT rule, a comment whose body ends in `*` also splits an integer: `1/***/2` decodes to 12 (as written it gives NONE, `Findings.StarsInIntegerAsWritten`) |
| Leniency.EmptyValueCloses | src/Xdl.cpp:381-386 | after that `}` the pending name is left on the stack; in an enclosing object, the closed object is stored under that stale name and the enclosing member's name is left over |
| ScalarReading.ReadInt | src/Xdl.cpp:173-209 | the text `new_number(int)` writes for a value of at most nine characters reads back as that int, and the terminator is read again |
| ScalarReading.ReadKeyword | src/Xdl.cpp:497-516 | a keyword followed by a terminator is stored as its value |
| ScalarReading.KeywordTexts | src/Xdl.cpp:850-856 | the boolean texts of both modes and `null` are bare words that read as the same value |
| ScalarReading.ReadBool | src/Xdl.cpp:850-856 | the text `new_bool` writes, natively or in JSON, reads back as the same boolean |
| ScalarReading.ReadNull | src/Xdl.cpp:735-740 | `null` reads back as Null |
| ScalarReading.QuotedText | src/Xdl.cpp:466-495 | inside a string, the escaped text of any NUL-free string adds exactly that string to the buffer |
| ScalarReading.ReadString | src/Xdl.cpp:825-847 | `new_string(s)` output reads back as `s` for every NUL-free `s` |
| ScalarReading.ReadRawString | src/Xdl.cpp:311-324 | quoted text with no quote, backslash or NUL reads back as itself |
| ScalarReading.NumDigits | src/Xdl.cpp:279-310 | digits after the point or in the exponent are all appended |
| ScalarReading.FractionRead | src/Xdl.cpp:213-224 | `.` and digits turn an integer into a number and are appended |
| ScalarReading.ExponentRead | src/Xdl.cpp:225-278 | `e`/`E`, an optional sign and digits are appended and leave the parser in the exponent state |
| ScalarReading.ReadNum | src/Xdl.cpp:161-310 | any number token of the grammar, followed by a terminator, is stored as a double with that text; a leading zero is allowed before a fraction or an exponent (`01.5`), since the leading-zero test runs only when a plain integer ends |
| ScalarReading.LeadingZeroFraction | src/Xdl.cpp:173-197 | `01.5` followed by a terminator is stored as the double `01.5`: `.` leaves INT before the leading-zero test |
| TreeReading.NameRead | src/Xdl.cpp:325-348 | the text `new_property` writes for a readable name is read back as that pending name |
| TreeReading.ReadValue | src/Xdl.cpp:349-408 | the compact text of any encodable value, followed by a terminator, leaves the parser exactly as storing that value does |
| TreeReading.ReadArray | src/Xdl.cpp:584-596 | the compact text of an array of encodable items is read back as that array |
| TreeReading.ReadDic | src/Xdl.cpp:598-612 | the compact text of an encodable dictionary, with or without a class, native or JSON, is read back as that dictionary |
| EncoderFacts.EncCompact | src/Xdl.cpp:649-742 | compact encoding appends exactly the reference text `Compact(v)` and raises the level by the number of dictionaries written |
| EncoderFacts.ItemsCompact | src/Xdl.cpp:683-696 | compact array items are the items' reference texts separated by single commas |
| EncoderFacts.FieldsCompact | src/Xdl.cpp:714-726 | compact dictionary members are the shown members' texts separated by single commas |
| EncoderFacts.SkipHidden | src/Xdl.cpp:716 | a NONE value or the class entry writes nothing |
| EncoderFacts.ClassBody | src/Xdl.cpp:868-875 | natively the class is written before `{`; in JSON a non-empty class is the first member and the others follow it after a comma |
| EncoderFacts.Layout | src/Xdl.cpp:675-701 | from an encoder whose indentation matches its level, encoding keeps them matched, and pretty encoding returns to the starting level |
| Codec.EncodeCompact | src/Xdl.cpp:44-48 | `encodeXDL(v, false, json)` is exactly the reference text `Compact(v, json)` |
| Codec.CompactReuse | include/asl/Xdl.h:132-139 | on a used encoder, compact output is still the reference text, but the level grows by one for every dictionary written and is never lowered |
| Codec.PrettyReuse | include/asl/Xdl.h:132-139 | pretty encoding on an aligned encoder returns it to the same level and keeps it aligned |
| Codec.RoundTrip | include/asl/Xdl.h:143-155 | `decodeXDL` of the compact `encodeXDL` text of any encodable value, native or JSON, is that value |
| Codec.XdlRoundTrip | include/asl/Xdl.h:175-183 | `Xdl::decode` of the compact `Xdl::encode` text of any natively encodable value is that value |
| Codec.JsonRoundTrip | src/Xdl.cpp:50-58 | `decodeJSON` of the compact `encodeJSON` text of any JSON-encodable value is that value |
| Codec.LastValueWins | src/Xdl.cpp:565-574 | two top-level values separated by a space decode to the second one |
| Codec.LongIntegerIsDouble | src/Xdl.cpp:199-202 | an int whose text is longer than nine characters comes back as a double, not as the same int |
| Findings.CommentStepAsWritten | src/Xdl.cpp:134-142 | the source's ENDCOMMENT rule differs from the corrected one only on a second `*`, which drops back to COMMENT |
| Findings.SwallowedAsWritten | src/Xdl.cpp:130-142 | as written, inside a block comment any NUL-free text without `*` is swallowed |
| Findings.StarsAsWritten | src/Xdl.cpp:130-142 | as written, `/***/` leaves the parser inside a comment; under the corrected rule it is invisible |
| Findings.StarsDocumentAsWritten | src/Xdl.cpp:134-142 | `decode` with the as-written comment rule gives NONE for `/***/` followed by any integer |
| Findings.StarsDocument | src/Xdl.cpp:134-142 | under the corrected rule, `/***/` followed by a short integer decodes to that integer |
| Findings.StarsInIntegerAsWritten | src/Xdl.cpp:134-142 | as written, the comment `/***/` inside the integer `1…2` never closes, so `decode` of `1/***/2` gives NONE |
| Findings.ClassLeadAsWritten | src/Xdl.cpp:712 | the source's member count differs from the corrected one exactly for JSON dictionaries whose class entry has empty text |
| Findings.EncDicAsWritten | src/Xdl.cpp:706-734 | where the two member counts agree, the as-written dictionary encoding equals the model's |
| Findings.EmptyClassAsWritten | src/Xdl.cpp:706-734 | for compact JSON with an empty class, the source writes a comma before the first member while the corrected encoder does not |
| Findings.Rejected | src/Xdl.cpp:444-465 | text starting with `{,` decodes to NONE |
| Findings.EmptyClassUnreadable | src/Xdl.cpp:706-734 | as written, a JSON dictionary with an empty class and at least one member encodes to text that decodes to NONE |
| Findings.EmptyClassJson | src/Xdl.cpp:706-734 | with the corrected count, such a dictionary encodes to JSON that decodes to its members |
| Findings.EndCommentAfterStar | src/Xdl.cpp:100-160 | under the parser invariant, ENDCOMMENT is on top after an iteration only when that iteration read a `*` |
| Findings.FeedAgrees | src/Xdl.cpp:100-160 | the as-written and corrected rules read a character alike unless it is a `*` read in ENDCOMMENT, including the second reading after `s--` |
| Findings.LoopAgrees | src/Xdl.cpp:99-160 | from a well-formed parser, the as-written and corrected loops end in the same state on any text without two stars in a row |
| Findings.DecodeAgrees | src/Xdl.cpp:576-581 | `decode` with the as-written comment rule gives the same value as the model's for any text without two stars in a row |
| Findings.ClassLeadAgrees | src/Xdl.cpp:706-712 | for a dictionary whose class entry, if any, comes first and is a readable class name, the as-written count equals the corrected one |
| Findings.EncAgrees | src/Xdl.cpp:649-742 | the as-written walk writes exactly what the model's walk writes for every value with no JSON dictionary whose class text is empty |
| Findings.EncodableAgrees | src/Xdl.cpp:706-712 | every value the format can carry has no such dictionary |
| Findings.RoundTripAsWritten | include/asl/Xdl.h:143-155 | with both rules as written, compact encoding then decoding gives back every value the format can carry whose text has no two stars in a row |

## Left out

- File helpers `Xdl::read`, `Xdl::write`, `Json::read` and `Json::write` (src/Xdl.cpp:60-78): they are file I/O around `decode` and `encode`.
- Floating point:
  - the conversions `atof` and `myatof`;
  - the `%.17g` and `%.9g` formatting;
  - the locale decimal point `_ldp` and the `.`/`,` swaps;
  - the NaN and infinity sentinels.

  A double is an opaque token: the parser keeps the text it read, and the writer emits the token it is given.
- The FLOAT/NUMBER and STRING/SSTRING storage variants of `Var`: each pair is one `Value` case.
- HDic hashing and iteration order: these are not part of this model. A dictionary is an association list in insertion order.
- `\uXXXX` decoding (src/Xdl.cpp:526-537): `strtoul` and `utf16toUtf8` are not part of this model. The leading hex digits are taken as a code unit and written as UTF-8 units, one char each. No property is proved about `\u` escapes.
- The `Container` union, its `memcpy` copy, `asl_construct`/`asl_destroy` and the destructor: containers are a sum type, and memory is not modelled.
- The `ASL_FAST_JSON` and `ASL_NO_FIX_DOT` compile-time variants: only the default build is modelled.
- The `XdlCodec` base callbacks (include/asl/Xdl.h:35-45): they are no-ops. The only sink modelled is the tree builder, whose scalar callbacks all forward to `put` (`XdlParser.Put`).
- Codec.RoundTrip: proved for compact output only. The pretty layout is modelled (`EncoderFacts.Layout`, `Codec.PrettyReuse`), but reading pretty text back is not proved.
- Codec.RoundTrip: requires `Encodable`. It excludes the values whose text does not read back as themselves:
  - integers of more than nine characters (`Codec.LongIntegerIsDouble`);
  - strings containing NUL;
  - NONE anywhere, which is written as `null`;
  - property names the parser cannot read unquoted, or that contain `"` in JSON;
  - class tags that are keywords, empty, or not strings.
- XdlWriter.Quote: control characters other than `\n`, `\r`, `\t` and `\f` are written unescaped, as in the source, although section 7 of RFC 8259 requires escapes. Since the parser accepts them raw, the round trip still holds.
- ParserFacts.BlockCommentInvisible: requires a body with no NUL and no `*/`, and is stated for the corrected ENDCOMMENT rule. A body whose `*/` is preceded by another `*` does not close as written (Findings).
- Leniency.CommentInsideInteger: is stated for the corrected ENDCOMMENT rule. As written, a body ending in `*` does not close, and the rest of the text is swallowed (`Findings.StarsInIntegerAsWritten`).
- XdlParser.Step: uses the corrected ENDCOMMENT rule, not the code's. The code's rule is `Findings.StepAsWritten`. The two are proved to agree on every text without two stars in a row (`Findings.LoopAgrees`), but not in general: they differ on `/***/`.
- XdlEncoder.ClassLead: is the corrected member count, not the code's `(hasclass && _json) ? 1 : 0`. The code's count is `Findings.ClassLeadAsWritten`. The two agree on every value the format can carry (`Findings.EncAgrees`, `Findings.EncodableAgrees`), but not on a JSON dictionary whose class text is empty.
- Findings.RoundTripAsWritten: also requires that the compact text have no two stars in a row, because the as-written comment rule is proved equal to the corrected one only on such text. Stars inside strings never reach the comment rule, so the requirement is stronger than needed.
- XdlEncoder.EncodeWith: the source's `encode` does not reset `_level`. Compact encoding leaves the level raised, so the state of a reused encoder is modelled as is (`Codec.CompactReuse`). `encodeXDL` always uses a fresh encoder.

## Findings

| source | as written | input that shows it | evidently intended | confidence | as-written member | corrected member |
|---|---|---|---|---|---|---|
| src/Xdl.cpp:134-142 | in ENDCOMMENT any character other than `/` pops back to COMMENT, including a second `*`, so a `*` directly before the closing `*/` is lost and the comment does not end | `/***/1` decodes to NONE (the comment never closes) | a `*` in ENDCOMMENT stays in ENDCOMMENT, so `/***/1` decodes to the integer 1 | not executed | Findings.StarsDocumentAsWritten | Findings.StarsDocument |
| src/Xdl.cpp:712 | `k = (hasclass && _json) ? 1 : 0` counts a class member even when the class text is empty, but `begin_object` (src/Xdl.cpp:873-874) writes no class member then, so the first member gets a leading comma | the JSON encoding of `{"$type": "", "x": 1}` is `{,"x":1}`, which decodes to NONE | count the class member only when it was written (non-empty class text), giving `{"x":1}` | not executed | Findings.EmptyClassUnreadable | Findings.EmptyClassJson |

=== FILE: chars.dfy ===
/** Character classes and decimal conversions used by the parser and the writer.
    `myisspace`, `myisalnum`, `myatoiz` and `myitoa` are library helpers defined outside
    the modelled files; they are taken here to agree with the C locale. A `char` stands for
    one byte of the C string, so text outside ASCII is its UTF-8 bytes, none of which is
    white space or alphanumeric. */
module Chars {

  predicate IsDigit(c: char) {
    '0' <= c <= '9'
  }

  predicate IsAlpha(c: char) {
    ('a' <= c <= 'z') || ('A' <= c <= 'Z')
  }

  predicate IsAlnum(c: char) {
    IsDigit(c) || IsAlpha(c)
  }

  /** C `isspace` in the C locale. */
  predicate IsSpace(c: char) {
    c == ' ' || c == '\t' || c == '\n' || c == '\r' || c == '\U{0B}' || c == '\U{0C}'
  }

  predicate AllDigits(s: string) {
    forall i | 0 <= i < |s| :: IsDigit(s[i])
  }

  function DigitOf(c: char): (d: nat)
    ensures d <= 9
  {
    if IsDigit(c) then (c - '0') as nat else 0
  }

  function CharOf(d: nat): (c: char)
    requires d <= 9
    ensures IsDigit(c) && DigitOf(c) == d
  {
    ('0' as int + d) as char
  }

  function Pow10(n: nat): (r: nat)
    ensures r >= 1
  {
    if n == 0 then 1 else 10 * Pow10(n - 1)
  }

  lemma {:induction false} Pow10Monotone(m: nat, n: nat)
    requires m <= n
    ensures Pow10(m) <= Pow10(n)
  {
    if m < n {
      Pow10Monotone(m, n - 1);
    }
  }

  /** Value of a run of decimal digits, most significant first. */
  function DigitsValue(s: string): (r: nat)
    ensures r < Pow10(|s|)
  {
    if s == [] then 0 else DigitsValue(s[..|s| - 1]) * 10 + DigitOf(s[|s| - 1])
  }

  /** `myatoiz`: an optional minus sign followed by decimal digits. */
  function AtoI(s: string): (r: int)
    ensures -(Pow10(|s|) as int) < r < Pow10(|s|)
  {
    if |s| > 0 && s[0] == '-' then
      Pow10Monotone(|s| - 1, |s|);
      -(DigitsValue(s[1..]) as int)
    else DigitsValue(s)
  }

  /** Decimal digits of a natural number, without leading zeros. */
  function NatText(n: nat): (r: string)
    ensures |r| >= 1 && AllDigits(r)
    ensures DigitsValue(r) == n
    ensures r[0] == '0' ==> n == 0 && r == "0"
    ensures Pow10(|r| - 1) <= n || n == 0
    ensures n < Pow10(|r|)
  {
    if n < 10 then [CharOf(n)]
    else
      var r := NatText(n / 10) + [CharOf(n % 10)];
      assert r[..|r| - 1] == NatText(n / 10);
      r
  }

  /** `myitoa`: the decimal text of an integer. */
  function DecimalText(i: int): (r: string)
    ensures |r| >= 1
  {
    if i < 0 then "-" + NatText(-i) else NatText(i)
  }

  /** Reading back the decimal text of an integer gives the integer. */
  lemma DecimalTextRoundTrip(i: int)
    ensures AtoI(DecimalText(i)) == i
  {
    if i < 0 {
      assert DecimalText(i)[1..] == NatText(-i);
    }
  }

  /** The text of `i` is at most nine characters long exactly when
      -99999999 <= i <= 999999999. */
  lemma DecimalTextShort(i: int)
    ensures |DecimalText(i)| <= 9 <==> -99_999_999 <= i <= 999_999_999
  {
    if i < 0 { NegativeTextShort(i); } else { NatTextShort(i); }
  }

  lemma NatTextShort(n: nat)
    ensures |NatText(n)| <= 9 <==> n <= 999_999_999
  {
    Pow10Nine();
    var t := NatText(n);
    if |t| <= 9 {
      Pow10Monotone(|t|, 9);
    } else {
      Pow10Monotone(9, |t| - 1);
    }
  }

  lemma NegativeTextShort(i: int)
    requires i < 0
    ensures |DecimalText(i)| <= 9 <==> -99_999_999 <= i
  {
    Pow10Nine();
    var t := NatText(-i);
    assert |DecimalText(i)| == 1 + |t|;
    if |t| <= 8 {
      Pow10Monotone(|t|, 8);
    } else {
      Pow10Monotone(8, |t| - 1);
    }
  }

  lemma Pow10Nine()
    ensures Pow10(8) == 100_000_000 && Pow10(9) == 1_000_000_000
  {
  }

  /** `String(INDENT_CHAR, n)`: n tab characters, none when n is not positive. */
  function Tabs(n: int): (r: string)
    ensures |r| == (if n <= 0 then 0 else n)
    ensures forall i | 0 <= i < |r| :: r[i] == '\t'
  {
    if n <= 0 then "" else Tabs(n - 1) + "\t"
  }
}

=== FILE: codec.dfy ===
/** The codec as a whole: what `decode` gives back for the text `encode` writes. Compact
    encoding of any value the format can carry decodes to the same value; the root list
    keeps every top-level value and `decode` returns the last one; an integer too long for
    an `int` comes back as a double. */
module Codec {
  import opened Values
  import opened Chars
  import opened XdlParser
  import opened ParserFacts
  import opened ScalarReading
  import opened TreeReading
  import W = XdlWriter
  import E = XdlEncoder
  import F = EncoderFacts

  // ---------------------------------------------------------------- no NUL in the text

  lemma NoNulCat(a: string, b: string)
    requires NoNul(a) && NoNul(b)
    ensures NoNul(a + b)
  {
    forall i | 0 <= i < |a + b|
      ensures (a + b)[i] != '\0'
    {
      if i >= |a| {
        assert (a + b)[i] == b[i - |a|];
      }
    }
  }

  lemma NoNulCat3(a: string, b: string, c: string)
    requires NoNul(a) && NoNul(b) && NoNul(c)
    ensures NoNul(a + b + c)
  {
    NoNulCat(a, b);
    NoNulCat(a + b, c);
  }

  /** The first part and the text of the parts after it, each after a comma. */
  lemma NoNulParts(p0: string, tail: string)
    requires NoNul(p0) && NoNul(tail)
    ensures NoNul(p0 + tail) && NoNul("," + p0 + tail)
  {
    NoNulCat(p0, tail);
    NoNulCat3(",", p0, tail);
  }

  lemma {:induction false} EscapeNoNul(s: string)
    requires NoNul(s)
    ensures NoNul(W.EscapeText(s))
    decreases |s|
  {
    if s != [] {
      NoNulTail(s);
      EscapeNoNul(s[1..]);
      NoNulCat(W.EscapeChar(s[0]), W.EscapeText(s[1..]));
    }
  }

  lemma ScalarNoNul(v: Value, json: bool)
    requires Encodable(v, json) && !IsContainer(v)
    ensures NoNul(F.Compact(v, json))
  {
    match v
    case Int(i) =>
      DecimalTextIsLiteral(i);
      LiteralNoNul(DecimalText(i));
    case Num(t) =>
      var m, f, x :| NumParts(m, f, x) && t == m + f + x;
      assert forall k | 0 < k < |m| :: m[k] == m[1..][k - 1];
      assert forall k | 1 < k < |f| :: f[k] == f[1..][k - 1];
      assert forall k | 2 < k < |x| :: x[k] == x[2..][k - 2] == x[1..][k - 1];
      assert forall k | 1 < k < |x| :: x[k] == x[1..][k - 1];
      NoNulCat3(m, f, x);
    case Str(s) =>
      CTextWhole(s);
      EscapeNoNul(s);
      NoNulCat3("\"", W.EscapeText(s), "\"");
    case Bool(b) =>
    case Null =>
  }

  /** The compact text of a value the format can carry holds no NUL. */
  lemma CompactNoNul(v: Value, json: bool)
    requires Encodable(v, json)
    ensures NoNul(F.Compact(v, json))
    decreases Size(v), 0
  {
    match v
    case Arr(items) =>
      ItemsNoNul(items, json);
      NoNulCat3("[", F.Join(F.ItemTexts(items, json)), "]");
    case Dic(fields) => DicNoNul(fields, json);
    case _ => ScalarNoNul(v, json);
  }

  lemma ItemsNoNul(items: seq<Value>, json: bool)
    requires ItemsEncodable(items, json)
    ensures NoNul(F.Join(F.ItemTexts(items, json))) && NoNul(F.Prefixed(F.ItemTexts(items, json)))
    decreases ItemsSize(items), 1
  {
    if items != [] {
      F.ItemTextsCons(items, json);
      CompactNoNul(items[0], json);
      ItemsNoNul(items[1..], json);
      NoNulParts(F.Compact(items[0], json), F.Prefixed(F.ItemTexts(items[1..], json)));
    }
  }

  lemma NameNoNul(name: string, json: bool)
    requires NameOk(name, json)
    ensures NoNul(W.PropertyText(name, json))
  {
    if json {
      NoNulCat3("\"", name, "\":");
    } else {
      NoNulCat(name, "=");
    }
  }

  lemma MembersNoNul(ms: seq<Field>, json: bool)
    requires MembersOk(ms, json)
    ensures NoNul(F.Join(F.MemberTexts(ms, json))) && NoNul(F.Prefixed(F.MemberTexts(ms, json)))
    decreases FieldsSize(ms), 1
  {
    if ms != [] {
      var t := F.MemberTexts(ms, json);
      ShownTexts(ms, json);
      NameNoNul(ms[0].name, json);
      CompactNoNul(ms[0].val, json);
      NoNulCat(W.PropertyText(ms[0].name, json), F.Compact(ms[0].val, json));
      MembersNoNul(ms[1..], json);
      assert F.Join(t) == t[0] + F.Prefixed(t[1..]);
      NoNulParts(t[0], F.Prefixed(t[1..]));
    }
  }

  lemma DicNoNul(fields: seq<Field>, json: bool)
    requires Encodable(Dic(fields), json)
    ensures NoNul(F.Compact(Dic(fields), json))
    decreases FieldsSize(fields), 2
  {
    if fields != [] && fields[0].name == ClassKey {
      ClassRest(fields, json);
      MembersNoNul(fields[1..], json);
      ClassDicNoNul(fields, json);
    } else {
      MembersNoNul(fields, json);
      PlainText(fields, json);
      NoNulCat3("{", F.Join(F.MemberTexts(fields, json)), "}");
    }
  }

  lemma ClassDicNoNul(fields: seq<Field>, json: bool)
    requires fields != [] && fields[0].name == ClassKey && fields[0].val.Str?
    requires ClassNameOk(fields[0].val.s, json)
    requires NoNul(F.Join(F.MemberTexts(fields[1..], json))) && NoNul(F.Prefixed(F.MemberTexts(fields[1..], json)))
    ensures NoNul(F.Compact(Dic(fields), json))
  {
    var cls := fields[0].val.s;
    ClassTextOf(fields, json);
    ClassRest(fields, json);
    var m := F.MemberTexts(fields[1..], json);
    if json {
      assert F.Compact(Dic(fields), json) == "{" + F.Join([W.ClassMember(cls)] + m) + "}";
      ClassMemberNoNul(cls);
      F.JoinCons(W.ClassMember(cls), m);
      NoNulParts(W.ClassMember(cls), F.Prefixed(m));
      NoNulCat3("{", F.Join([W.ClassMember(cls)] + m), "}");
    } else {
      assert F.Compact(Dic(fields), json) == cls + "{" + F.Join(m) + "}";
      assert forall k | 0 < k < |cls| :: cls[k] == cls[1..][k - 1];
      NoNulCat3(cls, "{", F.Join(m));
      NoNulCat(cls + "{" + F.Join(m), "}");
    }
  }

  lemma ClassMemberNoNul(cls: string)
    requires RawText(cls)
    ensures NoNul(W.ClassMember(cls))
  {
    NoNulCat3("\"" + ClassKey + "\":\"", cls, "\"");
  }

  // ---------------------------------------------------------------- encode, then decode

  /** `encodeXDL(v, false, json)` writes the compact reference text. */
  lemma EncodeCompact(v: Value, json: bool)
    ensures E.EncodeXdl(v, false, json) == F.Compact(v, json)
  {
    var e1 := E.Fresh().(w := W.Reset(E.Fresh().w.(pretty := false, json := json)));
    F.EncCompact(e1, v);
    assert e1.w.out == "";
    assert "" + F.Compact(v, json) == F.Compact(v, json);
  }

  /** `XdlEncoder::encode` on an encoder used before: the compact text does not depend on
      what was encoded earlier, but the level is not reset, and every dictionary written
      in compact mode leaves it one higher. */
  lemma CompactReuse(e: E.Encoder, v: Value, json: bool)
    ensures E.EncodeWith(e, v, false, json).1 == F.Compact(v, json)
    ensures E.EncodeWith(e, v, false, json).0.level == e.level + F.WrittenDics(v)
  {
    var e1 := e.(w := W.Reset(e.w.(pretty := false, json := json)));
    assert E.EncodeWith(e, v, false, json).0 == E.Enc(e1, v);
    assert e1.w.out == "" && !e1.w.pretty && e1.w.json == json && e1.level == e.level;
    F.EncCompact(e1, v);
    assert "" + F.Compact(v, json) == F.Compact(v, json);
  }

  /** In pretty mode `encode` gives the level back, and the indentation stays one tab per
      level. */
  lemma PrettyReuse(e: E.Encoder, v: Value, json: bool)
    requires F.Aligned(e)
    ensures E.EncodeWith(e, v, true, json).0.level == e.level
    ensures F.Aligned(E.EncodeWith(e, v, true, json).0)
  {
    F.Layout(e.(w := W.Reset(e.w.(pretty := true, json := json))), v);
  }

  /** At the root, after a value, a space changes nothing. */
  lemma RootSpace(p: Parser)
    requires p.state == WaitValue && Top(p.ctx) == Root && !p.inComment
    ensures Loop(p, " ") == p
  {
    assert Step(p, ' ') == OnWaitValue(p, ' ', Root) == (p, Next);
  }

  /** The root list after a value read from a fresh parser, and after a second one. */
  lemma RootList(x: Value, y: Value)
    ensures After(Init(), x).lists == [ArrC([x])] && Fresh(After(Init(), x))
    ensures After(After(Init(), x), y).lists == [ArrC([x, y])]
    ensures Top(After(After(Init(), x), y).ctx) == Root && After(After(Init(), x), y).state == WaitValue
    ensures !After(After(Init(), x), y).inComment
  {
    assert [] + [x] == [x];
    assert [x] + [y] == [x, y];
  }

  /** Round trip: compact encoding, native or JSON, of any value the format can carry
      decodes to the same value. */
  lemma RoundTrip(v: Value, json: bool)
    requires Encodable(v, json)
    ensures Decode(E.EncodeXdl(v, false, json)) == v
  {
    var s := F.Compact(v, json);
    EncodeCompact(v, json);
    CompactNoNul(v, json);
    DecodeOneParse(s);
    ReadValue(Init(), v, json, " ");
    RootList(v, v);
    var q := After(Init(), v);
    RootSpace(q);
    assert RootValue(q) == v;
  }

  /** `Xdl::decode` reads back what `Xdl::encode` writes in its compact form. */
  lemma XdlRoundTrip(v: Value)
    requires Encodable(v, false)
    ensures Decode(E.XdlEncode(v, false)) == v
  {
    RoundTrip(v, false);
  }

  /** `decodeJSON` reads back what `encodeJSON` writes in its compact form. */
  lemma JsonRoundTrip(v: Value)
    requires Encodable(v, true)
    ensures Decode(E.EncodeJson(v, false)) == v
  {
    RoundTrip(v, true);
  }

  /** Two values, each followed by a space, from a fresh parser. */
  lemma ReadTwo(x: Value, y: Value, json: bool)
    requires Encodable(x, json) && Encodable(y, json)
    ensures Loop(Init(), F.Compact(x, json) + " " + F.Compact(y, json) + " ") == After(After(Init(), x), y)
  {
    var a := F.Compact(x, json);
    var b := F.Compact(y, json);
    SpaceText(a, b);
    ReadValue(Init(), x, json, " " + (b + " "));
    RootList(x, y);
    var q := After(Init(), x);
    SpaceThenValue(q, b + " ");
    ReadValue(q, y, json, " ");
    RootSpace(After(q, y));
  }

  lemma SpaceText(a: string, b: string)
    ensures a + " " + b + " " == a + (" " + (b + " "))
  {
  }

  /** Several top-level values all land in the root list; `decode` gives the last. */
  lemma LastValueWins(x: Value, y: Value, json: bool)
    requires Encodable(x, json) && Encodable(y, json)
    ensures Decode(F.Compact(x, json) + " " + F.Compact(y, json)) == y
  {
    var a := F.Compact(x, json);
    var b := F.Compact(y, json);
    CompactNoNul(x, json);
    CompactNoNul(y, json);
    NoNulCat3(a, " ", b);
    DecodeOneParse(a + " " + b);
    ReadTwo(x, y, json);
    RootList(x, y);
    var r := After(After(Init(), x), y);
    assert r.lists[0].items == [x, y];
  }

  /** A space between top-level values is skipped. */
  lemma SpaceThenValue(q: Parser, rest: string)
    requires Fresh(q) && Top(q.ctx) == Root
    ensures Loop(q, " " + rest) == Loop(q, rest)
  {
    assert Step(q, ' ') == OnWaitValue(q, ' ', Root) == (q, Next);
    LoopCons(q, ' ', rest, q);
  }

  /** A long integer literal, then a space, from a fresh parser: a double is put. */
  lemma ReadLongInteger(t: string)
    requires IsIntLiteral(t) && !LeadingZero(t) && |t| > 9
    ensures Loop(Init(), t + " ") == After(Init(), Num(t))
  {
    IntegerAt(Init(), t, " ");
    var q := Init().(state := Integer, buffer := t);
    assert t != "-";
    IntegerEnd(q, ' ');
    assert IntegerValue(t) == Num(t);
    AfterFrame(Init(), Integer, t, Num(t));
    Settle(q, Init(), Num(t), " ");
    RootList(Num(t), Num(t));
    RootSpace(After(Init(), Num(t)));
  }

  /** An integer whose text is longer than nine characters is written as such but read
      back as a double with the same digits. */
  lemma LongIntegerIsDouble(i: int32)
    requires |DecimalText(i)| > 9
    ensures Decode(E.EncodeXdl(Int(i), false, false)) == Num(DecimalText(i))
  {
    var t := DecimalText(i);
    EncodeCompact(Int(i), false);
    DecimalTextIsLiteral(i);
    LiteralNoNul(t);
    DecodeOneParse(t);
    ReadLongInteger(t);
    RootOne(Num(t));
  }

  lemma LiteralNoNul(t: string)
    requires IsIntLiteral(t)
    ensures NoNul(t)
  {
    assert forall k | 0 < k < |t| :: t[k] == t[1..][k - 1];
  }

  /** The value of a parser that has read one value from the start. */
  lemma RootOne(x: Value)
    ensures RootValue(After(Init(), x)) == x
  {
    RootList(x, x);
    assert After(Init(), x).lists[0].items == [x];
  }
}

=== FILE: encoder.dfy ===
/** `XdlEncoder::_encode`: a recursive walk over a value that drives the writer callbacks,
    with the pretty-printing layout (line breaks and tab indentation) of the source. */
module XdlEncoder {
  import opened Values
  import opened Chars
  import opened XdlWriter

  /** The writer plus the encoder's own `_level` and `_indent`. */
  datatype Encoder = Encoder(w: Writer, level: int, indent: string)

  /** `Var::toString` of the class entry as `begin_object` receives it. */
  function ClassText(x: Value): string {
    if x.Str? then x.s else ""
  }

  /** The class a dictionary is written with: `v.has(ASL_XDLCLASS)` decides, then the text
      of that entry. */
  function ClassOf(fields: seq<Field>): string {
    if HasKey(fields, ClassKey) then ClassText(Lookup(fields, ClassKey)) else ""
  }

  /** The initial member count `k` of a dictionary: one when a class member has already been
      written (JSON with a non-empty class), so that the first member gets a comma.
      `Findings.ClassLeadAsWritten` is the source's version. */
  function ClassLead(cls: string, json: bool): (k: int)
    ensures k == 1 <==> json && ObjectOpening(CText(cls), json) != "{"
    ensures k == 0 || k == 1
  {
    if json && CText(cls) != "" then 1 else 0
  }

  /** Entries a dictionary writes as members: not NONE and not the class entry. */
  predicate Shown(f: Field) {
    f.val != None && f.name != ClassKey
  }

  function Emitted(e: Encoder, t: string): Encoder {
    e.(w := Emit(e.w, t))
  }

  /** One level deeper: `_indent = String(INDENT_CHAR, ++_level)`. */
  function Deeper(e: Encoder): Encoder {
    e.(level := e.level + 1, indent := Tabs(e.level + 1))
  }

  /** One level back, then a line break and the indentation. */
  function Shallower(e: Encoder): Encoder {
    var e1 := e.(level := e.level - 1, indent := Tabs(e.level - 1));
    Emitted(e1, "\n" + e1.indent)
  }

  /** Separator before item `i > 0` of an array: with a multi-line layout a line break
      (preceded by a comma in JSON) before every item of an array of containers and
      before every sixteenth item otherwise; a comma everywhere else. */
  function ItemSeparator(e: Encoder, i: int, multi: bool, big: bool): Encoder {
    if multi && (big || i % 16 == 0) then
      Emitted(e, (if e.w.json then "," else "") + "\n" + e.indent)
    else Emitted(e, ",")
  }

  /** Separator before a dictionary member given the member count `k`, and the new count.
      Pretty: in JSON a comma after the first member, then a line break and the indentation
      (`k` only advances in JSON). Compact: a comma after the first member. */
  function MemberSeparator(e: Encoder, k: int): (Encoder, int) {
    if e.w.pretty then
      var e1 := if e.w.json && k != 0 then Emitted(e, ",") else e;
      (Emitted(e1, "\n" + e1.indent), if e.w.json then k + 1 else k)
    else
      (if k > 0 then Emitted(e, ",") else e, k + 1)
  }

  /** `_encode`: the output only grows, and the flags are never changed. */
  function Enc(e: Encoder, v: Value): (r: Encoder)
    ensures r.w.pretty == e.w.pretty && r.w.json == e.w.json
    ensures e.w.out <= r.w.out
    decreases Size(v), 0
  {
    match v
    case Int(i) => e.(w := NewInt(e.w, i))
    case Num(t) => e.(w := NewNum(e.w, t))
    case Str(s) => e.(w := NewString(e.w, s))
    case Bool(b) => e.(w := NewBool(e.w, b))
    case Null => e.(w := NewNull(e.w))
    case None => e.(w := NewNull(e.w))
    case Arr(items) => EncArray(e, items)
    case Dic(fields) => EncDic(e, fields)
  }

  /** An array: '[', the items, ']', on several lines when pretty and the array is long
      (more than ten items) or holds containers. */
  function EncArray(e: Encoder, items: seq<Value>): (r: Encoder)
    ensures r.w.pretty == e.w.pretty && r.w.json == e.w.json
    ensures e.w.out <= r.w.out
    decreases ItemsSize(items), 2
  {
    var n := |items|;
    var big := n > 0 && IsContainer(items[0]);
    var multi := e.w.pretty && (n > 10 || big);
    var e1 := e.(w := BeginArray(e.w));
    var e2 := if multi then var d := Deeper(e1); Emitted(d, "\n" + d.indent) else e1;
    var e3 := EncItems(e2, items, 0, multi, big);
    var e4 := if multi then Shallower(e3) else e3;
    e4.(w := EndArray(e4.w))
  }

  /** A dictionary: the opening with its class, the shown entries as members, '}'. */
  function EncDic(e: Encoder, fields: seq<Field>): (r: Encoder)
    ensures r.w.pretty == e.w.pretty && r.w.json == e.w.json
    ensures e.w.out <= r.w.out
    decreases FieldsSize(fields), 2
  {
    var e1 := e.(w := BeginObject(e.w, ClassOf(fields)));
    var e2 := Deeper(e1);
    var e3 := EncFields(e2, fields, ClassLead(ClassOf(fields), e.w.json));
    var e4 := if e.w.pretty then Shallower(e3) else e3;
    e4.(w := EndObject(e4.w))
  }

  /** The loop over the items of an array; `rest` starts at item number `i`. */
  function EncItems(e: Encoder, rest: seq<Value>, i: int, multi: bool, big: bool): (r: Encoder)
    ensures r.w.pretty == e.w.pretty && r.w.json == e.w.json
    ensures e.w.out <= r.w.out
    decreases ItemsSize(rest), 1
  {
    if rest == [] then e
    else
      var e1 := if i > 0 then ItemSeparator(e, i, multi, big) else e;
      EncItems(Enc(e1, rest[0]), rest[1..], i + 1, multi, big)
  }

  /** The loop over the entries of a dictionary with member count `k`. */
  function EncFields(e: Encoder, rest: seq<Field>, k: int): (r: Encoder)
    ensures r.w.pretty == e.w.pretty && r.w.json == e.w.json
    ensures e.w.out <= r.w.out
    decreases FieldsSize(rest), 1
  {
    if rest == [] then e
    else if Shown(rest[0]) then
      var (e1, k1) := MemberSeparator(e, k);
      var e2 := e1.(w := NewProperty(e1.w, rest[0].name));
      EncFields(Enc(e2, rest[0].val), rest[1..], k1)
    else EncFields(e, rest[1..], k)
  }

  /** A freshly constructed encoder: level 0, no indentation, empty output. */
  function Fresh(): Encoder {
    Encoder(Writer("", false, false), 0, "")
  }

  /** `XdlEncoder::encode(v, pretty, json)` on an encoder `e`: set the flags, empty the
      output, walk the value; the text is the output, the encoder keeps its level. */
  function EncodeWith(e: Encoder, v: Value, pretty: bool, json: bool): (r: (Encoder, string))
    ensures r.1 == r.0.w.out
    ensures r.0.w.pretty == pretty && r.0.w.json == json
  {
    var e1 := e.(w := Reset(e.w.(pretty := pretty, json := json)));
    var e2 := Enc(e1, v);
    (e2, e2.w.out)
  }

  /** `encodeXDL(v, pretty, json)`: encode with a fresh encoder. */
  function EncodeXdl(v: Value, pretty: bool, json: bool): string {
    EncodeWith(Fresh(), v, pretty, json).1
  }

  /** `encodeJSON(v, pretty)`. */
  function EncodeJson(v: Value, pretty: bool): string {
    EncodeXdl(v, pretty, true)
  }

  /** `Xdl::encode(v, pretty)`: always native XDL, never JSON. */
  function XdlEncode(v: Value, pretty: bool): string {
    EncodeXdl(v, pretty, false)
  }
}

=== FILE: encoder_facts.dfy ===
/** What the encoder writes, stated independently of its loops: a compact reference text,
    the level and indentation it leaves behind, and the entries it skips. */
module EncoderFacts {
  import opened Values
  import opened Seqs
  import opened Chars
  import opened XdlWriter
  import opened XdlEncoder

  /** Each part preceded by a comma. */
  function Prefixed(parts: seq<string>): string {
    if parts == [] then "" else "," + parts[0] + Prefixed(parts[1..])
  }

  /** The parts separated by commas. */
  function Join(parts: seq<string>): string {
    if parts == [] then "" else parts[0] + Prefixed(parts[1..])
  }

  /** The compact text of a value: items and members separated by single commas, no white
      space; a class before '{' natively, as the first member in JSON. */
  function Compact(v: Value, json: bool): string
    decreases Size(v), 0
  {
    match v
    case Int(i) => DecimalText(i)
    case Num(t) => t
    case Str(s) => Quote(s)
    case Bool(b) => BoolText(b, json)
    case Null => "null"
    case None => "null"
    case Arr(items) => "[" + Join(ItemTexts(items, json)) + "]"
    case Dic(fields) =>
      var cls := CText(ClassOf(fields));
      if json then "{" + Join((if cls != "" then [ClassMember(cls)] else []) + MemberTexts(fields, json)) + "}"
      else cls + "{" + Join(MemberTexts(fields, json)) + "}"
  }

  function ItemTexts(items: seq<Value>, json: bool): (r: seq<string>)
    ensures |r| == |items|
    decreases ItemsSize(items), 1
  {
    if items == [] then [] else [Compact(items[0], json)] + ItemTexts(items[1..], json)
  }

  /** One `name=value` (or `"name":value`) per shown entry, in order. */
  function MemberTexts(fields: seq<Field>, json: bool): seq<string>
    decreases FieldsSize(fields), 1
  {
    if fields == [] then []
    else if Shown(fields[0]) then
      [PropertyText(fields[0].name, json) + Compact(fields[0].val, json)] + MemberTexts(fields[1..], json)
    else MemberTexts(fields[1..], json)
  }

  /** The dictionaries the encoder opens while writing a value: every dictionary, but
      not those under a skipped entry. */
  function WrittenDics(v: Value): nat
    decreases Size(v), 0
  {
    match v
    case Arr(items) => ItemsDics(items)
    case Dic(fields) => 1 + FieldsDics(fields)
    case _ => 0
  }

  function ItemsDics(items: seq<Value>): nat
    decreases ItemsSize(items), 1
  {
    if items == [] then 0 else WrittenDics(items[0]) + ItemsDics(items[1..])
  }

  function FieldsDics(fields: seq<Field>): nat
    decreases FieldsSize(fields), 1
  {
    if fields == [] then 0
    else (if Shown(fields[0]) then WrittenDics(fields[0].val) else 0) + FieldsDics(fields[1..])
  }

  lemma JoinCons(a: string, parts: seq<string>)
    ensures Join([a] + parts) == a + Prefixed(parts)
    ensures Prefixed([a] + parts) == "," + a + Prefixed(parts)
  {
    assert ([a] + parts)[1..] == parts;
  }

  // ---------------------------------------------------------------- compact output

  /** Compact encoding writes exactly the reference text, and raises the level by one for
      every dictionary it opens (the source never lowers it in compact mode). */
  lemma {:induction false} EncCompact(e: Encoder, v: Value)
    requires !e.w.pretty
    ensures Enc(e, v).w.out == e.w.out + Compact(v, e.w.json)
    ensures Enc(e, v).level == e.level + WrittenDics(v)
    decreases Size(v), 0
  {
    match v
    case Arr(items) => ArrayCompact(e, items);
    case Dic(fields) => DicCompact(e, fields);
    case _ =>
  }

  lemma ArrayCompact(e: Encoder, items: seq<Value>)
    requires !e.w.pretty
    ensures Enc(e, Arr(items)).w.out == e.w.out + Compact(Arr(items), e.w.json)
    ensures Enc(e, Arr(items)).level == e.level + WrittenDics(Arr(items))
    decreases ItemsSize(items), 3
  {
    var big := |items| > 0 && IsContainer(items[0]);
    var e1 := e.(w := BeginArray(e.w));
    assert Enc(e, Arr(items)) == EncArray(e, items);
    assert EncArray(e, items) == (var e3 := EncItems(e1, items, 0, false, big); e3.(w := EndArray(e3.w)));
    ItemsCompact(e1, items, 0, big);
    var j := Join(ItemTexts(items, e.w.json));
    Concat4(e.w.out, "[", j, "]");
  }

  lemma DicCompact(e: Encoder, fields: seq<Field>)
    requires !e.w.pretty
    ensures Enc(e, Dic(fields)).w.out == e.w.out + Compact(Dic(fields), e.w.json)
    ensures Enc(e, Dic(fields)).level == e.level + WrittenDics(Dic(fields))
    decreases FieldsSize(fields), 3
  {
    var json := e.w.json;
    var cls := CText(ClassOf(fields));
    var opening := ObjectOpening(cls, json);
    var e1 := e.(w := BeginObject(e.w, ClassOf(fields)));
    var e2 := Deeper(e1);
    var k := ClassLead(ClassOf(fields), json);
    var e3 := EncFields(e2, fields, k);
    assert Enc(e, Dic(fields)) == e3.(w := EndObject(e3.w));
    FieldsCompact(e2, fields, k);
    var m := MemberTexts(fields, json);
    var body := if k == 0 then Join(m) else Prefixed(m);
    assert e3.w.out == e.w.out + opening + body;
    Concat4(e.w.out, opening, body, "}");
    ClassBody(cls, json, m);
  }

  /** The opening and the members of a dictionary, as the encoder writes them, make up
      its compact text. */
  lemma ClassBody(cls: string, json: bool, m: seq<string>)
    ensures var body := if json && cls != "" then Prefixed(m) else Join(m);
      ObjectOpening(cls, json) + body + "}" ==
        if json then "{" + Join((if cls != "" then [ClassMember(cls)] else []) + m) + "}"
        else cls + "{" + Join(m) + "}"
  {
    if json && cls != "" {
      assert ObjectOpening(cls, json) == "{" + ClassMember(cls);
      JoinCons(ClassMember(cls), m);
      Concat3("{", ClassMember(cls), Prefixed(m));
    } else if json {
      assert ObjectOpening(cls, json) == "{";
      assert (if cls != "" then [ClassMember(cls)] else []) + m == m;
    } else {
      assert ObjectOpening(cls, json) == cls + "{";
    }
  }

  /** One array item in compact mode: its separator, then its compact text. */
  lemma ItemStep(e: Encoder, rest: seq<Value>, i: int, big: bool)
    requires !e.w.pretty && i >= 0 && rest != []
    ensures var e2 := Enc(if i > 0 then ItemSeparator(e, i, false, big) else e, rest[0]);
      EncItems(e, rest, i, false, big) == EncItems(e2, rest[1..], i + 1, false, big) &&
      (i == 0 ==> e2.w.out == e.w.out + Compact(rest[0], e.w.json)) &&
      (i > 0 ==> e2.w.out == e.w.out + "," + Compact(rest[0], e.w.json)) &&
      e2.level == e.level + WrittenDics(rest[0]) && !e2.w.pretty && e2.w.json == e.w.json
    decreases ItemsSize(rest), 1
  {
    var e1 := if i > 0 then ItemSeparator(e, i, false, big) else e;
    EncCompact(e1, rest[0]);
  }

  lemma {:induction false} ItemsCompact(e: Encoder, rest: seq<Value>, i: int, big: bool)
    requires !e.w.pretty && i >= 0
    ensures EncItems(e, rest, i, false, big).w.out ==
      e.w.out + (if i == 0 then Join(ItemTexts(rest, e.w.json)) else Prefixed(ItemTexts(rest, e.w.json)))
    ensures EncItems(e, rest, i, false, big).level == e.level + ItemsDics(rest)
    decreases ItemsSize(rest), 2
  {
    var json := e.w.json;
    if rest != [] {
      var e2 := Enc(if i > 0 then ItemSeparator(e, i, false, big) else e, rest[0]);
      ItemStep(e, rest, i, big);
      ItemsCompact(e2, rest[1..], i + 1, big);
      var c0 := Compact(rest[0], json);
      var tail := Prefixed(ItemTexts(rest[1..], json));
      var r := EncItems(e2, rest[1..], i + 1, false, big).w.out;
      assert r == e2.w.out + tail;
      if i == 0 {
        Concat3(e.w.out, c0, tail);
      } else {
        Concat4(e.w.out, ",", c0, tail);
      }
      ItemTextsCons(rest, json);
      var n := EncItems(e2, rest[1..], i + 1, false, big).level;
      assert n == e.level + WrittenDics(rest[0]) + ItemsDics(rest[1..]);
    }
  }

  lemma ItemTextsCons(rest: seq<Value>, json: bool)
    requires rest != []
    ensures var c0 := Compact(rest[0], json);
      var tail := Prefixed(ItemTexts(rest[1..], json));
      Join(ItemTexts(rest, json)) == c0 + tail && Prefixed(ItemTexts(rest, json)) == "," + c0 + tail &&
      ItemsDics(rest) == WrittenDics(rest[0]) + ItemsDics(rest[1..])
  {
    var t := ItemTexts(rest, json);
    assert t[0] == Compact(rest[0], json) && t[1..] == ItemTexts(rest[1..], json);
  }

  /** One shown entry in compact mode: its separator, its name, then its value. */
  lemma MemberStep(e: Encoder, rest: seq<Field>, k: int)
    requires !e.w.pretty && k >= 0 && rest != [] && Shown(rest[0])
    ensures var e1 := MemberSeparator(e, k).0;
      var e3 := Enc(e1.(w := NewProperty(e1.w, rest[0].name)), rest[0].val);
      var m := PropertyText(rest[0].name, e.w.json) + Compact(rest[0].val, e.w.json);
      EncFields(e, rest, k) == EncFields(e3, rest[1..], k + 1) &&
      (k == 0 ==> e3.w.out == e.w.out + m) && (k > 0 ==> e3.w.out == e.w.out + "," + m) &&
      e3.level == e.level + WrittenDics(rest[0].val) && !e3.w.pretty && e3.w.json == e.w.json
    decreases FieldsSize(rest), 1
  {
    var e1 := MemberSeparator(e, k).0;
    var e2 := e1.(w := NewProperty(e1.w, rest[0].name));
    EncCompact(e2, rest[0].val);
    Concat3(e1.w.out, PropertyText(rest[0].name, e.w.json), Compact(rest[0].val, e.w.json));
  }

  lemma MemberTextsCons(rest: seq<Field>, json: bool)
    requires rest != []
    ensures var tail := MemberTexts(rest[1..], json);
      if Shown(rest[0]) then
        MemberTexts(rest, json) == [PropertyText(rest[0].name, json) + Compact(rest[0].val, json)] + tail &&
        FieldsDics(rest) == WrittenDics(rest[0].val) + FieldsDics(rest[1..])
      else MemberTexts(rest, json) == tail && FieldsDics(rest) == FieldsDics(rest[1..])
  {
  }

  /** An entry whose value is missing, or which carries the class, writes nothing at all:
      no separator, no name, and the member count does not move. */
  lemma SkipHidden(e: Encoder, rest: seq<Field>, k: int)
    requires rest != [] && !Shown(rest[0])
    ensures EncFields(e, rest, k) == EncFields(e, rest[1..], k)
  {
  }

  lemma {:induction false} FieldsCompact(e: Encoder, rest: seq<Field>, k: int)
    requires !e.w.pretty && k >= 0
    ensures EncFields(e, rest, k).w.out ==
      e.w.out + (if k == 0 then Join(MemberTexts(rest, e.w.json)) else Prefixed(MemberTexts(rest, e.w.json)))
    ensures EncFields(e, rest, k).level == e.level + FieldsDics(rest)
    decreases FieldsSize(rest), 2
  {
    var json := e.w.json;
    if rest != [] {
      MemberTextsCons(rest, json);
      if Shown(rest[0]) {
        var e1 := MemberSeparator(e, k).0;
        var e3 := Enc(e1.(w := NewProperty(e1.w, rest[0].name)), rest[0].val);
        MemberStep(e, rest, k);
        FieldsCompact(e3, rest[1..], k + 1);
        var m := PropertyText(rest[0].name, json) + Compact(rest[0].val, json);
        var tail := MemberTexts(rest[1..], json);
        var r := EncFields(e3, rest[1..], k + 1).w.out;
        assert r == e3.w.out + Prefixed(tail);
        JoinCons(m, tail);
        if k == 0 {
          Concat3(e.w.out, m, Prefixed(tail));
        } else {
          Concat4(e.w.out, ",", m, Prefixed(tail));
        }
        var n := EncFields(e3, rest[1..], k + 1).level;
        assert n == e.level + WrittenDics(rest[0].val) + FieldsDics(rest[1..]);
      } else {
        SkipHidden(e, rest, k);
        FieldsCompact(e, rest[1..], k);
      }
    }
  }

  // ---------------------------------------------------------------- level and indentation

  /** The indentation is one tab per level, as `_indent = String(INDENT_CHAR, _level)`
      keeps it. */
  predicate Aligned(e: Encoder) {
    e.indent == Tabs(e.level)
  }

  /** Encoding keeps the indentation in step with the level; in pretty mode every
      dictionary and multi-line array gives back the level it took, so the encoder ends
      where it started. */
  lemma {:induction false} Layout(e: Encoder, v: Value)
    requires Aligned(e)
    ensures Aligned(Enc(e, v))
    ensures e.w.pretty ==> Enc(e, v).level == e.level
    decreases Size(v), 0
  {
    match v
    case Arr(items) => ArrayLayout(e, items);
    case Dic(fields) => DicLayout(e, fields);
    case _ =>
  }

  lemma {:induction false} ArrayLayout(e: Encoder, items: seq<Value>)
    requires Aligned(e)
    ensures Aligned(EncArray(e, items))
    ensures e.w.pretty ==> EncArray(e, items).level == e.level
    decreases ItemsSize(items), 3
  {
    var n := |items|;
    var big := n > 0 && IsContainer(items[0]);
    var multi := e.w.pretty && (n > 10 || big);
    var e1 := e.(w := BeginArray(e.w));
    var e2 := if multi then var d := Deeper(e1); Emitted(d, "\n" + d.indent) else e1;
    ItemsLayout(e2, items, 0, multi, big);
  }

  lemma {:induction false} ItemsLayout(e: Encoder, rest: seq<Value>, i: int, multi: bool, big: bool)
    requires Aligned(e)
    ensures Aligned(EncItems(e, rest, i, multi, big))
    ensures e.w.pretty ==> EncItems(e, rest, i, multi, big).level == e.level
    decreases ItemsSize(rest), 2
  {
    if rest != [] {
      var e1 := if i > 0 then ItemSeparator(e, i, multi, big) else e;
      Layout(e1, rest[0]);
      ItemsLayout(Enc(e1, rest[0]), rest[1..], i + 1, multi, big);
    }
  }

  lemma {:induction false} DicLayout(e: Encoder, fields: seq<Field>)
    requires Aligned(e)
    ensures Aligned(EncDic(e, fields))
    ensures e.w.pretty ==> EncDic(e, fields).level == e.level
    decreases FieldsSize(fields), 3
  {
    var e1 := e.(w := BeginObject(e.w, ClassOf(fields)));
    FieldsLayout(Deeper(e1), fields, ClassLead(ClassOf(fields), e.w.json));
  }

  lemma {:induction false} FieldsLayout(e: Encoder, rest: seq<Field>, k: int)
    requires Aligned(e)
    ensures Aligned(EncFields(e, rest, k))
    ensures e.w.pretty ==> EncFields(e, rest, k).level == e.level
    decreases FieldsSize(rest), 2
  {
    if rest != [] {
      if Shown(rest[0]) {
        var (e1, k1) := MemberSeparator(e, k);
        var e2 := e1.(w := NewProperty(e1.w, rest[0].name));
        Layout(e2, rest[0].val);
        FieldsLayout(Enc(e2, rest[0].val), rest[1..], k1);
      } else {
        FieldsLayout(e, rest[1..], k);
      }
    }
  }
}

=== FILE: findings.dfy ===
/** Two places where the source does not do what it evidently means to do. Each is
    modelled here as written, with an input that shows the difference; the rest of the
    model uses the corrected definition, and the property it was meant to have is proved
    about that one. */
module Findings {
  import opened Values
  import opened Chars
  import opened XdlParser
  import opened ParserFacts
  import opened ScalarReading
  import opened TreeReading
  import W = XdlWriter
  import E = XdlEncoder
  import F = EncoderFacts
  import Codec
  import PI = ParserInvariant

  // ---------------------------------------------------------------- a run of stars before '/'

  /** The comment switch as written: ENDCOMMENT pops back to COMMENT on every character
      but '/', a second '*' included, so after `**` the closing '/' is read in COMMENT. */
  function CommentStepAsWritten(p: Parser, c: char): (r: (Parser, Flow))
    ensures Top(p.ctx) != EndComment || c == '/' || c != '*' ==> r == CommentStep(p, c)
    ensures Top(p.ctx) == EndComment && Top(Pop(p.ctx)) == Comment && c == '*' ==>
      r == (p.(inComment := true, ctx := Pop(p.ctx)), Next) &&
      CommentStep(p, c) == (p.(inComment := true), Next)
  {
    if Top(p.ctx) == EndComment && c != '/' then Resume(p.(ctx := Pop(p.ctx)), c)
    else CommentStep(p, c)
  }

  function StepAsWritten(p: Parser, c: char): (r: (Parser, Flow))
    ensures !p.inComment ==> r == Step(p, c)
  {
    if !p.inComment then Step(p, c) else CommentStepAsWritten(p, c)
  }

  function FeedAsWritten(p: Parser, c: char): (Parser, bool) {
    var (q, f) := StepAsWritten(p, c);
    if f == Again then
      var (q2, f2) := StepAsWritten(q, c);
      (q2, f2 == Halt)
    else (q, f == Halt)
  }

  /** The loop of `parse` with the comment switch as written. */
  function LoopAsWritten(p: Parser, s: string): Parser
    decreases |s|
  {
    if |s| == 0 || s[0] == '\0' then p
    else
      var (q, halted) := FeedAsWritten(p, s[0]);
      if halted then q else LoopAsWritten(q, s[1..])
  }

  /** Inside a block comment, text without a star or NUL leaves the as-written parser
      where it was. */
  lemma {:induction false} SwallowedAsWritten(p: Parser, s: string)
    requires p.inComment && Top(p.ctx) == Comment
    requires NoNul(s) && forall i | 0 <= i < |s| :: s[i] != '*'
    ensures LoopAsWritten(p, s) == p
    decreases |s|
  {
    if |s| > 0 {
      assert CommentStepAsWritten(p, s[0]) == (p, Next);
      assert FeedAsWritten(p, s[0]) == (p, false);
      SwallowedAsWritten(p, s[1..]);
    }
  }

  /** One character the as-written loop reads without stopping. */
  lemma LoopAsWrittenCons(p: Parser, q: Parser, t: string)
    requires |t| > 0 && t[0] != '\0' && FeedAsWritten(p, t[0]) == (q, false)
    ensures LoopAsWritten(p, t) == LoopAsWritten(q, t[1..])
  {
  }

  /** The single steps over a slash and three stars, as written. */
  lemma StarSteps(p: Parser)
    requires !p.inComment && p.state != Quoted && p.state != Escape
    ensures var p1 := p.(inComment := true, ctx := p.ctx + [Comment1]);
      var p2 := p.(inComment := true, ctx := p.ctx + [Comment]);
      var p3 := p.(inComment := true, ctx := p.ctx + [Comment, EndComment]);
      FeedAsWritten(p, '/') == (p1, false) && FeedAsWritten(p1, '*') == (p2, false) &&
      FeedAsWritten(p2, '*') == (p3, false) && FeedAsWritten(p3, '*') == (p2, false) &&
      FeedAsWritten(p2, '/') == (p2, false)
  {
    var p1 := p.(inComment := true, ctx := p.ctx + [Comment1]);
    var p2 := p.(inComment := true, ctx := p.ctx + [Comment]);
    var p3 := p.(inComment := true, ctx := p.ctx + [Comment, EndComment]);
    assert Pop(p1.ctx) == p.ctx && Pop(p3.ctx) == p2.ctx && p2.ctx + [EndComment] == p3.ctx;
    assert StepAsWritten(p1, '*') == (p2, Next);
    assert StepAsWritten(p2, '*') == (p3, Next);
    assert StepAsWritten(p3, '*') == (p2, Next);
  }

  /** A slash and a star open the comment, as written as in the corrected parser. */
  lemma OpenAsWritten(p: Parser, t: string)
    requires !p.inComment && p.state != Quoted && p.state != Escape
    requires |t| >= 2 && t[0] == '/' && t[1] == '*'
    ensures LoopAsWritten(p, t) == LoopAsWritten(p.(inComment := true, ctx := p.ctx + [Comment]), t[2..])
  {
    var p1 := p.(inComment := true, ctx := p.ctx + [Comment1]);
    var p2 := p.(inComment := true, ctx := p.ctx + [Comment]);
    StarSteps(p);
    LoopAsWrittenCons(p, p1, t);
    assert t[1..][0] == '*' && t[1..][1..] == t[2..];
    LoopAsWrittenCons(p1, p2, t[1..]);
  }

  /** Two stars and a slash in COMMENT, as written: back in COMMENT. */
  lemma StarsCloseAsWritten(p: Parser, t: string)
    requires !p.inComment && p.state != Quoted && p.state != Escape
    requires |t| >= 3 && t[0] == '*' && t[1] == '*' && t[2] == '/'
    ensures var p2 := p.(inComment := true, ctx := p.ctx + [Comment]);
      LoopAsWritten(p2, t) == LoopAsWritten(p2, t[3..])
  {
    var p2 := p.(inComment := true, ctx := p.ctx + [Comment]);
    var p3 := p.(inComment := true, ctx := p.ctx + [Comment, EndComment]);
    StarSteps(p);
    LoopAsWrittenCons(p2, p3, t);
    assert t[1..][0] == '*' && t[1..][1..] == t[2..];
    LoopAsWrittenCons(p3, p2, t[1..]);
    assert t[2..][0] == '/' && t[2..][1..] == t[3..];
    LoopAsWrittenCons(p2, p2, t[2..]);
  }

  /** A slash and three stars, as written: the parser is back in COMMENT, and the slash
      after them is read there, still inside the comment. */
  lemma StarsOpenAsWritten(p: Parser, s: string)
    requires !p.inComment && p.state != Quoted && p.state != Escape
    ensures LoopAsWritten(p, "/***/" + s) ==
      LoopAsWritten(p.(inComment := true, ctx := p.ctx + [Comment]), s)
  {
    var t := "/***/" + s;
    assert t[0] == '/' && t[1] == '*';
    OpenAsWritten(p, t);
    assert t[2..] == "**/" + s;
    StarsCloseAsWritten(p, t[2..]);
    assert t[2..][3..] == s;
  }

  /** The corrected parser skips a block comment whose body is one star. */
  lemma StarCommentSkipped(p: Parser, s: string)
    requires !p.inComment && p.state != Quoted && p.state != Escape
    ensures Loop(p, "/***/" + s) == Loop(p, s)
  {
    assert NoCloser("*") by { assert "*"[0] == '*'; }
    BlockCommentInvisible(p, "*", s);
    assert "/*" + "*" + "*/" + s == "/***/" + s;
  }

  /** A block comment whose body is one star does not close as written: everything after
      it that holds no star stays in the comment. The corrected loop skips the comment. */
  lemma StarsAsWritten(p: Parser, s: string)
    requires !p.inComment && p.state != Quoted && p.state != Escape
    requires NoNul(s) && forall i | 0 <= i < |s| :: s[i] != '*'
    ensures LoopAsWritten(p, "/***/" + s) == p.(inComment := true, ctx := p.ctx + [Comment])
    ensures Loop(p, "/***/" + s) == Loop(p, s)
  {
    StarsOpenAsWritten(p, s);
    SwallowedAsWritten(p.(inComment := true, ctx := p.ctx + [Comment]), s);
    StarCommentSkipped(p, s);
  }

  /** The text of an integer, then a space, holds no star and no NUL. */
  lemma IntTextPlain(i: int)
    ensures var t := DecimalText(i) + " ";
      NoNul(t) && forall k | 0 <= k < |t| :: t[k] != '*'
  {
    var d := DecimalText(i);
    DecimalTextIsLiteral(i);
    var t := d + " ";
    forall k | 0 <= k < |t| ensures t[k] != '*' && t[k] != '\0' {
      if k < |d| { assert t[k] == d[k]; LiteralChar(d, k); }
    }
  }

  /** A document made of that comment and an integer: as written `decode` gives NONE,
      because the parser is still inside the comment when the text ends. */
  lemma StarsDocumentAsWritten(i: int)
    ensures DecodeAsWritten("/***/" + DecimalText(i)) == None
  {
    var d := DecimalText(i);
    var t := d + " ";
    IntTextPlain(i);
    assert NoNul(d) && forall k | 0 <= k < |d| :: d[k] != '*' by {
      forall k | 0 <= k < |d| ensures d[k] != '*' && d[k] != '\0' {
        assert d[k] == t[k];
      }
    }
    var q := Init().(inComment := true, ctx := Init().ctx + [Comment]);
    StarsOpenAsWritten(Init(), d);
    SwallowedAsWritten(q, d);
    assert NoNul(" ") && " "[0] != '*';
    SwallowedAsWritten(q, " ");
    assert Top(q.ctx) == Comment;
  }

  /** The corrected parser skips the comment and reads the integer. */
  lemma StarsThenInt(i: int32)
    requires |DecimalText(i)| <= 9
    ensures Loop(Init(), "/***/" + DecimalText(i) + " ") == After(Init(), Int(i))
  {
    var t := DecimalText(i) + " ";
    IntTextPlain(i);
    assert "/***/" + DecimalText(i) + " " == "/***/" + t;
    StarsAsWritten(Init(), t);
    ReadInt(Init(), i, " ");
    Codec.RootList(Int(i), Int(i));
    Codec.RootSpace(After(Init(), Int(i)));
  }

  lemma StarsNoNul(i: int)
    ensures NoNul("/***/" + DecimalText(i))
  {
    var d := DecimalText(i);
    IntTextPlain(i);
    forall k | 0 <= k < |"/***/" + d| ensures ("/***/" + d)[k] != '\0' {
      if k >= 5 { assert ("/***/" + d)[k] == (d + " ")[k - 5]; }
    }
  }

  /** The same document read by the corrected parser is the integer. */
  lemma StarsDocument(i: int32)
    requires |DecimalText(i)| <= 9
    ensures Decode("/***/" + DecimalText(i)) == Int(i)
  {
    StarsNoNul(i);
    DecodeOneParse("/***/" + DecimalText(i));
    StarsThenInt(i);
    Codec.RootOne(Int(i));
  }

  /** As written, the same comment inside an integer swallows the rest of the text: the
      parser reads "1", is still in COMMENT when the text ends, and `decode` gives NONE. */
  lemma StarsInIntegerAsWritten()
    ensures DecodeAsWritten("1/***/2") == None
  {
    var q := Init().(state := Integer, buffer := "1");
    var q2 := q.(inComment := true, ctx := q.ctx + [Comment]);
    IntegerOne(q);
    var t := "1/***/2";
    LoopAsWrittenCons(Init(), q, t);
    assert t[1..] == "/***/" + "2";
    StarsOpenAsWritten(q, "2");
    assert NoNul("2") && "2"[0] != '*';
    SwallowedAsWritten(q2, "2");
    assert NoNul(" ") && " "[0] != '*';
    SwallowedAsWritten(q2, " ");
    assert LoopAsWritten(Init(), t) == q2;
  }

  /** Reading "1" from the start, as written as in the corrected parser. */
  lemma IntegerOne(q: Parser)
    requires q == Init().(state := Integer, buffer := "1")
    ensures FeedAsWritten(Init(), '1') == (q, false)
  {
    IntegerRead("1");
    FeedAgrees(Init(), '1');
    assert Loop(Init(), "1") == q;
  }

  /** A character of an integer literal is a digit or the minus sign. */
  lemma LiteralChar(d: string, k: int)
    requires IsIntLiteral(d) && 0 <= k < |d|
    ensures d[k] != '*' && d[k] != '\0'
  {
    if !AllDigits(d) {
      assert k == 0 || d[1..][k - 1] == d[k];
    }
  }

  // ---------------------------------------------------------------- an empty JSON class

  /** The initial member count as written: one whenever a JSON dictionary has a class
      entry, although `begin_object` writes no class member for an empty class text. It
      differs from `ClassLead` exactly for JSON with a class entry whose text is empty. */
  function ClassLeadAsWritten(fields: seq<Field>, json: bool): (k: int)
    ensures k != E.ClassLead(E.ClassOf(fields), json) <==>
      json && HasKey(fields, ClassKey) && W.CText(E.ClassOf(fields)) == ""
  {
    if json && HasKey(fields, ClassKey) then 1 else 0
  }

  /** The dictionary case of `_encode` as written. */
  function EncDicAsWritten(e: E.Encoder, fields: seq<Field>): (r: E.Encoder)
    ensures ClassLeadAsWritten(fields, e.w.json) == E.ClassLead(E.ClassOf(fields), e.w.json) ==>
      r == E.Enc(e, Dic(fields))
  {
    var e1 := e.(w := W.BeginObject(e.w, E.ClassOf(fields)));
    var e2 := E.Deeper(e1);
    var e3 := E.EncFields(e2, fields, ClassLeadAsWritten(fields, e.w.json));
    var e4 := if e.w.pretty then E.Shallower(e3) else e3;
    e4.(w := W.EndObject(e4.w))
  }

  /** A compact JSON dictionary whose class entry is the empty string: as written a
      comma precedes its first member, corrected the members are joined as usual. */
  lemma EmptyClassAsWritten(e: E.Encoder, fields: seq<Field>)
    requires !e.w.pretty && e.w.json
    requires |fields| > 0 && fields[0] == Field(ClassKey, Str(""))
    ensures EncDicAsWritten(e, fields).w.out ==
      e.w.out + "{" + F.Prefixed(F.MemberTexts(fields[1..], true)) + "}"
    ensures E.Enc(e, Dic(fields)).w.out ==
      e.w.out + "{" + F.Join(F.MemberTexts(fields[1..], true)) + "}"
  {
    assert E.ClassOf(fields) == "";
    var e2 := E.Deeper(e.(w := W.BeginObject(e.w, "")));
    assert e2.w.out == e.w.out + "{";
    F.SkipHidden(e2, fields, 1);
    F.FieldsCompact(e2, fields[1..], 1);
    F.SkipHidden(e2, fields, 0);
    F.FieldsCompact(e2, fields[1..], 0);
  }

  /** Text that opens an object and then has a comma where the first name belongs is an
      error, whatever follows. */
  lemma Rejected(rest: string)
    ensures Decode("{," + rest) == None
  {
    var p := Init();
    var q := InObj(p, [], WaitProperty, []);
    ObjectOpen(p);
    assert "{," + rest == ['{'] + ("," + rest);
    LoopCons(p, '{', "," + rest, q);
    CommaBeforeName(q);
    assert ("," + rest)[0] == ',';
    assert Loop(q, "," + rest).state == Err;
  }

  /** A comma where the first name of an object belongs fails. */
  lemma CommaBeforeName(q: Parser)
    requires !q.inComment && q.state == WaitProperty && Top(q.ctx) == InObject
    ensures Feed(q, ',').0.state == Err
  {
    assert Step(q, ',') == Machine(q, ',', InObject) == OnWaitProperty(q, ',') == Fail(q);
  }

  /** As written, such a dictionary with at least one shown member does not read back. */
  lemma EmptyClassUnreadable(fields: seq<Field>)
    requires |fields| > 0 && fields[0] == Field(ClassKey, Str(""))
    requires F.MemberTexts(fields[1..], true) != []
    ensures Decode(EncDicAsWritten(E.Encoder(W.Writer("", false, true), 0, ""), fields).w.out) == None
  {
    var m := F.MemberTexts(fields[1..], true);
    EmptyClassAsWritten(E.Encoder(W.Writer("", false, true), 0, ""), fields);
    assert "" + "{" + F.Prefixed(m) + "}" == "{," + (m[0] + F.Prefixed(m[1..]) + "}");
    Rejected(m[0] + F.Prefixed(m[1..]) + "}");
  }

  /** Corrected: a JSON dictionary whose class entry is the empty string encodes and reads
      back as the dictionary without that entry. */
  lemma EmptyClassJson(fields: seq<Field>)
    requires |fields| > 0 && fields[0] == Field(ClassKey, Str(""))
    requires !HasKey(fields[1..], ClassKey) && Encodable(Dic(fields[1..]), true)
    ensures Decode(E.EncodeJson(Dic(fields), false)) == Dic(fields[1..])
  {
    var ms := fields[1..];
    assert fields == [fields[0]] + ms;
    assert E.ClassOf(fields) == "" && E.ClassOf(ms) == "";
    assert F.MemberTexts(fields, true) == F.MemberTexts(ms, true);
    assert F.Compact(Dic(fields), true) == F.Compact(Dic(ms), true);
    Codec.EncodeCompact(Dic(fields), true);
    Codec.EncodeCompact(Dic(ms), true);
    Codec.RoundTrip(Dic(ms), true);
  }

  // ---------------------------------------------------------------- where the rules agree

  /** Text without two stars in a row. */
  predicate NoStarPair(s: string) {
    forall i | 0 <= i < |s| - 1 :: !(s[i] == '*' && s[i + 1] == '*')
  }

  /** Under the parser invariant ENDCOMMENT is on top after a step only when that step read
      a '*': every other way out of a step leaves a code context or another comment context
      on top. */
  lemma EndCommentAfterStar(p: Parser, c: char)
    requires PI.Wf(p)
    ensures Top(Step(p, c).0.ctx) == EndComment ==> c == '*'
  {
    if !p.inComment {
      CodeStepTop(p, c);
    } else {
      PI.CommentTop(p);
      match Top(p.ctx)
      case Comment1 => SlashTop(p, c);
      case LineComment =>
        if c == '\n' || c == '\r' {
          LineEndTop(p, c);
        }
      case Comment =>
      case EndComment => StarTop(p, c);
    }
  }

  /** After a first '/' the next step leaves no ENDCOMMENT on top. */
  lemma SlashTop(p: Parser, c: char)
    requires PI.Wf(p) && p.inComment && Top(p.ctx) == Comment1
    ensures Top(Step(p, c).0.ctx) != EndComment
  {
    if c != '/' && c != '*' {
      PI.CommentTop(p);
      PI.BaseIsCode(p);
      assert Pop(p.ctx) == p.ctx[..|p.ctx| - 1];
      PI.Comment1Err(p, c);
    }
  }

  /** In ENDCOMMENT only a '*' leaves ENDCOMMENT on top. */
  lemma StarTop(p: Parser, c: char)
    requires PI.Wf(p) && p.inComment && Top(p.ctx) == EndComment
    ensures Top(Step(p, c).0.ctx) == EndComment ==> c == '*'
  {
    PI.CommentTop(p);
    if c == '/' {
      PI.BaseIsCode(p);
      assert Pop(Pop(p.ctx)) == p.ctx[..|p.ctx| - 2];
    }
  }

  /** Outside a comment a step leaves no ENDCOMMENT on top. */
  lemma CodeStepTop(p: Parser, c: char)
    requires PI.Wf(p) && !p.inComment
    ensures Top(Step(p, c).0.ctx) != EndComment
  {
    PI.WfOutsideComment(p);
    if !(c == '/' && p.state != Quoted && p.state != Escape) {
      PI.MachineWf(p, c);
    }
  }

  /** A line break ends a line comment and hands the character to the state machine. */
  lemma LineEndTop(p: Parser, c: char)
    requires PI.Wf(p) && p.inComment && Top(p.ctx) == LineComment && (c == '\n' || c == '\r')
    ensures Top(Step(p, c).0.ctx) != EndComment
  {
    PI.CommentTop(p);
    PI.BaseIsCode(p);
    var q := p.(inComment := false, ctx := Pop(p.ctx));
    assert Pop(p.ctx) == p.ctx[..|p.ctx| - 1];
    assert PI.CodeWf(q);
    assert Step(p, c) == Resume(q, c);
    assert Resume(q, c) == Machine(q, c, Top(q.ctx));
    PI.MachineWf(q, c);
  }

  lemma FeedEndCommentAfterStar(p: Parser, c: char)
    requires PI.Wf(p)
    ensures Top(Feed(p, c).0.ctx) == EndComment ==> c == '*'
  {
    EndCommentAfterStar(p, c);
    PI.StepWf(p, c);
    EndCommentAfterStar(Step(p, c).0, c);
  }

  /** The two rules part only on a '*' read in ENDCOMMENT; the step a pushback repeats is
      always taken outside a comment. */
  lemma FeedAgrees(p: Parser, c: char)
    requires !(p.inComment && Top(p.ctx) == EndComment && c == '*')
    ensures FeedAsWritten(p, c) == Feed(p, c)
  {
    if Step(p, c).1 == Again {
      if p.inComment {
        ResumeAgain(p, c);
      } else if !(c == '/' && p.state != Quoted && p.state != Escape) {
        MachineAgain(p, c, Top(p.ctx));
      }
    }
  }

  /** The as-written loop and the corrected one read the same on any text without two
      stars in a row, from any well-formed parser not just past a '*' that is followed by
      another. */
  lemma {:induction false} LoopAgrees(p: Parser, s: string)
    requires PI.Wf(p) && NoStarPair(s)
    requires Top(p.ctx) == EndComment && |s| > 0 ==> s[0] != '*'
    ensures LoopAsWritten(p, s) == Loop(p, s)
    decreases |s|
  {
    if |s| > 0 && s[0] != '\0' {
      FeedAgrees(p, s[0]);
      var (q, halted) := Feed(p, s[0]);
      if !halted {
        PI.FeedWf(p, s[0]);
        FeedEndCommentAfterStar(p, s[0]);
        assert forall i | 0 <= i < |s[1..]| :: s[1..][i] == s[i + 1];
        LoopAgrees(q, s[1..]);
      }
    }
  }

  /** `decode` with the comment switch as written. */
  function DecodeAsWritten(s: string): Value {
    var p := Init();
    var q := if p.state == Err then p else LoopAsWritten(p, s);
    RootValue(if q.state == Err then q else LoopAsWritten(q, " "))
  }

  /** Both decoders give the same value for any text without two stars in a row. */
  lemma DecodeAgrees(s: string)
    requires NoStarPair(s)
    ensures DecodeAsWritten(s) == Decode(s)
  {
    PI.InitWf();
    LoopAgrees(Init(), s);
    var q := Loop(Init(), s);
    PI.ParseWf(Init(), s);
    assert q == Parse(Init(), s);
    if q.state != Err {
      LoopAgrees(q, " ");
    }
  }

  /** The dictionary count as written equals the corrected one for every dictionary whose
      class entry, if any, is first and a readable class name. */
  lemma ClassLeadAgrees(fields: seq<Field>, json: bool)
    requires ClassOk(fields, json)
    ensures ClassLeadAsWritten(fields, json) == E.ClassLead(E.ClassOf(fields), json)
  {
    if json && HasKey(fields, ClassKey) {
      ClassTextOf(fields, json);
    }
  }

  /** `_encode` as written all the way down: every dictionary starts from
      `ClassLeadAsWritten`. */
  function EncAsWritten(e: E.Encoder, v: Value): (r: E.Encoder)
    ensures r.w.json == e.w.json
    decreases Size(v), 0
  {
    match v
    case Arr(items) => EncArrayAsWritten(e, items)
    case Dic(fields) =>
      var e1 := e.(w := W.BeginObject(e.w, E.ClassOf(fields)));
      var e2 := E.Deeper(e1);
      var e3 := EncFieldsAsWritten(e2, fields, ClassLeadAsWritten(fields, e.w.json));
      var e4 := if e.w.pretty then E.Shallower(e3) else e3;
      e4.(w := W.EndObject(e4.w))
    case _ => E.Enc(e, v)
  }

  function EncArrayAsWritten(e: E.Encoder, items: seq<Value>): (r: E.Encoder)
    ensures r.w.json == e.w.json
    decreases ItemsSize(items), 2
  {
    var n := |items|;
    var big := n > 0 && IsContainer(items[0]);
    var multi := e.w.pretty && (n > 10 || big);
    var e1 := e.(w := W.BeginArray(e.w));
    var e2 := if multi then var d := E.Deeper(e1); E.Emitted(d, "\n" + d.indent) else e1;
    var e3 := EncItemsAsWritten(e2, items, 0, multi, big);
    var e4 := if multi then E.Shallower(e3) else e3;
    e4.(w := W.EndArray(e4.w))
  }

  function EncItemsAsWritten(e: E.Encoder, rest: seq<Value>, i: int, multi: bool, big: bool): (r: E.Encoder)
    ensures r.w.json == e.w.json
    decreases ItemsSize(rest), 1
  {
    if rest == [] then e
    else
      var e1 := if i > 0 then E.ItemSeparator(e, i, multi, big) else e;
      EncItemsAsWritten(EncAsWritten(e1, rest[0]), rest[1..], i + 1, multi, big)
  }

  function EncFieldsAsWritten(e: E.Encoder, rest: seq<Field>, k: int): (r: E.Encoder)
    ensures r.w.json == e.w.json
    decreases FieldsSize(rest), 1
  {
    if rest == [] then e
    else if E.Shown(rest[0]) then
      var (e1, k1) := E.MemberSeparator(e, k);
      var e2 := e1.(w := W.NewProperty(e1.w, rest[0].name));
      EncFieldsAsWritten(EncAsWritten(e2, rest[0].val), rest[1..], k1)
    else EncFieldsAsWritten(e, rest[1..], k)
  }

  /** `encodeXDL(v, pretty, json)` as written. */
  function EncodeXdlAsWritten(v: Value, pretty: bool, json: bool): string {
    var e := E.Fresh();
    EncAsWritten(e.(w := W.Reset(e.w.(pretty := pretty, json := json))), v).w.out
  }

  /** No dictionary in the value is a JSON dictionary with a class entry whose text is
      empty: the only case the two counts part. */
  ghost predicate ClassesAgree(v: Value, json: bool)
    decreases Size(v), 1
  {
    match v
    case Arr(items) => ItemsClassesAgree(items, json)
    case Dic(fields) =>
      !(json && HasKey(fields, ClassKey) && W.CText(E.ClassOf(fields)) == "") &&
      FieldsClassesAgree(fields, json)
    case _ => true
  }

  ghost predicate ItemsClassesAgree(items: seq<Value>, json: bool)
    decreases ItemsSize(items), 2
  {
    items == [] || (ClassesAgree(items[0], json) && ItemsClassesAgree(items[1..], json))
  }

  ghost predicate FieldsClassesAgree(fields: seq<Field>, json: bool)
    decreases FieldsSize(fields), 2
  {
    fields == [] || (ClassesAgree(fields[0].val, json) && FieldsClassesAgree(fields[1..], json))
  }

  /** On such values the as-written encoder writes what the corrected one writes. */
  lemma {:induction false} EncAgrees(e: E.Encoder, v: Value)
    requires ClassesAgree(v, e.w.json)
    ensures EncAsWritten(e, v) == E.Enc(e, v)
    decreases Size(v), 0
  {
    match v
    case Arr(items) =>
      var n := |items|;
      var big := n > 0 && IsContainer(items[0]);
      var multi := e.w.pretty && (n > 10 || big);
      var e1 := e.(w := W.BeginArray(e.w));
      var e2 := if multi then var d := E.Deeper(e1); E.Emitted(d, "\n" + d.indent) else e1;
      ItemsAgree(e2, items, 0, multi, big);
    case Dic(fields) =>
      var e1 := e.(w := W.BeginObject(e.w, E.ClassOf(fields)));
      var e2 := E.Deeper(e1);
      FieldsAgree(e2, fields, ClassLeadAsWritten(fields, e.w.json));
    case _ =>
  }

  lemma {:induction false} ItemsAgree(e: E.Encoder, rest: seq<Value>, i: int, multi: bool, big: bool)
    requires ItemsClassesAgree(rest, e.w.json)
    ensures EncItemsAsWritten(e, rest, i, multi, big) == E.EncItems(e, rest, i, multi, big)
    decreases ItemsSize(rest), 1
  {
    if rest != [] {
      var e1 := if i > 0 then E.ItemSeparator(e, i, multi, big) else e;
      EncAgrees(e1, rest[0]);
      ItemsAgree(E.Enc(e1, rest[0]), rest[1..], i + 1, multi, big);
    }
  }

  lemma {:induction false} FieldsAgree(e: E.Encoder, rest: seq<Field>, k: int)
    requires FieldsClassesAgree(rest, e.w.json)
    ensures EncFieldsAsWritten(e, rest, k) == E.EncFields(e, rest, k)
    decreases FieldsSize(rest), 1
  {
    if rest != [] {
      if E.Shown(rest[0]) {
        var (e1, k1) := E.MemberSeparator(e, k);
        var e2 := e1.(w := W.NewProperty(e1.w, rest[0].name));
        EncAgrees(e2, rest[0].val);
        FieldsAgree(E.Enc(e2, rest[0].val), rest[1..], k1);
      } else {
        FieldsAgree(e, rest[1..], k);
      }
    }
  }

  /** Every value the format can carry is such a value. */
  lemma {:induction false} EncodableAgrees(v: Value, json: bool)
    requires Encodable(v, json)
    ensures ClassesAgree(v, json)
    decreases Size(v), 0
  {
    match v
    case Arr(items) => EncodableItemsAgree(items, json);
    case Dic(fields) =>
      ClassLeadAgrees(fields, json);
      if fields != [] && fields[0].name == ClassKey {
        ClassRest(fields, json);
        MembersAgree(fields[1..], json);
        assert FieldsClassesAgree(fields, json);
      } else {
        MembersAgree(fields, json);
      }
    case _ =>
  }

  lemma {:induction false} EncodableItemsAgree(items: seq<Value>, json: bool)
    requires ItemsEncodable(items, json)
    ensures ItemsClassesAgree(items, json)
    decreases ItemsSize(items), 1
  {
    if items != [] {
      EncodableAgrees(items[0], json);
      EncodableItemsAgree(items[1..], json);
    }
  }

  lemma {:induction false} MembersAgree(ms: seq<Field>, json: bool)
    requires MembersOk(ms, json)
    ensures FieldsClassesAgree(ms, json)
    decreases FieldsSize(ms), 1
  {
    if ms != [] {
      EncodableAgrees(ms[0].val, json);
      MembersAgree(ms[1..], json);
    }
  }

  /** Compact encoding then decoding, both as written, gives the value back for every value
      the format can carry whose text has no two stars in a row. */
  lemma RoundTripAsWritten(v: Value, json: bool)
    requires Encodable(v, json)
    requires NoStarPair(E.EncodeXdl(v, false, json))
    ensures DecodeAsWritten(EncodeXdlAsWritten(v, false, json)) == v
  {
    var e := E.Fresh();
    EncodableAgrees(v, json);
    EncAgrees(e.(w := W.Reset(e.w.(pretty := false, json := json))), v);
    DecodeAgrees(E.EncodeXdl(v, false, json));
    Codec.RoundTrip(v, json);
  }
}

=== FILE: leniency.dfy ===
/** Inputs `XdlParser::parse` accepts beyond RFC 8259 JSON, stated as they behave: trailing
    commas, newline as a separator, and `}` right after `=` or `:`. */
module Leniency {
  import opened Values
  import opened Seqs
  import opened XdlParser
  import opened ParserFacts

  /** A separator in WAIT_SEP: ',' or a line break waits for the next item or member. */
  lemma SeparatorStep(p: Parser, c: char)
    requires !p.inComment && p.state == WaitSep && (c == ',' || c == '\n')
    ensures Feed(p, c) == (p.(state := if Top(p.ctx) == InObject then WaitProperty else WaitValue), false)
  {
    assert Step(p, c) == OnWaitSep(p, c, Top(p.ctx));
  }

  /** The closing bracket of the current container, read while waiting for a separator, an
      item or a member name. */
  lemma CloseStep(p: Parser, c: char)
    requires !p.inComment
    requires (c == ']' && Top(p.ctx) == InArray && (p.state == WaitSep || p.state == WaitValue))
          || (c == '}' && Top(p.ctx) == InObject && (p.state == WaitSep || p.state == WaitProperty))
    ensures Feed(p, c) == (CloseContainer(p), false)
  {
    assert Step(p, c) == Machine(p, c, Top(p.ctx));
  }

  lemma CloseIgnoresState(p: Parser, st: State)
    ensures CloseContainer(p.(state := st)) == CloseContainer(p)
  {
    assert ValueEnd(p.(state := st).(ctx := Pop(p.ctx))) == ValueEnd(p.(ctx := Pop(p.ctx)));
  }

  /** Between array items, a ',' immediately before ']' changes nothing. */
  lemma TrailingCommaArray(p: Parser, s: string)
    requires !p.inComment && p.state == WaitSep && Top(p.ctx) == InArray
    ensures Loop(p, ",]" + s) == Loop(p, "]" + s)
  {
    var q := p.(state := WaitValue);
    SeparatorStep(p, ',');
    CloseStep(q, ']');
    CloseStep(p, ']');
    CloseIgnoresState(p, WaitValue);
    assert ",]" + s == [','] + ("]" + s);
    LoopCons(p, ',', "]" + s, q);
    LoopCons(q, ']', s, CloseContainer(p));
    LoopCons(p, ']', s, CloseContainer(p));
  }

  /** Between members, a ',' immediately before '}' changes nothing. */
  lemma TrailingCommaObject(p: Parser, s: string)
    requires !p.inComment && p.state == WaitSep && Top(p.ctx) == InObject
    ensures Loop(p, ",}" + s) == Loop(p, "}" + s)
  {
    var q := p.(state := WaitProperty);
    SeparatorStep(p, ',');
    CloseStep(q, '}');
    CloseStep(p, '}');
    CloseIgnoresState(p, WaitProperty);
    assert ",}" + s == [','] + ("}" + s);
    LoopCons(p, ',', "}" + s, q);
    LoopCons(q, '}', s, CloseContainer(p));
    LoopCons(p, '}', s, CloseContainer(p));
  }

  /** A line break between two items or members reads like a ','. */
  lemma NewlineSeparates(p: Parser, s: string)
    requires !p.inComment && p.state == WaitSep
    ensures Loop(p, "\n" + s) == Loop(p, "," + s)
  {
    var q := p.(state := if Top(p.ctx) == InObject then WaitProperty else WaitValue);
    SeparatorStep(p, '\n');
    SeparatorStep(p, ',');
    LoopCons(p, '\n', s, q);
    LoopCons(p, ',', s, q);
  }

  /** `}` right after `=` or `:` closes the object with no value for the pending name. */
  lemma EmptyValueStep(p: Parser)
    requires !p.inComment && p.state == WaitValue && Top(p.ctx) == InObject
    ensures Feed(p, '}') == (CloseContainer(p), false)
  {
    assert Step(p, '}') == OnWaitValue(p, '}', InObject);
  }

  /** What that `}` leaves behind: the pending name stays on the stack. In an enclosing array
      it is left over; in an enclosing object the closed one is stored under it instead of
      under the enclosing member's own name. */
  lemma EmptyValueCloses(p: Parser)
    requires !p.inComment && p.state == WaitValue && Top(p.ctx) == InObject
    requires |p.lists| >= 2 && |p.props| >= 1
    ensures var n := |p.lists|;
      p.lists[n - 2].ArrC? ==>
        CloseContainer(p).props == p.props &&
        CloseContainer(p).lists == p.lists[..n - 2] + [ArrC(p.lists[n - 2].items + [ContainerValue(p.lists[n - 1])])]
    ensures var n := |p.lists|;
      p.lists[n - 2].DicC? ==>
        CloseContainer(p).props == Pop(p.props) &&
        CloseContainer(p).lists == p.lists[..n - 2] +
          [DicC(SetField(p.lists[n - 2].fields, p.props[|p.props| - 1], ContainerValue(p.lists[n - 1])))]
  {
    var v := ValueEnd(p.(ctx := Pop(p.ctx)));
    assert v.lists == p.lists && v.props == p.props;
    EndInto(v);
  }

  /** Ending the top container puts it into the one below it. */
  lemma EndInto(p: Parser)
    requires |p.lists| >= 2 && |p.props| >= 1
    ensures var n := |p.lists|;
      p.lists[n - 2].ArrC? ==>
        EndContainer(p).props == p.props &&
        EndContainer(p).lists == p.lists[..n - 2] + [ArrC(p.lists[n - 2].items + [ContainerValue(p.lists[n - 1])])]
    ensures var n := |p.lists|;
      p.lists[n - 2].DicC? ==>
        EndContainer(p).props == Pop(p.props) &&
        EndContainer(p).lists == p.lists[..n - 2] +
          [DicC(SetField(p.lists[n - 2].fields, p.props[|p.props| - 1], ContainerValue(p.lists[n - 1])))]
  {
    var n := |p.lists|;
    var below := p.lists[..n - 1];
    var q := p.(lists := below);
    var x := ContainerValue(p.lists[n - 1]);
    EndIsPut(p);
    assert below[n - 2] == p.lists[n - 2];
    assert below[..n - 2] == p.lists[..n - 2];
    var c := if below[n - 2].ArrC? then ArrC(below[n - 2].items + [x])
             else DicC(SetField(below[n - 2].fields, p.props[|p.props| - 1], x));
    assert Put(q, x).lists == below[n - 2 := c];
    SetLast(below, c);
  }

  lemma EndIsPut(p: Parser)
    requires |p.lists| >= 2
    ensures EndContainer(p) ==
      Put(p.(lists := p.lists[..|p.lists| - 1]), ContainerValue(p.lists[|p.lists| - 1]))
  {
    assert Pop(p.lists) == p.lists[..|p.lists| - 1];
  }

  /** A block comment may sit inside a token: in INT, as in every state but a string, `/`
      opens a comment, and the digits after it continue the same integer. */
  lemma CommentInsideInteger(a: string, body: string, b: string)
    requires IsIntLiteral(a) && NoNul(body) && NoCloser(body)
    ensures Decode(a + "/*" + body + "*/" + b) == Decode(a + b)
  {
    assert NoNul(a) by {
      assert forall k | 0 < k < |a| :: a[k] == a[1..][k - 1];
    }
    IntegerRead(a);
    var q := Init().(state := Integer, buffer := a);
    var c := "/*" + body + "*/" + b;
    assert a + "/*" + body + "*/" + b == a + c;
    LoopAppend(Init(), a, c);
    LoopAppend(Init(), a, b);
    BlockCommentInvisible(q, body, b);
  }

  /** So a `1`, an empty block comment and a `2` read as the integer 12. */
  lemma CommentSplitsTwelve()
    ensures Decode("1/**/2") == Int(12)
  {
    assert "1/**/2" == "1" + "/*" + "" + "*/" + "2";
    assert NoCloser("");
    CommentInsideInteger("1", "", "2");
    assert "1" + "2" == "12";
    IntegerLiteral("12");
  }

  /** A comment body ending in a star, with the corrected comment rule: `1/***/2` reads as
      the integer 12. */
  lemma StarsInInteger()
    ensures Decode("1/***/2") == Int(12)
  {
    assert NoCloser("*") by { assert "*"[0] == '*'; }
    assert "1/***/2" == "1" + "/*" + "*" + "*/" + "2";
    CommentInsideInteger("1", "*", "2");
    assert "1" + "2" == "12";
    IntegerLiteral("12");
  }
}

=== FILE: parser.dfy ===
/** `XdlParser`: the character-driven state machine that reads XDL (a JSON superset) and the
    tree-builder sink it drives. One call of `Step` is one iteration of the loop in
    `XdlParser::parse`; a `Flow` of `Again` stands for the source's `s--` (the character is
    read once more), `Halt` for its `return`. */
module XdlParser {
  import opened Values
  import opened Chars

  /** The lexical states of the source's `StateN`, in the same order. */
  datatype State =
    | Number        // NUMBER: digits after a '.'
    | Integer       // INT
    | Quoted        // STRING
    | Property      // PROPERTY: unquoted property name
    | Identifier    // IDENTIFIER: bare word
    | NumberE       // NUMBER_E: just read 'e' or 'E'
    | NumberES      // NUMBER_ES: just read the exponent sign
    | NumberEV      // NUMBER_EV: exponent digits
    | NumberDot     // NUMBER_DOT: just read '.'
    | Minus         // MINUS
    | WaitSep
    | WaitEqual
    | WaitValue
    | WaitProperty
    | WaitObj
    | QProperty     // QPROPERTY: quoted property name
    | Escape
    | Err
    | UnicodeChar

  /** `ContextN`: the structural contexts and the four comment sub-contexts. */
  datatype Ctx = Root | InArray | InObject | Comment1 | Comment | LineComment | EndComment

  /** An in-progress container of the tree builder (the source's `Container` union). */
  datatype Container = ArrC(items: seq<Value>) | DicC(fields: seq<Field>)

  datatype Flow = Next | Again | Halt

  datatype Parser = Parser(
    state: State,
    ctx: seq<Ctx>,        // `_context`, top at the end
    buffer: string,       // `_buffer`
    inComment: bool,      // `_inComment`
    unicode: string,      // `_unicode[0.._unicodeCount]`
    lists: seq<Container>,// `_lists`, top at the end
    props: seq<string>)   // `_props`, top at the end

  /** A freshly constructed parser: context ROOT, state WAIT_VALUE, one root array. */
  function Init(): Parser {
    Parser(WaitValue, [Root], "", false, "", [ArrC([])], [])
  }

  function Top(ctx: seq<Ctx>): Ctx {
    if |ctx| == 0 then Root else ctx[|ctx| - 1]
  }

  function Pop<T>(s: seq<T>): seq<T> {
    if |s| == 0 then [] else s[..|s| - 1]
  }

  predicate IsCommentCtx(x: Ctx) {
    x.Comment1? || x.Comment? || x.LineComment? || x.EndComment?
  }

  /** `reset`: clears the context stack, the state and the buffer, and nothing else. */
  function Reset(p: Parser): (r: Parser)
    ensures r.ctx == [Root] && r.state == WaitValue && r.buffer == ""
    ensures r.lists == p.lists && r.props == p.props && r.inComment == p.inComment
  {
    p.(ctx := [Root], state := WaitValue, buffer := "")
  }

  /** `value_end`: back to WAIT_VALUE at the root, else to WAIT_SEP; the buffer is emptied. */
  function ValueEnd(p: Parser): Parser {
    p.(state := if Top(p.ctx) == Root then WaitValue else WaitSep, buffer := "")
  }

  // ---------------------------------------------------------------- tree builder

  function ContainerValue(c: Container): Value {
    match c
    case ArrC(items) => Arr(items)
    case DicC(fields) => Dic(fields)
  }

  /** `put`: append to the top array, or set under the top pending name of the top dictionary
      and pop that name. A dictionary with no pending name cannot occur (see
      `ParserInvariant.PutHasName` and `ParserInvariant.CloseHasName`);
      the model then leaves the parser unchanged. */
  function Put(p: Parser, x: Value): (r: Parser)
    ensures r.state == p.state && r.ctx == p.ctx && r.buffer == p.buffer
    ensures |r.lists| == |p.lists|
    ensures forall i | 0 <= i < |p.lists| :: r.lists[i].ArrC? == p.lists[i].ArrC?
    ensures |p.lists| > 0 && p.lists[|p.lists| - 1].ArrC? ==>
      r.lists == p.lists[|p.lists| - 1 := ArrC(p.lists[|p.lists| - 1].items + [x])] && r.props == p.props
    ensures |p.lists| > 0 && p.lists[|p.lists| - 1].DicC? && |p.props| > 0 ==>
      var name := p.props[|p.props| - 1];
      var fields := p.lists[|p.lists| - 1].fields;
      r.lists == p.lists[|p.lists| - 1 := DicC(SetField(fields, name, x))] && r.props == Pop(p.props)
  {
    if |p.lists| == 0 then p
    else
      var i := |p.lists| - 1;
      match p.lists[i]
      case ArrC(items) => p.(lists := p.lists[i := ArrC(items + [x])])
      case DicC(fields) =>
        if |p.props| == 0 then p
        else p.(lists := p.lists[i := DicC(SetField(fields, p.props[|p.props| - 1], x))], props := Pop(p.props))
  }

  function BeginArray(p: Parser): Parser {
    p.(lists := p.lists + [ArrC([])])
  }

  /** `begin_object`: a fresh dictionary; a non-empty class tag is stored under `ClassKey`. */
  function BeginObject(p: Parser, cls: string): Parser {
    p.(lists := p.lists + [DicC(if cls == "" then [] else [Field(ClassKey, Str(cls))])])
  }

  /** `end_array` / `end_object`: pop the top container and put it into the one below. */
  function EndContainer(p: Parser): Parser {
    if |p.lists| == 0 then p
    else Put(p.(lists := Pop(p.lists)), ContainerValue(p.lists[|p.lists| - 1]))
  }

  function EndArray(p: Parser): Parser {
    EndContainer(p)
  }

  function EndObject(p: Parser): Parser {
    EndContainer(p)
  }

  function NewProperty(p: Parser, name: string): Parser {
    p.(props := p.props + [name])
  }

  /** `value`: the last item of the root list, but only when the parser stopped at the root
      waiting for a value; NONE after an error or in any other ending state. */
  function RootValue(p: Parser): (r: Value)
    ensures p.state == Err ==> r == None
    ensures Top(p.ctx) != Root || p.state != WaitValue ==> r == None
    ensures r != None ==> |p.lists| > 0 && p.lists[0].ArrC? && r in p.lists[0].items
  {
    if p.state == Err then None
    else if |p.lists| > 0 && p.lists[0].ArrC? && Top(p.ctx) == Root && p.state == WaitValue
            && |p.lists[0].items| > 0
    then p.lists[0].items[|p.lists[0].items| - 1]
    else None
  }

  // ---------------------------------------------------------------- lexical helpers

  function Append(p: Parser, c: char): Parser {
    p.(buffer := p.buffer + [c])
  }

  function Fail(p: Parser): (Parser, Flow) {
    (p.(state := Err), Halt)
  }

  /** Characters that end a fraction or exponent number (and are read again). */
  predicate IsNumberEnd(c: char) {
    c == ',' || IsSpace(c) || c == ']' || c == '}'
  }

  /** The leading-zero check of an integer literal: `0` and `-0` pass, `01` and `-01` do not. */
  predicate LeadingZero(b: string) {
    if |b| > 0 && b[0] == '-' then |b| > 2 && b[1] == '0'
    else |b| > 1 && b[0] == '0'
  }

  /** An integer literal of at most nine characters becomes an `int`, a longer one a double. */
  function IntegerValue(b: string): (v: Value)
    ensures |b| <= 9 ==> v.Int? && v.i == AtoI(b)
    ensures |b| > 9 ==> v == Num(b)
  {
    if |b| > 9 then Num(b)
    else
      Pow10Monotone(|b|, 9);
      Int(AtoI(b) as int32)
  }

  predicate IsSimpleEscape(c: char) {
    c == '\\' || c == '"' || c == 'n' || c == '/' || c == 'r' || c == 't' || c == 'f' || c == 'b'
  }

  /** The character a simple escape sequence stands for (section 7 of RFC 8259). */
  function Unescape(c: char): char
    requires IsSimpleEscape(c)
  {
    if c == '\\' then '\\'
    else if c == '"' then '"'
    else if c == 'n' then '\n'
    else if c == '/' then '/'
    else if c == 'r' then '\r'
    else if c == 't' then '\t'
    else if c == 'f' then '\U{0C}'
    else '\U{08}'
  }

  function HexDigit(c: char): int {
    if '0' <= c <= '9' then (c - '0') as int
    else if 'a' <= c <= 'f' then (c - 'a') as int + 10
    else if 'A' <= c <= 'F' then (c - 'A') as int + 10
    else -1
  }

  /** `strtoul(_, NULL, 16)` on the collected characters: the value of the leading hex digits. */
  function HexPrefixValue(s: string, acc: nat): (r: nat)
    decreases |s|
  {
    if s == [] || HexDigit(s[0]) < 0 then acc
    else HexPrefixValue(s[1..], acc * 16 + HexDigit(s[0]))
  }

  /** `utf16toUtf8` of one BMP code unit, bytes as characters, stopping at a NUL
      (the buffer is appended as a C string). */
  function Utf8Unit(u: nat): string {
    if u == 0 then ""
    else if u < 0x80 then [u as char]
    else if u < 0x800 then [(0xC0 + u / 64) as char, (0x80 + u % 64) as char]
    else if u < 0x10000 then
      [(0xE0 + u / 4096) as char, (0x80 + (u / 64) % 64) as char, (0x80 + u % 64) as char]
    else ""
  }

  function UnicodeText(hex: string): string {
    Utf8Unit(HexPrefixValue(hex, 0))
  }

  // ---------------------------------------------------------------- per-state transitions

  /** `{`: begin an object tagged with the buffer, enter OBJECT, wait for a property. */
  function OpenObject(p: Parser): Parser {
    BeginObject(p, p.buffer).(state := WaitProperty, ctx := p.ctx + [InObject], buffer := "")
  }

  /** `}` or `]` closing the current container: pop the context, `value_end`, then end it. */
  function CloseContainer(p: Parser): Parser {
    EndContainer(ValueEnd(p.(ctx := Pop(p.ctx))))
  }

  function OnMinus(p: Parser, c: char): (Parser, Flow) {
    if IsDigit(c) then (Append(p, c).(state := Integer), Next) else Fail(p)
  }

  function OnInteger(p: Parser, c: char): (Parser, Flow) {
    if IsDigit(c) then (Append(p, c), Next)
    else if c == '.' then (Append(p, c).(state := NumberDot), Next)
    else if c == 'e' || c == 'E' then (Append(p, c).(state := NumberE), Next)
    else if p.buffer != "-" then
      if LeadingZero(p.buffer) then Fail(p)
      else (ValueEnd(Put(p, IntegerValue(p.buffer))), Again)
    else Fail(p)
  }

  function OnNumberDot(p: Parser, c: char): (Parser, Flow) {
    if IsDigit(c) then (Append(p, c).(state := Number), Next) else Fail(p)
  }

  function OnNumberE(p: Parser, c: char): (Parser, Flow) {
    if c == '-' || c == '+' then (Append(p, c).(state := NumberES), Next)
    else if IsDigit(c) then (Append(p, c).(state := NumberEV), Next)
    else Fail(p)
  }

  function OnNumberES(p: Parser, c: char): (Parser, Flow) {
    if IsDigit(c) then (Append(p, c).(state := NumberEV), Next) else Fail(p)
  }

  function OnNumberEV(p: Parser, c: char): (Parser, Flow) {
    if IsDigit(c) then (Append(p, c), Next)
    else if IsNumberEnd(c) then (ValueEnd(Put(p, Num(p.buffer))), Again)
    else Fail(p)
  }

  function OnNumber(p: Parser, c: char): (Parser, Flow) {
    if IsDigit(c) then (Append(p, c), Next)
    else if c == 'e' || c == 'E' then (Append(p, c).(state := NumberE), Next)
    else if IsNumberEnd(c) then (ValueEnd(Put(p, Num(p.buffer))), Again)
    else Fail(p)
  }

  function OnQuoted(p: Parser, c: char): (Parser, Flow) {
    if c != '"' && c != '\\' then (Append(p, c), Next)
    else if c == '\\' then (p.(state := Escape), Next)
    else (ValueEnd(Put(p, Str(p.buffer))), Next)
  }

  function OnProperty(p: Parser, c: char): (Parser, Flow) {
    if c == '=' || IsSpace(c) then (NewProperty(p, p.buffer).(state := WaitEqual, buffer := ""), Again)
    else (Append(p, c), Next)
  }

  function OnQProperty(p: Parser, c: char): (Parser, Flow) {
    if c != '"' then (Append(p, c), Next)
    else (NewProperty(p, p.buffer).(state := WaitEqual, buffer := ""), Next)
  }

  function OnWaitValue(p: Parser, c: char, ctx: Ctx): (Parser, Flow) {
    if IsDigit(c) then (Append(p, c).(state := Integer), Next)
    else if c == '-' then (Append(p, c).(state := Minus), Next)
    else if c == '"' then (p.(state := Quoted), Next)
    else if c == '[' then (BeginArray(p).(ctx := p.ctx + [InArray]), Next)
    else if c == '{' then (OpenObject(p), Next)
    else if c == '}' && ctx == InObject then (CloseContainer(p), Next)
    else if IsAlnum(c) || c == '_' || c == '$' then (Append(p, c).(state := Identifier), Next)
    else if c == ']' && ctx == InArray then (CloseContainer(p), Next)
    else if !IsSpace(c) then Fail(p)
    else (p, Next)
  }

  function OnWaitSep(p: Parser, c: char, ctx: Ctx): (Parser, Flow) {
    if c == ',' || c == '\n' then (p.(state := if ctx == InObject then WaitProperty else WaitValue), Next)
    else if c == '}' && ctx == InObject then (CloseContainer(p), Next)
    else if c == ']' && ctx == InArray then (CloseContainer(p), Next)
    else if !IsSpace(c) then Fail(p)
    else (p, Next)
  }

  function OnWaitObj(p: Parser, c: char): (Parser, Flow) {
    if c == '{' then (OpenObject(p), Next)
    else if !IsSpace(c) then Fail(p)
    else (p, Next)
  }

  function OnWaitProperty(p: Parser, c: char): (Parser, Flow) {
    if IsAlnum(c) || c == '_' || c == '$' then (Append(p, c).(state := Property), Next)
    else if c == '"' then (p.(state := QProperty), Next)
    else if c == '}' then (CloseContainer(p), Next)
    else if !IsSpace(c) then Fail(p)
    else (p, Next)
  }

  /** An unknown escape sets ERR without returning: the loop goes on reading in ERR. */
  function OnEscape(p: Parser, c: char): (Parser, Flow) {
    if IsSimpleEscape(c) then (Append(p, Unescape(c)).(state := Quoted), Next)
    else if c == 'u' then (p.(state := UnicodeChar, unicode := ""), Next)
    else (p.(state := Err), Next)
  }

  predicate IsKeywordBool(b: string) {
    b == "Y" || b == "N" || b == "false" || b == "true"
  }

  function OnIdentifier(p: Parser, c: char): (Parser, Flow) {
    if !IsAlnum(c) && c != '_' then
      if IsKeywordBool(p.buffer) then (ValueEnd(Put(p, Bool(p.buffer == "true" || p.buffer == "Y"))), Again)
      else if p.buffer == "null" then (ValueEnd(Put(p, Null)), Again)
      else (p.(state := WaitObj), Again)
    else (Append(p, c), Next)
  }

  function OnWaitEqual(p: Parser, c: char): (Parser, Flow) {
    if c == '=' || c == ':' then (p.(state := WaitValue), Next)
    else if !IsSpace(c) then Fail(p)
    else (p, Next)
  }

  function OnUnicodeChar(p: Parser, c: char): (Parser, Flow) {
    var u := p.unicode + [c];
    if |u| == 4 then (p.(unicode := u, buffer := p.buffer + UnicodeText(u), state := Quoted), Next)
    else (p.(unicode := u), Next)
  }

  /** The `switch(_state)` of the loop, reached with `ctx` the structural context on top. */
  function Machine(p: Parser, c: char, ctx: Ctx): (Parser, Flow) {
    match p.state
    case Minus => OnMinus(p, c)
    case Integer => OnInteger(p, c)
    case NumberDot => OnNumberDot(p, c)
    case NumberE => OnNumberE(p, c)
    case NumberES => OnNumberES(p, c)
    case NumberEV => OnNumberEV(p, c)
    case Number => OnNumber(p, c)
    case Quoted => OnQuoted(p, c)
    case Property => OnProperty(p, c)
    case QProperty => OnQProperty(p, c)
    case WaitValue => OnWaitValue(p, c, ctx)
    case WaitSep => OnWaitSep(p, c, ctx)
    case WaitObj => OnWaitObj(p, c)
    case WaitProperty => OnWaitProperty(p, c)
    case Escape => OnEscape(p, c)
    case Identifier => OnIdentifier(p, c)
    case WaitEqual => OnWaitEqual(p, c)
    case UnicodeChar => OnUnicodeChar(p, c)
    case Err => (p, Next)
  }

  // ---------------------------------------------------------------- comments

  /** After a comment context has handled the character: still inside a comment, or hand
      the same character to the state machine. */
  function Resume(q: Parser, c: char): (Parser, Flow) {
    var t := Top(q.ctx);
    if IsCommentCtx(t) then (q.(inComment := true), Next)
    else Machine(q.(inComment := false), c, t)
  }

  /** The `switch(ctx)` taken while `_inComment` is set. In ENDCOMMENT a second '*' keeps
      the comment ready to close (`Findings.CommentStepAsWritten` is the source's version). */
  function CommentStep(p: Parser, c: char): (Parser, Flow) {
    match Top(p.ctx)
    case Comment1 =>
      var q := p.(ctx := Pop(p.ctx));
      if c == '/' then Resume(q.(ctx := q.ctx + [LineComment]), c)
      else if c == '*' then Resume(q.(ctx := q.ctx + [Comment]), c)
      else Resume(q.(state := Err), c)
    case LineComment =>
      if c == '\n' || c == '\r' then Resume(p.(inComment := false, ctx := Pop(p.ctx)), c)
      else Resume(p, c)
    case Comment =>
      if c == '*' then Resume(p.(ctx := p.ctx + [EndComment]), c) else Resume(p, c)
    case EndComment =>
      if c == '/' then (p.(inComment := false, ctx := Pop(Pop(p.ctx))), Next)
      else if c == '*' then Resume(p, c)
      else Resume(p.(ctx := Pop(p.ctx)), c)
    case _ =>
      (if c == '/' && p.state != Quoted then p.(inComment := true, ctx := p.ctx + [Comment1]) else p, Next)
  }

  /** One iteration of the loop of `XdlParser::parse` on character `c`. */
  function Step(p: Parser, c: char): (r: (Parser, Flow))
    ensures r.1 == Halt ==> r.0.state == Err
    ensures p.state == Err ==> r.0.state == Err && r.1 == Next
  {
    if !p.inComment then
      if c == '/' && p.state != Quoted && p.state != Escape then
        (p.(inComment := true, ctx := p.ctx + [Comment1]), Next)
      else Machine(p, c, Top(p.ctx))
    else CommentStep(p, c)
  }

  /** One character, read a second time when the step asked for it (`s--`). */
  function Feed(p: Parser, c: char): (r: (Parser, bool))
    ensures r.1 ==> r.0.state == Err
    ensures p.state == Err ==> r.0.state == Err && !r.1
  {
    var (q, f) := Step(p, c);
    if f == Again then
      var (q2, f2) := Step(q, c);
      (q2, f2 == Halt)
    else (q, f == Halt)
  }

  /** The `while(char c=*s++)` loop: stops at the end, at a NUL character, or on `return`. */
  function Loop(p: Parser, s: string): (r: Parser)
    ensures p.state == Err ==> r.state == Err
    decreases |s|
  {
    if |s| == 0 || s[0] == '\0' then p
    else
      var (q, halted) := Feed(p, s[0]);
      if halted then q else Loop(q, s[1..])
  }

  /** `XdlParser::parse`: nothing happens once the parser is in ERR. */
  function Parse(p: Parser, s: string): (r: Parser)
    ensures p.state == Err ==> r == p
  {
    if p.state == Err then p else Loop(p, s)
  }

  /** `XdlParser::decode` on a fresh parser (`decodeXDL`, `decodeJSON`, `Xdl::decode`):
      the text, then one space to end a pending bare token, then the root value. */
  function Decode(s: string): (r: Value)
    ensures Parse(Init(), s).state == Err ==> r == None
  {
    RootValue(Parse(Parse(Init(), s), " "))
  }
}

=== FILE: parser_facts.dfy ===
/** Properties of `XdlParser::parse` beyond the structural invariant: errors are final,
    a pushed-back character is never pushed back twice, parsing in pieces is parsing the
    whole, and the lexical rules for integers, numbers, comments and bare words. */
module ParserFacts {
  import opened Values
  import opened Seqs
  import opened Chars
  import opened XdlParser

  /** A C string ends at its first NUL; text without one is read to its end. */
  predicate NoNul(s: string) {
    forall i | 0 <= i < |s| :: s[i] != '\0'
  }

  // ---------------------------------------------------------------- errors and pieces

  /** Once a parse has ended in ERR, later parses leave the parser untouched and its value
      is NONE: an error never yields a partial tree. */
  lemma {:induction false} ErrorIsFinal(p: Parser, s: string, t: string)
    requires Parse(p, s).state == Err
    ensures Parse(Parse(p, s), t) == Parse(p, s)
    ensures RootValue(Parse(Parse(p, s), t)) == None
  {
    var q := Parse(p, s);
    assert q.state == Err;
  }

  /** Reading `a` and then `b` is reading `a + b`, as long as `a` holds no NUL and its
      reading does not end in ERR. */
  lemma {:induction false} LoopAppend(p: Parser, a: string, b: string)
    requires NoNul(a)
    requires Loop(p, a).state != Err
    ensures Loop(p, a + b) == Loop(Loop(p, a), b)
    decreases |a|
  {
    if |a| == 0 {
      assert a + b == b;
    } else {
      assert (a + b)[0] == a[0] && (a + b)[1..] == a[1..] + b;
      var (q, halted) := Feed(p, a[0]);
      if !halted {
        LoopAppend(q, a[1..], b);
      }
    }
  }

  /** Two calls of `parse` on the same parser are one call on the concatenated text. */
  lemma ParseAppend(p: Parser, a: string, b: string)
    requires NoNul(a)
    requires Parse(p, a).state != Err
    ensures Parse(p, a + b) == Parse(Parse(p, a), b)
  {
    LoopAppend(p, a, b);
  }

  /** An error in a prefix is an error of the whole text. */
  lemma {:induction false} ErrorPrefix(p: Parser, a: string, b: string)
    requires Loop(p, a).state == Err
    ensures Loop(p, a + b).state == Err
    decreases |a|
  {
    if |a| > 0 && a[0] != '\0' {
      assert (a + b)[0] == a[0] && (a + b)[1..] == a[1..] + b;
      var (q, halted) := Feed(p, a[0]);
      if !halted {
        ErrorPrefix(q, a[1..], b);
      }
    } else if |a| > 0 {
      assert (a + b)[0] == '\0';
    }
  }

  /** `decode` of NUL-free text is one parse of the text followed by a space: when the
      text reads with an error both sides are NONE. */
  lemma DecodeOneParse(s: string)
    requires NoNul(s)
    ensures Decode(s) == RootValue(Loop(Init(), s + " "))
  {
    if Loop(Init(), s).state == Err {
      ErrorPrefix(Init(), s, " ");
    } else {
      LoopAppend(Init(), s, " ");
    }
  }

  // ---------------------------------------------------------------- pushback

  predicate IsWaiting(st: State) {
    st == WaitValue || st == WaitSep || st == WaitEqual || st == WaitObj
  }

  /** A state that asks for its character again hands over to a waiting state. */
  lemma MachineAgain(p: Parser, c: char, t: Ctx)
    requires Machine(p, c, t).1 == Again
    ensures IsWaiting(Machine(p, c, t).0.state)
    ensures Machine(p, c, t).0.inComment == p.inComment
  {
    match p.state
    case Integer =>
      assert Machine(p, c, t) == OnInteger(p, c);
    case Number =>
      assert Machine(p, c, t) == OnNumber(p, c);
    case NumberEV =>
      assert Machine(p, c, t) == OnNumberEV(p, c);
    case Property =>
      assert Machine(p, c, t) == OnProperty(p, c);
    case Identifier =>
      assert Machine(p, c, t) == OnIdentifier(p, c);
    case _ =>
  }

  /** A waiting state always consumes its character. */
  lemma WaitingConsumes(p: Parser, c: char, t: Ctx)
    requires IsWaiting(p.state)
    ensures Machine(p, c, t).1 != Again
  {
  }

  /** The `s--` pushback is never taken twice on the same character, so `Feed`, which
      reruns a step at most once, reads every character the way the loop does. */
  lemma {:induction false} PushbackOnce(p: Parser, c: char)
    requires Step(p, c).1 == Again
    ensures Step(Step(p, c).0, c).1 != Again
  {
    var q := Step(p, c).0;
    if !p.inComment {
      MachineAgain(p, c, Top(p.ctx));
      WaitingConsumes(q, c, Top(q.ctx));
    } else {
      ResumeAgain(p, c);
      WaitingConsumes(q, c, Top(q.ctx));
    }
  }

  /** Inside a comment, a pushback can only come from the state machine after the
      comment has closed. */
  lemma ResumeAgain(p: Parser, c: char)
    requires p.inComment
    requires Step(p, c).1 == Again
    ensures !Step(p, c).0.inComment && IsWaiting(Step(p, c).0.state)
  {
    var t := Top(p.ctx);
    if t.LineComment? {
      if c == '\n' || c == '\r' {
        var q := p.(inComment := false, ctx := Pop(p.ctx));
        ResumeMachine(q, c);
      } else {
        ResumeMachine(p, c);
      }
    } else if t.Comment? {
      if c == '*' {
        ResumeMachine(p.(ctx := p.ctx + [EndComment]), c);
      } else {
        ResumeMachine(p, c);
      }
    } else if t.EndComment? {
      if c == '*' {
        ResumeMachine(p, c);
      } else {
        ResumeMachine(p.(ctx := Pop(p.ctx)), c);
      }
    }
  }

  lemma ResumeMachine(q: Parser, c: char)
    requires Resume(q, c).1 == Again
    ensures !Resume(q, c).0.inComment && IsWaiting(Resume(q, c).0.state)
  {
    var t := Top(q.ctx);
    MachineAgain(q.(inComment := false), c, t);
  }

  // ---------------------------------------------------------------- integers

  /** An integer literal: decimal digits with an optional leading minus sign. */
  predicate IsIntLiteral(s: string) {
    (|s| > 0 && AllDigits(s)) || (|s| > 1 && s[0] == '-' && AllDigits(s[1..]))
  }

  /** In INT a digit is appended to the buffer. */
  lemma IntegerDigitStep(p: Parser, c: char)
    requires p.state == Integer && !p.inComment && IsDigit(c)
    ensures Feed(p, c) == (Append(p, c), false)
  {
    assert c != '/';
    assert Step(p, c) == OnInteger(p, c) == (Append(p, c), Next);
  }

  /** The first digit of a run read in INT goes to the buffer. */
  lemma IntegerDigitCons(p: Parser, d: string, s: string)
    requires p.state == Integer && !p.inComment && d != [] && IsDigit(d[0])
    ensures Loop(p, d + s) == Loop(Append(p, d[0]), d[1..] + s)
    ensures var q := Append(p, d[0]); q.(buffer := q.buffer + d[1..]) == p.(buffer := p.buffer + d)
  {
    IntegerDigitStep(p, d[0]);
    SplitHead(d, s);
    LoopCons(p, d[0], d[1..] + s, Append(p, d[0]));
    AppendHead(p.buffer, d);
  }

  /** In INT every digit goes to the buffer. */
  lemma {:induction false} IntegerDigits(p: Parser, d: string, s: string)
    requires p.state == Integer && !p.inComment && AllDigits(d)
    ensures Loop(p, d + s) == Loop(p.(buffer := p.buffer + d), s)
    decreases |d|
  {
    if d == [] {
      assert d + s == s;
      assert p.buffer + d == p.buffer;
    } else {
      assert IsDigit(d[0]);
      IntegerDigits(Append(p, d[0]), d[1..], s);
      IntegerDigitCons(p, d, s);
    }
  }

  /** A minus sign and a digit start an integer literal. */
  lemma MinusStart(s: string)
    requires IsIntLiteral(s) && s[0] == '-'
    ensures Loop(Init(), s) == Loop(Init().(state := Integer, buffer := s[..2]), s[2..])
  {
    var p := Init();
    var q1 := Append(p, '-').(state := Minus);
    assert Step(p, '-') == OnWaitValue(p, '-', Root) == (q1, Next);
    assert s == ['-'] + s[1..];
    LoopCons(p, '-', s[1..], q1);
    var q2 := Append(q1, s[1]).(state := Integer);
    assert IsDigit(s[1]);
    assert Step(q1, s[1]) == OnMinus(q1, s[1]) == (q2, Next);
    assert s[1..] == [s[1]] + s[2..];
    LoopCons(q1, s[1], s[2..], q2);
    assert q2.buffer == s[..2];
  }

  /** A digit at the root starts an integer literal. */
  lemma DigitStart(s: string)
    requires IsIntLiteral(s) && s[0] != '-'
    ensures Loop(Init(), s) == Loop(Init().(state := Integer, buffer := s[..1]), s[1..])
  {
    var p := Init();
    var q1 := Append(p, s[0]).(state := Integer);
    assert IsDigit(s[0]);
    assert Step(p, s[0]) == OnWaitValue(p, s[0], Root) == (q1, Next);
    assert s == [s[0]] + s[1..];
    LoopCons(p, s[0], s[1..], q1);
    assert q1.buffer == s[..1];
  }

  /** The text of an integer literal read from the start leaves the parser in INT holding
      the whole literal. */
  lemma IntegerRead(s: string)
    requires IsIntLiteral(s)
    ensures Loop(Init(), s) == Init().(state := Integer, buffer := s)
  {
    var k := if s[0] == '-' then 2 else 1;
    if s[0] == '-' { MinusStart(s); } else { DigitStart(s); }
    var q := Init().(state := Integer, buffer := s[..k]);
    assert AllDigits(s[k..]) by {
      if s[0] == '-' { assert s[k..] == s[1..][1..]; } else { assert s[k..] == s[1..]; }
    }
    IntegerDigits(q, s[k..], "");
    assert s[k..] + "" == s[k..];
    assert s[..k] + s[k..] == s;
  }

  /** The space that `decode` appends ends a pending integer at the root. */
  lemma IntegerSpace(s: string)
    requires IsIntLiteral(s)
    ensures var p := Init().(state := Integer, buffer := s);
      Loop(p, " ") == if LeadingZero(s) then p.(state := Err)
                      else Init().(lists := [ArrC([IntegerValue(s)])])
  {
    var p := Init().(state := Integer, buffer := s);
    assert s != "-" by { assert |s| > 1 || IsDigit(s[0]); }
    if !LeadingZero(s) {
      var x := IntegerValue(s);
      assert [] + [x] == [x];
      assert Put(p, x).lists == [ArrC([x])];
      var q := ValueEnd(Put(p, x));
      assert q == Init().(lists := [ArrC([IntegerValue(s)])]);
      assert Step(p, ' ') == (q, Again);
      assert Step(q, ' ') == (q, Next);
    }
  }

  /** Decoding an integer literal: a leading zero followed by more digits (`01`, `-01`) is
      an error, while `0` and `-0` are accepted; up to nine characters give a 32-bit `int`
      with the literal's value, a longer literal a double. */
  lemma IntegerLiteral(s: string)
    requires IsIntLiteral(s)
    ensures LeadingZero(s) ==> Decode(s) == None
    ensures !LeadingZero(s) && |s| <= 9 ==> Decode(s).Int? && Decode(s).i == AtoI(s)
    ensures !LeadingZero(s) && |s| > 9 ==> Decode(s) == Num(s)
  {
    IntegerRead(s);
    var p := Init().(state := Integer, buffer := s);
    assert Parse(Init(), s) == p;
    IntegerSpace(s);
    assert Decode(s) == RootValue(Loop(p, " "));
  }

  // ---------------------------------------------------------------- number grammar

  /** After '-', '.' or an exponent sign only a digit may follow; anything else is ERR. */
  lemma NeedsDigit(p: Parser, c: char)
    requires !p.inComment && c != '/'
    requires p.state == Minus || p.state == NumberDot || p.state == NumberES
    ensures Step(p, c).0.state == Err <==> !IsDigit(c)
    ensures IsDigit(c) ==> Step(p, c) == (p.(buffer := p.buffer + [c], state := if p.state == NumberES then NumberEV else if p.state == Minus then Integer else Number), Next)
  {
  }

  /** After 'e' or 'E' a sign or a digit must follow. */
  lemma ExponentStart(p: Parser, c: char)
    requires !p.inComment && c != '/' && p.state == NumberE
    ensures Step(p, c).0.state == Err <==> !(IsDigit(c) || c == '+' || c == '-')
  {
  }

  /** An integer ends at any character other than a digit, '.', 'e' or 'E'; the value is
      put and the character is read again. */
  lemma IntegerEnd(p: Parser, c: char)
    requires !p.inComment && c != '/' && p.state == Integer
    requires !IsDigit(c) && c != '.' && c != 'e' && c != 'E'
    ensures p.buffer == "-" || LeadingZero(p.buffer) ==> Step(p, c) == (p.(state := Err), Halt)
    ensures p.buffer != "-" && !LeadingZero(p.buffer) ==>
      Step(p, c) == (ValueEnd(Put(p, IntegerValue(p.buffer))), Again)
  {
  }

  /** A fraction or exponent number ends only at ',', white space, ']' or '}', and that
      character is read again in the following state rather than consumed. */
  lemma NumberEnd(p: Parser, c: char)
    requires !p.inComment && c != '/' && (p.state == Number || p.state == NumberEV)
    requires !IsDigit(c) && !(p.state == Number && (c == 'e' || c == 'E'))
    ensures IsNumberEnd(c) ==> Step(p, c) == (ValueEnd(Put(p, Num(p.buffer))), Again)
    ensures !IsNumberEnd(c) ==> Step(p, c).0.state == Err
    ensures IsNumberEnd(c) ==> Feed(p, c) == (var (q, f) := Step(ValueEnd(Put(p, Num(p.buffer))), c); (q, f == Halt))
  {
  }

  // ---------------------------------------------------------------- comments

  /** Text in which no '*' is directly followed by '/'. */
  predicate NoCloser(body: string) {
    forall i | 0 <= i < |body| - 1 :: !(body[i] == '*' && body[i + 1] == '/')
  }

  /** Inside a block comment, past its first `*`: every character up to the closing star-slash is skipped. */
  lemma {:induction false} BlockBody(p: Parser, body: string, s: string)
    requires p.inComment && |p.ctx| > 0 && Top(p.ctx) == Comment
    requires NoNul(body) && NoCloser(body)
    ensures Loop(p, body + "*/" + s) == Loop(p.(inComment := false, ctx := Pop(p.ctx)), s)
    decreases |body|
  {
    var q := p.(ctx := p.ctx + [EndComment]);
    assert Pop(Pop(q.ctx)) == Pop(p.ctx);
    if body == [] {
      assert body + "*/" + s == ['*'] + (['/'] + s);
      assert Feed(p, '*') == (q, false);
      assert Feed(q, '/') == (p.(inComment := false, ctx := Pop(p.ctx)), false);
    } else if body[0] == '*' {
      assert body + "*/" + s == ['*'] + (body[1..] + "*/" + s);
      assert Feed(p, '*') == (q, false);
      EndBody(q, body[1..], s);
    } else {
      assert body + "*/" + s == [body[0]] + (body[1..] + "*/" + s);
      assert Feed(p, body[0]) == (p, false);
      NoCloserTail(body);
      BlockBody(p, body[1..], s);
    }
  }

  /** In ENDCOMMENT (just read a '*'): a further '*' keeps it ready to close, another
      character goes back to the body, '/' closes. */
  lemma {:induction false} EndBody(q: Parser, rest: string, s: string)
    requires q.inComment && |q.ctx| > 1 && Top(q.ctx) == EndComment && Top(Pop(q.ctx)) == Comment
    requires NoNul(rest) && NoCloser(rest)
    requires rest == [] || rest[0] != '/'
    ensures Loop(q, rest + "*/" + s) == Loop(q.(inComment := false, ctx := Pop(Pop(q.ctx))), s)
    decreases |rest|
  {
    var p := q.(ctx := Pop(q.ctx));
    assert Pop(p.ctx) == Pop(Pop(q.ctx));
    if rest == [] {
      assert rest + "*/" + s == ['*'] + (['/'] + s);
      assert Feed(q, '*') == (q, false);
      assert Feed(q, '/') == (q.(inComment := false, ctx := Pop(Pop(q.ctx))), false);
    } else if rest[0] == '*' {
      assert rest + "*/" + s == ['*'] + (rest[1..] + "*/" + s);
      assert Feed(q, '*') == (q, false);
      NoCloserTail(rest);
      EndBody(q, rest[1..], s);
    } else {
      assert rest + "*/" + s == [rest[0]] + (rest[1..] + "*/" + s);
      assert Feed(q, rest[0]) == (p, false);
      NoCloserTail(rest);
      BlockBody(p, rest[1..], s);
    }
  }

  lemma NoCloserTail(body: string)
    requires |body| > 0 && NoCloser(body)
    ensures NoCloser(body[1..])
    ensures body[0] == '*' ==> body[1..] == [] || body[1] != '/'
  {
  }

  /** A block comment is invisible: outside a string, reading slash-star, a body without a
      star-slash, and star-slash leaves the parser exactly as it was. */
  lemma BlockCommentInvisible(p: Parser, body: string, s: string)
    requires !p.inComment && p.state != Quoted && p.state != Escape
    requires NoNul(body) && NoCloser(body)
    ensures Loop(p, "/*" + body + "*/" + s) == Loop(p, s)
  {
    var p1 := p.(inComment := true, ctx := p.ctx + [Comment1]);
    var p2 := p.(inComment := true, ctx := p.ctx + [Comment]);
    assert Pop(p1.ctx) == p.ctx && Pop(p2.ctx) == p.ctx;
    assert Feed(p, '/') == (p1, false);
    assert Feed(p1, '*') == (p2, false);
    assert "/*" + body + "*/" + s == ['/'] + (['*'] + (body + "*/" + s));
    BlockBody(p2, body, s);
    assert p2.(inComment := false, ctx := Pop(p2.ctx)) == p;
  }

  /** Inside a line comment every character up to the line end is skipped. */
  lemma {:induction false} LineBody(p: Parser, body: string, s: string)
    requires p.inComment && |p.ctx| > 0 && Top(p.ctx) == LineComment
    requires NoNul(body) && forall i | 0 <= i < |body| :: body[i] != '\n' && body[i] != '\r'
    ensures Loop(p, body + s) == Loop(p, s)
    decreases |body|
  {
    if body != [] {
      assert body + s == [body[0]] + (body[1..] + s);
      assert Feed(p, body[0]) == (p, false);
      LineBody(p, body[1..], s);
    } else {
      assert body + s == s;
    }
  }

  /** A line comment is invisible up to its end: the newline (or carriage return) that
      ends it is then read as input in the state the comment interrupted. */
  lemma LineCommentInvisible(p: Parser, body: string, nl: char, s: string)
    requires !p.inComment && p.state != Quoted && p.state != Escape
    requires NoNul(body) && forall i | 0 <= i < |body| :: body[i] != '\n' && body[i] != '\r'
    requires nl == '\n' || nl == '\r'
    requires !IsCommentCtx(Top(p.ctx))
    ensures Loop(p, "//" + body + [nl] + s) == Loop(p, [nl] + s)
  {
    var p1 := p.(inComment := true, ctx := p.ctx + [Comment1]);
    var p2 := p.(inComment := true, ctx := p.ctx + [LineComment]);
    assert Pop(p1.ctx) == p.ctx && Pop(p2.ctx) == p.ctx;
    assert Feed(p, '/') == (p1, false);
    assert Feed(p1, '/') == (p2, false);
    assert "//" + body + [nl] + s == ['/'] + (['/'] + (body + ([nl] + s)));
    LineBody(p2, body, [nl] + s);
    assert p2.(inComment := false, ctx := Pop(p2.ctx)) == p;
    assert Step(p2, nl) == Machine(p, nl, Top(p.ctx));
    assert Feed(p2, nl) == Feed(p, nl);
  }

  /** A '/' outside a string must be followed by '/' or '*'. */
  lemma LoneSlash(p: Parser, c: char)
    requires !p.inComment && p.state != Quoted && p.state != Escape
    requires c != '/' && c != '*' && !IsCommentCtx(Top(p.ctx))
    ensures Step(Step(p, '/').0, c).0.state == Err
  {
    var p1 := p.(inComment := true, ctx := p.ctx + [Comment1]);
    assert Step(p, '/').0 == p1;
    assert Pop(p1.ctx) == p.ctx;
  }

  // ---------------------------------------------------------------- bare words

  predicate IsWordStart(c: char) {
    IsAlpha(c) || c == '_' || c == '$'
  }

  predicate IsWordChar(c: char) {
    IsAlnum(c) || c == '_'
  }

  predicate AllWordChars(d: string) {
    forall i | 0 <= i < |d| :: IsWordChar(d[i])
  }

  /** A bare word: it may start with '$' but goes on only with letters, digits and '_'. */
  predicate IsWord(w: string) {
    |w| > 0 && IsWordStart(w[0]) && AllWordChars(w[1..])
  }

  /** The value a bare word stands for: `Y`/`true`, `N`/`false`, `null`; NONE for any
      other word. */
  function KeywordValue(w: string): Value {
    if w == "Y" || w == "true" then Bool(true)
    else if w == "N" || w == "false" then Bool(false)
    else if w == "null" then Null
    else None
  }

  /** Waiting for a value outside a comment with nothing buffered. */
  predicate Fresh(p: Parser) {
    p.state == WaitValue && !p.inComment && p.buffer == ""
  }

  lemma {:induction false} WordChars(p: Parser, d: string)
    requires p.state == Identifier && !p.inComment && AllWordChars(d)
    ensures Loop(p, d) == p.(buffer := p.buffer + d)
    decreases |d|
  {
    if d == [] {
      assert p.buffer + d == p.buffer;
    } else {
      var q := Append(p, d[0]);
      assert IsWordChar(d[0]);
      IdentifierStep(p, d[0]);
      assert Loop(p, d) == Loop(q, d[1..]);
      assert AllWordChars(d[1..]) by {
        forall i | 0 <= i < |d| - 1 ensures IsWordChar(d[1..][i]) {
          assert d[1..][i] == d[i + 1];
        }
      }
      WordChars(q, d[1..]);
      assert q.buffer + d[1..] == p.buffer + d;
    }
  }

  lemma IdentifierStep(p: Parser, c: char)
    requires p.state == Identifier && !p.inComment && IsWordChar(c)
    ensures Feed(p, c) == (Append(p, c), false)
  {
    assert Step(p, c) == OnIdentifier(p, c);
  }

  /** A bare word is collected whole in IDENTIFIER. */
  lemma WordRead(p: Parser, w: string)
    requires Fresh(p) && IsWord(w)
    ensures Loop(p, w) == p.(state := Identifier, buffer := w)
    ensures NoNul(w)
  {
    var q := Append(p, w[0]).(state := Identifier);
    assert !IsDigit(w[0]);
    assert Step(p, w[0]) == OnWaitValue(p, w[0], Top(p.ctx)) == (q, Next);
    assert Loop(p, w) == Loop(q, w[1..]);
    WordChars(q, w[1..]);
    assert q.buffer + w[1..] == w;
    forall i | 0 <= i < |w| ensures w[i] != '\0' {
      if i > 0 { assert w[i] == w[1..][i - 1]; assert IsWordChar(w[1..][i - 1]); }
    }
  }

  /** The space that `decode` appends ends a pending word at the root. */
  lemma WordSpace(w: string)
    ensures var p := Init().(state := Identifier, buffer := w);
      Loop(p, " ") == if KeywordValue(w) == None then p.(state := WaitObj)
                      else Init().(lists := [ArrC([KeywordValue(w)])])
  {
    var p := Init().(state := Identifier, buffer := w);
    var x := KeywordValue(w);
    assert Step(p, ' ') == OnIdentifier(p, ' ');
    if x != None {
      assert [] + [x] == [x];
      assert Put(p, x).lists == [ArrC([x])];
      var q := ValueEnd(Put(p, x));
      assert q == Init().(lists := [ArrC([x])]);
      assert Step(p, ' ') == (q, Again);
      assert Step(q, ' ') == (q, Next);
    } else {
      var q := p.(state := WaitObj);
      assert Step(p, ' ') == (q, Again);
      assert Step(q, ' ') == (q, Next);
    }
  }

  /** Decoding a lone bare word gives its keyword value, or NONE when it is not one (a
      word that is not a keyword must introduce a class-tagged object). */
  lemma BareWord(w: string)
    requires IsWord(w)
    ensures Decode(w) == KeywordValue(w)
  {
    WordRead(Init(), w);
    WordSpace(w);
  }

  lemma {:induction false} WaitObjSpaces(q: Parser, sp: string, s: string)
    requires q.state == WaitObj && !q.inComment
    requires forall i | 0 <= i < |sp| :: IsSpace(sp[i])
    ensures Loop(q, sp + s) == Loop(q, s)
    decreases |sp|
  {
    if sp == [] {
      assert sp + s == s;
    } else {
      assert sp + s == [sp[0]] + (sp[1..] + s);
      WaitObjStep(q, sp[0]);
      assert Feed(q, sp[0]) == (q, false);
      WaitObjSpaces(q, sp[1..], s);
    }
  }

  /** A word that is not a keyword waits for its object at the first other character. */
  lemma WordToWaitObj(pi: Parser, c: char)
    requires pi.state == Identifier && !pi.inComment && KeywordValue(pi.buffer) == None
    requires !IsWordChar(c) && c != '/'
    ensures Step(pi, c) == (pi.(state := WaitObj), Again)
  {
    assert Step(pi, c) == OnIdentifier(pi, c);
  }

  lemma WaitObjStep(q: Parser, c: char)
    requires q.state == WaitObj && !q.inComment && (IsSpace(c) || c == '{')
    ensures Step(q, c) == (if c == '{' then OpenObject(q) else q, Next)
  {
    assert Step(q, c) == OnWaitObj(q, c);
  }

  /** Reading one character that the step consumes without error. */
  lemma LoopCons(p: Parser, c: char, rest: string, q: Parser)
    requires c != '\0' && Feed(p, c) == (q, false)
    ensures Loop(p, [c] + rest) == Loop(q, rest)
  {
    assert ([c] + rest)[0] == c && ([c] + rest)[1..] == rest;
  }

  /** After a word that is not a keyword: white space, then '{' opens the object. */
  lemma WordThenBrace(pi: Parser, sp: string, s: string)
    requires pi.state == Identifier && !pi.inComment && KeywordValue(pi.buffer) == None
    requires forall i | 0 <= i < |sp| :: IsSpace(sp[i])
    ensures Loop(pi, sp + "{" + s) == Loop(OpenObject(pi), s)
  {
    var q := pi.(state := WaitObj);
    assert OpenObject(q) == OpenObject(pi);
    WaitObjStep(q, '{');
    if sp == [] {
      assert sp + "{" + s == ['{'] + s;
      WordToWaitObj(pi, '{');
      assert Feed(pi, '{') == (OpenObject(q), false);
      LoopCons(pi, '{', s, OpenObject(q));
    } else {
      assert sp + "{" + s == [sp[0]] + (sp[1..] + (['{'] + s));
      WordToWaitObj(pi, sp[0]);
      WaitObjStep(q, sp[0]);
      assert Feed(pi, sp[0]) == (q, false);
      LoopCons(pi, sp[0], sp[1..] + (['{'] + s), q);
      WaitObjSpaces(q, sp[1..], ['{'] + s);
      assert Feed(q, '{') == (OpenObject(q), false);
      LoopCons(q, '{', s, OpenObject(q));
    }
  }

  /** A word that is not a keyword, then white space, then '{' opens an object whose
      class is the word, stored under the class key. */
  lemma ClassTag(p: Parser, w: string, sp: string, s: string)
    requires Fresh(p) && IsWord(w) && KeywordValue(w) == None
    requires forall i | 0 <= i < |sp| :: IsSpace(sp[i])
    ensures Loop(p, w + sp + "{" + s) == Loop(OpenObject(p.(buffer := w)), s)
    ensures OpenObject(p.(buffer := w)).lists == p.lists + [DicC([Field(ClassKey, Str(w))])]
  {
    assert w + sp + "{" + s == w + (sp + "{" + s);
    WordRead(p, w);
    var pi := p.(state := Identifier, buffer := w);
    LoopAppend(p, w, sp + "{" + s);
    WordThenBrace(pi, sp, s);
    assert OpenObject(pi) == OpenObject(p.(buffer := w));
  }

  /** After a word that is not a keyword only white space or '{' may follow. */
  lemma WordNeedsBrace(p: Parser, c: char)
    requires p.state == Identifier && !p.inComment && c != '/'
    requires KeywordValue(p.buffer) == None
    requires !IsWordChar(c) && !IsSpace(c) && c != '{'
    ensures Feed(p, c) == (p.(state := Err), true)
  {
  }
}

=== FILE: parser_invariant.dfy ===
/** The invariant the parser keeps: the structural contexts and the container stack move
    together (root array at the bottom, an array per ARRAY context, a dictionary per OBJECT
    context), comment contexts only ever sit on top, and there is always a pending property
    name for every dictionary that is waiting for a value. So `put` never meets a dictionary
    without a name, and `end_array`/`end_object` always pop the container they opened. */
module ParserInvariant {
  import opened Values
  import opened XdlParser
  import opened Chars

  /** Number of comment contexts on top of the context stack. */
  function TailLen(ctx: seq<Ctx>): nat {
    if |ctx| >= 2 && ctx[|ctx| - 1] == EndComment && ctx[|ctx| - 2] == Comment then 2
    else if |ctx| >= 1 && IsCommentCtx(ctx[|ctx| - 1]) then 1
    else 0
  }

  /** States that require the innermost context to be an object. */
  predicate Naming(st: State) {
    st.WaitProperty? || st.Property? || st.QProperty? || st.WaitEqual?
  }

  /** States in which a property name has been read and its value is still to come. */
  predicate Awaiting(st: State) {
    !(st.WaitSep? || st.WaitProperty? || st.Property? || st.QProperty? || st.Err?)
  }

  function CountObj(s: seq<Ctx>): nat {
    if s == [] then 0 else CountObj(s[..|s| - 1]) + (if s[|s| - 1] == InObject then 1 else 0)
  }

  /** Pending property names the parser still needs: one per object that holds an open inner
      container, and one more if the innermost object is waiting for a value. */
  function Need(base: seq<Ctx>, st: State): nat
    requires |base| >= 1
  {
    (if |base| > 1 then CountObj(base[1..|base| - 1]) else 0)
    + (if base[|base| - 1] == InObject && Awaiting(st) then 1 else 0)
  }

  predicate CoreWf(base: seq<Ctx>, lists: seq<Container>, props: seq<string>, st: State) {
    && |base| >= 1 && base[0] == Root
    && (forall i | 1 <= i < |base| :: base[i] == InArray || base[i] == InObject)
    && |lists| == |base| && lists[0].ArrC?
    && (forall i | 1 <= i < |base| :: (lists[i].ArrC? <==> base[i] == InArray))
    && (Naming(st) ==> base[|base| - 1] == InObject)
    && |props| >= Need(base, st)
  }

  predicate Wf(p: Parser) {
    var n := |p.ctx| - TailLen(p.ctx);
    && CoreWf(p.ctx[..n], p.lists, p.props, p.state)
    && !(TailLen(p.ctx) == 1 && Top(p.ctx) == EndComment)
    && (p.inComment <==> TailLen(p.ctx) > 0)
  }

  /** Outside comments the whole context stack is structural. */
  predicate CodeWf(p: Parser) {
    !p.inComment && CoreWf(p.ctx, p.lists, p.props, p.state)
  }

  lemma CodeWfIsWf(p: Parser)
    requires CodeWf(p)
    ensures Wf(p) && TailLen(p.ctx) == 0
  {
    assert p.ctx[..|p.ctx|] == p.ctx;
  }

  lemma WfOutsideComment(p: Parser)
    requires Wf(p) && !p.inComment
    ensures CodeWf(p)
  {
    assert p.ctx[..|p.ctx|] == p.ctx;
  }

  lemma CountObjPush(s: seq<Ctx>, x: Ctx)
    ensures CountObj(s + [x]) == CountObj(s) + (if x == InObject then 1 else 0)
  {
    assert (s + [x])[..|s|] == s;
  }

  lemma InitWf()
    ensures Wf(Init())
  {
    CodeWfIsWf(Init());
  }

  // ------------------------------------------------------------ the operations

  /** A change of state alone keeps the invariant when it does not need a new name. */
  lemma StateChange(p: Parser, st: State, q: Parser)
    requires CodeWf(p)
    requires q.ctx == p.ctx && q.lists == p.lists && q.props == p.props && !q.inComment && q.state == st
    requires Naming(st) ==> Top(p.ctx) == InObject
    requires Top(p.ctx) == InObject && Awaiting(st) ==> Awaiting(p.state)
    ensures CodeWf(q)
  {
  }

  /** `put` of a completed value followed by `value_end`. */
  lemma PutScalar(p: Parser, x: Value)
    requires CodeWf(p) && Awaiting(p.state)
    ensures CodeWf(ValueEnd(Put(p, x)))
  {
    var b := p.ctx;
    var n := |b|;
    if n > 1 && b[n - 1] == InObject {
      assert p.lists[n - 1].DicC?;
    }
  }

  lemma CountObjFront(b: seq<Ctx>)
    requires |b| > 1
    ensures CountObj(b[1..]) == CountObj(b[1..|b| - 1]) + (if b[|b| - 1] == InObject then 1 else 0)
  {
    assert b[1..] == b[1..|b| - 1] + [b[|b| - 1]];
    CountObjPush(b[1..|b| - 1], b[|b| - 1]);
  }

  /** Entering a new innermost container from a state that waits for a value. */
  lemma Push(p: Parser, q: Parser, x: Ctx, st: State)
    requires CodeWf(p) && Awaiting(p.state)
    requires x == InArray || x == InObject
    requires q.ctx == p.ctx + [x] && q.props == p.props && !q.inComment && q.state == st
    requires |q.lists| == |p.lists| + 1 && q.lists[..|p.lists|] == p.lists
    requires q.lists[|p.lists|].ArrC? <==> x == InArray
    requires Naming(st) ==> x == InObject
    requires x == InObject ==> !Awaiting(st)
    ensures CodeWf(q)
  {
    var b := p.ctx;
    assert q.ctx[1..|q.ctx| - 1] == b[1..];
    if |b| > 1 {
      CountObjFront(b);
    }
  }

  lemma PushArray(p: Parser)
    requires CodeWf(p) && p.state == WaitValue
    ensures CodeWf(BeginArray(p).(ctx := p.ctx + [InArray]))
  {
    Push(p, BeginArray(p).(ctx := p.ctx + [InArray]), InArray, WaitValue);
  }

  lemma PushObject(p: Parser)
    requires CodeWf(p) && (p.state == WaitValue || p.state == WaitObj)
    ensures CodeWf(OpenObject(p))
  {
    Push(p, OpenObject(p), InObject, WaitProperty);
  }

  /** The invariant on the stacks after the innermost container is closed and put into the
      container below it. */
  lemma CoreClose(b: seq<Ctx>, lists: seq<Container>, props: seq<string>, st: State,
                  lists': seq<Container>, props': seq<string>, st': State)
    requires CoreWf(b, lists, props, st) && |b| > 1
    requires |lists'| == |b| - 1
    requires forall i | 0 <= i < |b| - 1 :: lists'[i].ArrC? == lists[i].ArrC?
    requires b[|b| - 2] == InObject ==> |props'| >= |props| - 1
    requires b[|b| - 2] != InObject ==> |props'| >= |props|
    requires st' == (if |b| == 2 then WaitValue else WaitSep)
    ensures CoreWf(b[..|b| - 1], lists', props', st')
  {
    var b' := b[..|b| - 1];
    if |b| > 2 {
      assert b[1..|b| - 1] == b'[1..];
      CountObjFront(b');
    }
  }

  /** What closing the innermost container does to the stacks below it. */
  lemma CloseStacks(p: Parser)
    requires CodeWf(p) && |p.ctx| > 1
    ensures var n := |p.ctx|; var r := CloseContainer(p);
      && r.ctx == p.ctx[..n - 1] && !r.inComment
      && r.state == (if n == 2 then WaitValue else WaitSep)
      && |r.lists| == n - 1
      && (forall i | 0 <= i < n - 1 :: r.lists[i].ArrC? == p.lists[i].ArrC?)
      && (p.ctx[n - 2] == InObject ==> |r.props| >= |p.props| - 1)
      && (p.ctx[n - 2] != InObject ==> r.props == p.props)
  {
    var b := p.ctx;
    var n := |b|;
    var q := ValueEnd(p.(ctx := b[..n - 1]));
    var q2 := q.(lists := p.lists[..n - 1]);
    var r := Put(q2, ContainerValue(p.lists[n - 1]));
    assert CloseContainer(p) == r;
    if b[n - 2] == InObject {
      assert q2.lists[n - 2].DicC?;
    } else {
      assert q2.lists[n - 2].ArrC?;
    }
  }

  lemma Close(p: Parser)
    requires CodeWf(p) && |p.ctx| > 1
    ensures CodeWf(CloseContainer(p))
  {
    var r := CloseContainer(p);
    CloseStacks(p);
    CoreClose(p.ctx, p.lists, p.props, p.state, r.lists, r.props, r.state);
  }

  lemma AddProperty(p: Parser)
    requires CodeWf(p) && (p.state == Property || p.state == QProperty)
    ensures CodeWf(NewProperty(p, p.buffer).(state := WaitEqual, buffer := ""))
  {
  }

  // ------------------------------------------------------------ the steps

  lemma IntegerWf(p: Parser, c: char)
    requires CodeWf(p) && p.state == Integer
    ensures CodeWf(OnInteger(p, c).0)
  {
    var r := OnInteger(p, c).0;
    if IsDigit(c) || c == '.' || c == 'e' || c == 'E' || p.buffer == "-" || LeadingZero(p.buffer) {
      StateChange(p, r.state, r);
    } else {
      PutScalar(p, IntegerValue(p.buffer));
    }
  }

  lemma NumberWf(p: Parser, c: char)
    requires CodeWf(p) && (p.state == Number || p.state == NumberEV)
    ensures CodeWf(Machine(p, c, Top(p.ctx)).0)
  {
    var r := Machine(p, c, Top(p.ctx)).0;
    if IsDigit(c) || (p.state == Number && (c == 'e' || c == 'E')) || !IsNumberEnd(c) {
      StateChange(p, r.state, r);
    } else {
      PutScalar(p, Num(p.buffer));
    }
  }

  lemma QuotedWf(p: Parser, c: char)
    requires CodeWf(p) && p.state == Quoted
    ensures CodeWf(OnQuoted(p, c).0)
  {
    var r := OnQuoted(p, c).0;
    if c == '"' { PutScalar(p, Str(p.buffer)); } else { StateChange(p, r.state, r); }
  }

  lemma PropertyWf(p: Parser, c: char)
    requires CodeWf(p) && (p.state == Property || p.state == QProperty)
    ensures CodeWf(Machine(p, c, Top(p.ctx)).0)
  {
    var r := Machine(p, c, Top(p.ctx)).0;
    if (p.state == Property && (c == '=' || IsSpace(c))) || (p.state == QProperty && c == '"') {
      AddProperty(p);
    } else {
      StateChange(p, r.state, r);
    }
  }

  lemma WaitValueWf(p: Parser, c: char)
    requires CodeWf(p) && p.state == WaitValue
    ensures CodeWf(OnWaitValue(p, c, Top(p.ctx)).0)
  {
    var ctx := Top(p.ctx);
    var r := OnWaitValue(p, c, ctx).0;
    if c == '[' {
      assert r == BeginArray(p).(ctx := p.ctx + [InArray]);
      PushArray(p);
    } else if c == '{' {
      assert r == OpenObject(p);
      PushObject(p);
    } else if (c == '}' && ctx == InObject) || (c == ']' && ctx == InArray) {
      assert r == CloseContainer(p);
      Close(p);
    } else {
      assert r.ctx == p.ctx && r.lists == p.lists && r.props == p.props && r.inComment == p.inComment;
      StateChange(p, r.state, r);
    }
  }

  lemma WaitSepWf(p: Parser, c: char)
    requires CodeWf(p) && p.state == WaitSep
    ensures CodeWf(OnWaitSep(p, c, Top(p.ctx)).0)
  {
    var ctx := Top(p.ctx);
    var r := OnWaitSep(p, c, ctx).0;
    if c == ',' || c == '\n' { StateChange(p, r.state, r); }
    else if (c == '}' && ctx == InObject) || (c == ']' && ctx == InArray) { Close(p); }
    else { StateChange(p, r.state, r); }
  }

  lemma WaitObjWf(p: Parser, c: char)
    requires CodeWf(p) && p.state == WaitObj
    ensures CodeWf(OnWaitObj(p, c).0)
  {
    var r := OnWaitObj(p, c).0;
    if c == '{' { PushObject(p); } else { StateChange(p, r.state, r); }
  }

  lemma WaitPropertyWf(p: Parser, c: char)
    requires CodeWf(p) && p.state == WaitProperty
    ensures CodeWf(OnWaitProperty(p, c).0)
  {
    var r := OnWaitProperty(p, c).0;
    if c == '}' { Close(p); } else { StateChange(p, r.state, r); }
  }

  lemma IdentifierWf(p: Parser, c: char)
    requires CodeWf(p) && p.state == Identifier
    ensures CodeWf(OnIdentifier(p, c).0)
  {
    var r := OnIdentifier(p, c).0;
    if !IsAlnum(c) && c != '_' {
      if IsKeywordBool(p.buffer) { PutScalar(p, Bool(p.buffer == "true" || p.buffer == "Y")); }
      else if p.buffer == "null" { PutScalar(p, Null); }
      else { StateChange(p, r.state, r); }
    } else {
      StateChange(p, r.state, r);
    }
  }

  lemma MachineWf(p: Parser, c: char)
    requires CodeWf(p)
    ensures CodeWf(Machine(p, c, Top(p.ctx)).0)
  {
    var r := Machine(p, c, Top(p.ctx)).0;
    match p.state
    case Integer => IntegerWf(p, c);
    case Number => NumberWf(p, c);
    case NumberEV => NumberWf(p, c);
    case Quoted => QuotedWf(p, c);
    case Property => PropertyWf(p, c);
    case QProperty => PropertyWf(p, c);
    case WaitValue => WaitValueWf(p, c);
    case WaitSep => WaitSepWf(p, c);
    case WaitObj => WaitObjWf(p, c);
    case WaitProperty => WaitPropertyWf(p, c);
    case Identifier => IdentifierWf(p, c);
    case Minus => StateChange(p, r.state, r);
    case NumberDot => StateChange(p, r.state, r);
    case NumberE => StateChange(p, r.state, r);
    case NumberES => StateChange(p, r.state, r);
    case Escape => StateChange(p, r.state, r);
    case WaitEqual => StateChange(p, r.state, r);
    case UnicodeChar => StateChange(p, r.state, r);
    case Err => StateChange(p, r.state, r);
  }

  /** Opening or leaving a comment context only touches the comment contexts on top. */
  lemma ResumeWf(q: Parser, c: char)
    requires var n := |q.ctx| - TailLen(q.ctx);
      CoreWf(q.ctx[..n], q.lists, q.props, q.state) && !(TailLen(q.ctx) == 1 && Top(q.ctx) == EndComment)
    ensures Wf(Resume(q, c).0)
  {
    if TailLen(q.ctx) == 0 {
      assert q.ctx[..|q.ctx|] == q.ctx;
      MachineWf(q.(inComment := false), c);
      CodeWfIsWf(Resume(q, c).0);
    }
  }

  /** Shape of a well-formed stack whose top is a comment context. */
  lemma CommentTop(p: Parser)
    requires Wf(p) && p.inComment
    ensures var base := p.ctx[..|p.ctx| - TailLen(p.ctx)];
      || (Top(p.ctx) == Comment1 && p.ctx == base + [Comment1])
      || (Top(p.ctx) == LineComment && p.ctx == base + [LineComment])
      || (Top(p.ctx) == Comment && p.ctx == base + [Comment])
      || (Top(p.ctx) == EndComment && p.ctx == base + [Comment, EndComment])
  {
  }

  lemma BaseIsCode(p: Parser)
    requires Wf(p)
    ensures var base := p.ctx[..|p.ctx| - TailLen(p.ctx)];
      TailLen(base) == 0 && base[..|base|] == base
  {
  }

  lemma Comment1Wf(p: Parser, c: char)
    requires Wf(p) && p.inComment && Top(p.ctx) == Comment1
    ensures Wf(CommentStep(p, c).0)
  {
    if c == '/' {
      Comment1Opens(p, c, LineComment);
    } else if c == '*' {
      Comment1Opens(p, c, Comment);
    } else {
      Comment1Fails(p, c);
    }
  }

  /** After a first '/', any other character is an error. */
  lemma Comment1Fails(p: Parser, c: char)
    requires Wf(p) && p.inComment && Top(p.ctx) == Comment1 && c != '/' && c != '*'
    ensures Wf(CommentStep(p, c).0)
  {
    CommentTop(p);
    BaseIsCode(p);
    var base := p.ctx[..|p.ctx| - 1];
    assert CoreWf(base, p.lists, p.props, p.state);
    assert Pop(p.ctx) == base;
    Comment1Err(p, c);
    var r := p.(ctx := base, state := Err, inComment := false);
    assert CoreWf(r.ctx, r.lists, r.props, r.state);
    CodeWfIsWf(r);
  }

  lemma Comment1Err(p: Parser, c: char)
    requires Top(p.ctx) == Comment1 && c != '/' && c != '*' && !IsCommentCtx(Top(Pop(p.ctx)))
    ensures CommentStep(p, c).0 == p.(ctx := Pop(p.ctx), state := Err, inComment := false)
  {
    var q := p.(ctx := Pop(p.ctx), state := Err);
    assert CommentStep(p, c) == Resume(q, c);
    ResumeErr(q, c);
  }

  /** In ERR the state machine ignores the character. */
  lemma ResumeErr(q: Parser, c: char)
    requires q.state == Err && !IsCommentCtx(Top(q.ctx))
    ensures Resume(q, c) == (q.(inComment := false), Next)
  {
  }

  /** After a first '/', a second '/' or a '*' turns the context into a comment. */
  lemma Comment1Opens(p: Parser, c: char, x: Ctx)
    requires Wf(p) && p.inComment && Top(p.ctx) == Comment1
    requires (c == '/' && x == LineComment) || (c == '*' && x == Comment)
    ensures Wf(CommentStep(p, c).0)
  {
    CommentTop(p);
    BaseIsCode(p);
    var base := p.ctx[..|p.ctx| - 1];
    assert Pop(p.ctx) == base;
    var q2 := p.(ctx := base + [x]);
    assert CommentStep(p, c) == Resume(q2, c);
    assert TailLen(q2.ctx) == 1;
    assert q2.ctx[..|q2.ctx| - 1] == base;
    ResumeWf(q2, c);
  }

  lemma LineCommentWf(p: Parser, c: char)
    requires Wf(p) && p.inComment && Top(p.ctx) == LineComment
    ensures Wf(CommentStep(p, c).0)
  {
    if c == '\n' || c == '\r' {
      LineCommentEnds(p, c);
    } else {
      assert CommentStep(p, c) == Resume(p, c);
      CommentTop(p);
      ResumeWf(p, c);
    }
  }

  /** A line break ends a line comment and goes to the state machine. */
  lemma LineCommentEnds(p: Parser, c: char)
    requires Wf(p) && p.inComment && Top(p.ctx) == LineComment && (c == '\n' || c == '\r')
    ensures Wf(CommentStep(p, c).0)
  {
    CommentTop(p);
    BaseIsCode(p);
    var base := p.ctx[..|p.ctx| - 1];
    var q := p.(inComment := false, ctx := base);
    assert Pop(p.ctx) == base;
    assert CommentStep(p, c) == Resume(q, c);
    assert |q.ctx| - TailLen(q.ctx) == |base|;
    ResumeWf(q, c);
  }

  lemma BlockCommentWf(p: Parser, c: char)
    requires Wf(p) && p.inComment && Top(p.ctx) == Comment
    ensures Wf(CommentStep(p, c).0)
  {
    CommentTop(p);
    var base := p.ctx[..|p.ctx| - 1];
    if c == '*' {
      var q := p.(ctx := p.ctx + [EndComment]);
      assert q.ctx[..|q.ctx| - TailLen(q.ctx)] == base;
      ResumeWf(q, c);
    } else {
      ResumeWf(p, c);
    }
  }

  lemma EndCommentWf(p: Parser, c: char)
    requires Wf(p) && p.inComment && Top(p.ctx) == EndComment
    ensures Wf(CommentStep(p, c).0)
  {
    CommentTop(p);
    if c == '/' {
      CommentCloses(p);
    } else if c == '*' {
      assert CommentStep(p, c) == Resume(p, c);
      ResumeWf(p, c);
    } else {
      CommentResumes(p, c);
    }
  }

  /** '/' after '*' leaves the comment: both comment contexts are popped. */
  lemma CommentCloses(p: Parser)
    requires Wf(p) && p.inComment && Top(p.ctx) == EndComment
    ensures Wf(CommentStep(p, '/').0)
  {
    CommentTop(p);
    var base := p.ctx[..|p.ctx| - 2];
    var q := Pop(p.ctx);
    assert q == base + [Comment];
    assert Pop(q) == base;
    assert TailLen(base) == 0;
    assert Pop(q)[..|Pop(q)|] == base;
  }

  /** Any other character after '*' goes back to the comment body. */
  lemma CommentResumes(p: Parser, c: char)
    requires Wf(p) && p.inComment && Top(p.ctx) == EndComment && c != '/' && c != '*'
    ensures Wf(CommentStep(p, c).0)
  {
    CommentTop(p);
    var base := p.ctx[..|p.ctx| - 2];
    var q := Pop(p.ctx);
    assert q == base + [Comment];
    assert CommentStep(p, c) == Resume(p.(ctx := q), c);
    assert q[..|q| - TailLen(q)] == base;
    ResumeWf(p.(ctx := q), c);
  }

  lemma StepWf(p: Parser, c: char)
    requires Wf(p)
    ensures Wf(Step(p, c).0)
  {
    if !p.inComment {
      WfOutsideComment(p);
      if c == '/' && p.state != Quoted && p.state != Escape {
        var q := Step(p, c).0;
        assert q.ctx == p.ctx + [Comment1];
        assert q.ctx[..|q.ctx| - TailLen(q.ctx)] == p.ctx;
      } else {
        MachineWf(p, c);
        CodeWfIsWf(Step(p, c).0);
      }
    } else {
      CommentTop(p);
      match Top(p.ctx)
      case Comment1 => Comment1Wf(p, c);
      case LineComment => LineCommentWf(p, c);
      case Comment => BlockCommentWf(p, c);
      case EndComment => EndCommentWf(p, c);
    }
  }

  lemma FeedWf(p: Parser, c: char)
    requires Wf(p)
    ensures Wf(Feed(p, c).0)
  {
    StepWf(p, c);
    StepWf(Step(p, c).0, c);
  }

  lemma {:induction false} LoopWf(p: Parser, s: string)
    requires Wf(p)
    ensures Wf(Loop(p, s))
    decreases |s|
  {
    if |s| > 0 && s[0] != '\0' {
      FeedWf(p, s[0]);
      if !Feed(p, s[0]).1 {
        LoopWf(Feed(p, s[0]).0, s[1..]);
      }
    }
  }

  lemma ParseWf(p: Parser, s: string)
    requires Wf(p)
    ensures Wf(Parse(p, s))
  {
    if p.state != Err { LoopWf(p, s); }
  }

  /** Every state a decode passes through keeps the invariant; in particular the root
      container stays an array and every value put into a dictionary has its name. */
  lemma DecodeWf(s: string)
    ensures Wf(Parse(Parse(Init(), s), " "))
  {
    InitWf();
    ParseWf(Init(), s);
    ParseWf(Parse(Init(), s), " ");
  }

  /** Under the invariant a dictionary that is waiting for a value has a pending name,
      so the name `put` takes from the property stack is always there. */
  lemma PutHasName(p: Parser)
    requires Wf(p) && !p.inComment && Awaiting(p.state) && Top(p.ctx) == InObject
    ensures p.lists[|p.lists| - 1].DicC? && |p.props| >= 1
  {
    WfOutsideComment(p);
  }

  /** The same for the `put` that `end_array`/`end_object` make of a closed inner container:
      when the container around it is an object, that object is a dictionary and its name
      for the inner container is still on the property stack. */
  lemma CloseHasName(p: Parser)
    requires Wf(p) && !p.inComment
    ensures |p.ctx| >= 3 && p.ctx[|p.ctx| - 2] == InObject ==>
      p.lists[|p.lists| - 2].DicC? && |p.props| >= 1
  {
    WfOutsideComment(p);
    var b := p.ctx;
    var n := |b|;
    if n >= 3 && b[n - 2] == InObject {
      assert b[1..n - 1] == b[1..n - 2] + [b[n - 2]];
      CountObjPush(b[1..n - 2], b[n - 2]);
    }
  }
}

=== FILE: scalar_reading.dfy ===
/** Reading back the scalar texts the writer produces: from a parser waiting for a value,
    the text of an integer, a number, a keyword or a string followed by a character that
    ends it leaves the parser exactly as `put` of that value followed by `value_end`. */
module ScalarReading {
  import opened Values
  import opened Seqs
  import opened Chars
  import opened XdlParser
  import opened ParserFacts
  import XdlWriter

  /** The parser once a complete value has been put: `put`, then `value_end`. */
  function After(p: Parser, x: Value): Parser {
    ValueEnd(Put(p, x))
  }

  /** `put` looks neither at the state nor at the buffer. */
  lemma PutFrame(p: Parser, st: State, b: string, x: Value)
    ensures Put(p.(state := st, buffer := b), x) == Put(p, x).(state := st, buffer := b)
  {
  }

  lemma AfterFrame(p: Parser, st: State, b: string, x: Value)
    ensures After(p.(state := st, buffer := b), x) == After(p, x)
  {
    PutFrame(p, st, b, x);
  }

  /** After a value the parser waits, and a waiting parser consumes its character. */
  lemma AfterConsumes(p: Parser, x: Value, c: char)
    requires !p.inComment
    ensures Step(After(p, x), c).1 != Again
  {
    var q := After(p, x);
    assert q.state == WaitValue || q.state == WaitSep;
    if c != '/' {
      WaitingConsumes(q, c, Top(q.ctx));
    }
  }

  /** A character pushed back after a value is then read in the waiting state: the loop
      goes on as if the value had been put before the character. */
  lemma Settle(q: Parser, p: Parser, x: Value, rest: string)
    requires !p.inComment && |rest| > 0 && rest[0] != '\0'
    requires Step(q, rest[0]) == (After(p, x), Again)
    ensures Loop(q, rest) == Loop(After(p, x), rest)
  {
    AfterConsumes(p, x, rest[0]);
    assert Feed(q, rest[0]) == Feed(After(p, x), rest[0]);
  }

  /** The characters that end a value in the texts the writer produces: ',', white space,
      ']' and '}'. */
  lemma EnderIsNoWordChar(c: char)
    requires IsNumberEnd(c)
    ensures !IsDigit(c) && !IsAlnum(c) && c != '_' && c != '.' && c != 'e' && c != 'E'
    ensures c != '/' && c != '\0' && c != '"' && c != '\\'
  {
  }

  // ---------------------------------------------------------------- integers

  /** A waiting parser starts an integer at a digit and a negative one at '-'. */
  lemma IntegerStart(p: Parser, c: char)
    requires Fresh(p) && (IsDigit(c) || c == '-')
    ensures Feed(p, c) == (Append(p, c).(state := if c == '-' then Minus else Integer), false)
  {
    assert Step(p, c) == OnWaitValue(p, c, Top(p.ctx));
  }

  lemma MinusDigit(q: Parser, c: char)
    requires q.state == Minus && !q.inComment && IsDigit(c)
    ensures Feed(q, c) == (Append(q, c).(state := Integer), false)
  {
    assert Step(q, c) == OnMinus(q, c);
  }

  /** An integer literal read from a waiting parser is collected whole in INT. */
  lemma IntegerAt(p: Parser, s: string, rest: string)
    requires Fresh(p) && IsIntLiteral(s)
    ensures Loop(p, s + rest) == Loop(p.(state := Integer, buffer := s), rest)
  {
    if s[0] == '-' {
      NegativeAt(p, s, rest);
    } else {
      IntegerStart(p, s[0]);
      UnsignedAt(p, s, rest);
      assert p.buffer + s == s;
    }
  }

  lemma NegativeAt(p: Parser, s: string, rest: string)
    requires Fresh(p) && |s| > 1 && s[0] == '-' && AllDigits(s[1..])
    ensures Loop(p, s + rest) == Loop(p.(state := Integer, buffer := s), rest)
  {
    var q1 := Append(p, '-').(state := Minus);
    IntegerStart(p, '-');
    LoopHead(p, q1, s, rest);
    UnsignedAt(q1, s[1..], rest);
    assert q1.buffer + s[1..] == s;
  }

  /** Reading the first character of a text that the step consumes without error. */
  lemma LoopHead(q: Parser, q1: Parser, s: string, rest: string)
    requires |s| > 0 && s[0] != '\0' && Feed(q, s[0]) == (q1, false)
    ensures Loop(q, s + rest) == Loop(q1, s[1..] + rest)
  {
    SplitHead(s, rest);
    LoopCons(q, s[0], s[1..] + rest, q1);
  }

  /** The digits of a literal after its sign, or from its first digit on: INT collects them. */
  lemma UnsignedAt(q: Parser, d: string, rest: string)
    requires !q.inComment && |d| > 0 && AllDigits(d)
    requires q.state == Minus || (Fresh(q) && d[0] != '-')
    ensures Loop(q, d + rest) == Loop(q.(state := Integer, buffer := q.buffer + d), rest)
  {
    var q1 := Append(q, d[0]).(state := Integer);
    assert IsDigit(d[0]);
    if q.state == Minus { MinusDigit(q, d[0]); } else { IntegerStart(q, d[0]); }
    FirstDigit(q, q1, d, rest);
  }

  lemma FirstDigit(q: Parser, q1: Parser, d: string, rest: string)
    requires |d| > 0 && AllDigits(d) && Feed(q, d[0]) == (q1, false)
    requires q1 == Append(q, d[0]).(state := Integer) && !q.inComment
    ensures Loop(q, d + rest) == Loop(q.(state := Integer, buffer := q.buffer + d), rest)
  {
    assert IsDigit(d[0]);
    LoopHead(q, q1, d, rest);
    IntegerDigits(q1, d[1..], rest);
    AppendHead(q.buffer, d);
  }

  /** The writer's text of an integer is a literal without a leading zero. */
  lemma DecimalTextIsLiteral(i: int)
    ensures IsIntLiteral(DecimalText(i)) && !LeadingZero(DecimalText(i))
  {
    var t := DecimalText(i);
    if i < 0 {
      assert t[1..] == NatText(-i);
    }
  }

  /** An integer whose text fits in nine characters reads back as itself. */
  lemma ReadInt(p: Parser, i: int32, rest: string)
    requires Fresh(p) && |DecimalText(i)| <= 9
    requires |rest| > 0 && IsNumberEnd(rest[0])
    ensures Loop(p, DecimalText(i) + rest) == Loop(After(p, Int(i)), rest)
  {
    var t := DecimalText(i);
    DecimalTextIsLiteral(i);
    DecimalTextRoundTrip(i);
    assert IntegerValue(t) == Int(i);
    IntegerAt(p, t, rest);
    var q := p.(state := Integer, buffer := t);
    EnderIsNoWordChar(rest[0]);
    assert t != "-";
    IntegerEnd(q, rest[0]);
    AfterFrame(p, Integer, t, Int(i));
    Settle(q, p, Int(i), rest);
  }

  // ---------------------------------------------------------------- keywords

  /** A keyword followed by a character that ends it reads as its value. */
  lemma ReadKeyword(p: Parser, w: string, rest: string)
    requires Fresh(p) && IsWord(w) && KeywordValue(w) != None
    requires |rest| > 0 && IsNumberEnd(rest[0])
    ensures Loop(p, w + rest) == Loop(After(p, KeywordValue(w)), rest)
  {
    var x := KeywordValue(w);
    WordRead(p, w);
    var q := p.(state := Identifier, buffer := w);
    LoopAppend(p, w, rest);
    EnderIsNoWordChar(rest[0]);
    assert Step(q, rest[0]) == OnIdentifier(q, rest[0]);
    assert Step(q, rest[0]) == (After(q, x), Again);
    AfterFrame(p, Identifier, w, x);
    Settle(q, p, x, rest);
  }

  /** The keywords the writer uses are bare words standing for the values written. */
  lemma KeywordTexts(b: bool, json: bool)
    ensures IsWord(XdlWriter.BoolText(b, json)) && KeywordValue(XdlWriter.BoolText(b, json)) == Bool(b)
    ensures IsWord("null") && KeywordValue("null") == Null
  {
    var w := XdlWriter.BoolText(b, json);
    assert IsWordStart(w[0]);
    assert forall i | 0 <= i < |w[1..]| :: IsWordChar(w[1..][i]);
    var n := "null";
    assert IsWordStart(n[0]);
    assert forall i | 0 <= i < |n[1..]| :: IsWordChar(n[1..][i]);
  }

  /** `Y`/`N` natively, `true`/`false` in JSON: both read back as the boolean. */
  lemma ReadBool(p: Parser, b: bool, json: bool, rest: string)
    requires Fresh(p)
    requires |rest| > 0 && IsNumberEnd(rest[0])
    ensures Loop(p, XdlWriter.BoolText(b, json) + rest) == Loop(After(p, Bool(b)), rest)
  {
    KeywordTexts(b, json);
    ReadKeyword(p, XdlWriter.BoolText(b, json), rest);
  }

  lemma ReadNull(p: Parser, rest: string)
    requires Fresh(p)
    requires |rest| > 0 && IsNumberEnd(rest[0])
    ensures Loop(p, "null" + rest) == Loop(After(p, Null), rest)
  {
    KeywordTexts(true, true);
    ReadKeyword(p, "null", rest);
  }

  // ---------------------------------------------------------------- strings

  /** Inside a string any character but '"' and '\\' is taken as it is. */
  lemma QuotedPlain(q: Parser, c: char)
    requires q.state == Quoted && !q.inComment && c != '"' && c != '\\'
    ensures Feed(q, c) == (Append(q, c), false)
  {
    assert Step(q, c) == OnQuoted(q, c);
  }

  lemma QuotedBackslash(q: Parser)
    requires q.state == Quoted && !q.inComment
    ensures Feed(q, '\\') == (q.(state := Escape), false)
  {
    assert Step(q, '\\') == OnQuoted(q, '\\');
  }

  lemma EscapeStep(q: Parser, e: char)
    requires q.state == Escape && !q.inComment && IsSimpleEscape(e)
    ensures Feed(q, e) == (Append(q, Unescape(e)).(state := Quoted), false)
  {
    assert Step(q, e) == OnEscape(q, e);
  }

  /** The closing quote puts the collected text as a string. */
  lemma CloseQuote(q: Parser)
    requires q.state == Quoted && !q.inComment
    ensures Feed(q, '"') == (After(q, Str(q.buffer)), false)
  {
    assert Step(q, '"') == OnQuoted(q, '"');
  }

  /** Each escape the writer produces is undone by the parser. */
  lemma EscapedChar(q: Parser, c: char, rest: string)
    requires q.state == Quoted && !q.inComment && c != '\0'
    ensures Loop(q, XdlWriter.EscapeChar(c) + rest) == Loop(Append(q, c), rest)
  {
    var t := XdlWriter.EscapeChar(c);
    if |t| == 1 {
      assert t == [c] && c != '"' && c != '\\';
      QuotedPlain(q, c);
      LoopCons(q, c, rest, Append(q, c));
    } else {
      var e := t[1];
      assert t == ['\\', e] && IsSimpleEscape(e) && Unescape(e) == c;
      var qe := q.(state := Escape);
      QuotedBackslash(q);
      LoopHead(q, qe, t, rest);
      EscapeStep(qe, e);
      assert Append(qe, Unescape(e)).(state := Quoted) == Append(q, c);
      LoopHead(qe, Append(q, c), t[1..], rest);
      assert t[1..][1..] + rest == rest;
    }
  }

  lemma NoNulTail(s: string)
    requires |s| > 0 && NoNul(s)
    ensures s[0] != '\0' && NoNul(s[1..])
  {
    assert forall i | 0 <= i < |s| - 1 :: s[1..][i] == s[i + 1];
  }

  /** The escaped text of a string, read inside a string, adds the string to the buffer. */
  lemma {:induction false} QuotedText(q: Parser, s: string, rest: string)
    requires q.state == Quoted && !q.inComment && NoNul(s)
    ensures Loop(q, XdlWriter.EscapeText(s) + rest) == Loop(q.(buffer := q.buffer + s), rest)
    decreases |s|
  {
    if s == [] {
      assert XdlWriter.EscapeText(s) + rest == rest;
      assert q.buffer + s == q.buffer;
    } else {
      NoNulTail(s);
      var tail := XdlWriter.EscapeText(s[1..]);
      assert XdlWriter.EscapeText(s) == XdlWriter.EscapeChar(s[0]) + tail;
      Concat3(XdlWriter.EscapeChar(s[0]), tail, rest);
      EscapedChar(q, s[0], tail + rest);
      QuotedText(Append(q, s[0]), s[1..], rest);
      AppendHead(q.buffer, s);
    }
  }

  /** Text without '"', '\\' or NUL, as the writer puts a class name between quotes. */
  predicate RawText(r: string) {
    forall i | 0 <= i < |r| :: r[i] != '"' && r[i] != '\\' && r[i] != '\0'
  }

  lemma {:induction false} QuotedRaw(q: Parser, r: string, rest: string)
    requires q.state == Quoted && !q.inComment && RawText(r)
    ensures Loop(q, r + rest) == Loop(q.(buffer := q.buffer + r), rest)
    decreases |r|
  {
    if r == [] {
      assert r + rest == rest;
      assert q.buffer + r == q.buffer;
    } else {
      assert r[0] != '"' && r[0] != '\\' && r[0] != '\0';
      QuotedPlain(q, r[0]);
      LoopHead(q, Append(q, r[0]), r, rest);
      assert RawText(r[1..]) by {
        assert forall i | 0 <= i < |r| - 1 :: r[1..][i] == r[i + 1];
      }
      QuotedRaw(Append(q, r[0]), r[1..], rest);
      AppendHead(q.buffer, r);
    }
  }

  /** The opening quote enters STRING; the closing quote stores the buffer as a string. */
  lemma QuoteEnds(p: Parser, x: string, s: string, rest: string)
    requires Fresh(p)
    ensures Loop(p, ['"'] + x) == Loop(p.(state := Quoted), x)
    ensures Loop(p.(state := Quoted, buffer := s), ['"'] + rest) == Loop(After(p, Str(s)), rest)
  {
    var q0 := p.(state := Quoted);
    assert Step(p, '"') == OnWaitValue(p, '"', Top(p.ctx)) == (q0, Next);
    LoopCons(p, '"', x, q0);
    var q1 := p.(state := Quoted, buffer := s);
    CloseQuote(q1);
    LoopCons(q1, '"', rest, After(q1, Str(s)));
    AfterFrame(p, Quoted, s, Str(s));
  }

  /** A string written by the writer reads back as the string, provided it holds no NUL
      (the writer stops at the first one). */
  lemma ReadString(p: Parser, s: string, rest: string)
    requires Fresh(p) && NoNul(s)
    ensures Loop(p, XdlWriter.Quote(s) + rest) == Loop(After(p, Str(s)), rest)
  {
    CTextWhole(s);
    var body := XdlWriter.EscapeText(s);
    QuotedText(p.(state := Quoted), s, ['"'] + rest);
    assert p.(state := Quoted).(buffer := p.buffer + s) == p.(state := Quoted, buffer := s);
    QuoteEnds(p, body + (['"'] + rest), s, rest);
    Concat5Quote(body, rest);
  }

  /** A text without NUL is its own C string. */
  lemma CTextWhole(s: string)
    requires NoNul(s)
    ensures XdlWriter.CText(s) == s
  {
    assert forall i | 0 <= i < |s| :: s[i] != '\0';
  }

  lemma Concat5Quote(body: string, rest: string)
    ensures "\"" + body + "\"" + rest == ['"'] + (body + (['"'] + rest))
  {
  }

  /** A raw text between quotes reads back as the string. */
  lemma ReadRawString(p: Parser, s: string, rest: string)
    requires Fresh(p) && RawText(s)
    ensures Loop(p, "\"" + s + "\"" + rest) == Loop(After(p, Str(s)), rest)
  {
    QuotedRaw(p.(state := Quoted), s, ['"'] + rest);
    assert p.(state := Quoted).(buffer := p.buffer + s) == p.(state := Quoted, buffer := s);
    QuoteEnds(p, s + (['"'] + rest), s, rest);
    Concat5Quote(s, rest);
  }

  // ---------------------------------------------------------------- numbers

  /** A fraction: '.' and at least one digit, or nothing. */
  predicate IsFraction(f: string) {
    f == "" || (|f| >= 2 && f[0] == '.' && AllDigits(f[1..]))
  }

  /** An exponent: 'e' or 'E', an optional sign and at least one digit, or nothing. */
  predicate IsExponent(x: string) {
    x == "" ||
    (|x| >= 2 && (x[0] == 'e' || x[0] == 'E') &&
     (AllDigits(x[1..]) || (|x| >= 3 && (x[1] == '+' || x[1] == '-') && AllDigits(x[2..]))))
  }

  /** The parts of a number literal the parser accepts as a double: an integer part, then a
      fraction and an exponent. The leading-zero test runs only where an integer ends, so it
      binds only a token with neither part, which must also be too long for an `int`;
      `01.5` and `00e1` are numbers. */
  predicate NumParts(m: string, f: string, x: string) {
    IsIntLiteral(m) && IsFraction(f) && IsExponent(x) &&
    (f != "" || x != "" || (|m| > 9 && !LeadingZero(m)))
  }

  ghost predicate NumToken(t: string) {
    exists m, f, x :: NumParts(m, f, x) && t == m + f + x
  }

  lemma NumDigitStep(q: Parser, c: char)
    requires (q.state == Number || q.state == NumberEV) && !q.inComment && IsDigit(c)
    ensures Feed(q, c) == (Append(q, c), false)
  {
    assert Step(q, c) == Machine(q, c, Top(q.ctx));
  }

  /** Digits of a fraction or an exponent are collected in NUMBER or NUMBER_EV. */
  lemma {:induction false} NumDigits(q: Parser, d: string, rest: string)
    requires (q.state == Number || q.state == NumberEV) && !q.inComment && AllDigits(d)
    ensures Loop(q, d + rest) == Loop(q.(buffer := q.buffer + d), rest)
    decreases |d|
  {
    if d == [] {
      assert d + rest == rest;
      assert q.buffer + d == q.buffer;
    } else {
      assert IsDigit(d[0]);
      NumDigitStep(q, d[0]);
      LoopHead(q, Append(q, d[0]), d, rest);
      NumDigits(Append(q, d[0]), d[1..], rest);
      AppendHead(q.buffer, d);
    }
  }

  /** In INT, '.' starts a fraction; in NUMBER_DOT a digit must follow. */
  lemma DotStep(q: Parser)
    requires q.state == Integer && !q.inComment
    ensures Feed(q, '.') == (Append(q, '.').(state := NumberDot), false)
  {
    assert Step(q, '.') == OnInteger(q, '.');
  }

  lemma DotDigit(q: Parser, c: char)
    requires q.state == NumberDot && !q.inComment && IsDigit(c)
    ensures Feed(q, c) == (Append(q, c).(state := Number), false)
  {
    assert Step(q, c) == OnNumberDot(q, c);
  }

  lemma HeadTail2(a: string, d: string)
    requires |d| >= 2
    ensures a + [d[0]] + [d[1]] + d[2..] == a + d
  {
    assert d == [d[0]] + [d[1]] + d[2..];
  }

  lemma HeadTail3(a: string, d: string)
    requires |d| >= 3
    ensures a + [d[0]] + [d[1]] + [d[2]] + d[3..] == a + d
  {
    assert d == [d[0]] + [d[1]] + [d[2]] + d[3..];
  }

  /** A fraction read in INT leaves NUMBER with the fraction added to the buffer. */
  lemma FractionRead(q: Parser, f: string, rest: string)
    requires q.state == Integer && !q.inComment && IsFraction(f) && f != ""
    ensures Loop(q, f + rest) == Loop(q.(state := Number, buffer := q.buffer + f), rest)
  {
    var q1 := Append(q, '.').(state := NumberDot);
    DotStep(q);
    LoopHead(q, q1, f, rest);
    assert f[1..][0] == f[1] && IsDigit(f[1]);
    var q2 := Append(q1, f[1]).(state := Number);
    DotDigit(q1, f[1]);
    LoopHead(q1, q2, f[1..], rest);
    assert f[1..][1..] == f[2..];
    assert AllDigits(f[2..]) by {
      assert forall i | 0 <= i < |f| - 2 :: f[2..][i] == f[1..][i + 1];
    }
    NumDigits(q2, f[2..], rest);
    HeadTail2(q.buffer, f);
  }

  /** In INT or NUMBER, 'e' or 'E' starts an exponent. */
  lemma ExpStep(q: Parser, c: char)
    requires (q.state == Integer || q.state == Number) && !q.inComment && (c == 'e' || c == 'E')
    ensures Feed(q, c) == (Append(q, c).(state := NumberE), false)
  {
    assert Step(q, c) == Machine(q, c, Top(q.ctx));
  }

  lemma ExpSign(q: Parser, c: char)
    requires q.state == NumberE && !q.inComment && (c == '+' || c == '-')
    ensures Feed(q, c) == (Append(q, c).(state := NumberES), false)
  {
    assert Step(q, c) == OnNumberE(q, c);
  }

  lemma ExpDigit(q: Parser, c: char)
    requires (q.state == NumberE || q.state == NumberES) && !q.inComment && IsDigit(c)
    ensures Feed(q, c) == (Append(q, c).(state := NumberEV), false)
  {
    assert Step(q, c) == Machine(q, c, Top(q.ctx));
  }

  /** An exponent read in INT or NUMBER leaves NUMBER_EV with the exponent added. */
  lemma ExponentRead(q: Parser, x: string, rest: string)
    requires (q.state == Integer || q.state == Number) && !q.inComment && IsExponent(x) && x != ""
    ensures Loop(q, x + rest) == Loop(q.(state := NumberEV, buffer := q.buffer + x), rest)
  {
    var q1 := Append(q, x[0]).(state := NumberE);
    ExpStep(q, x[0]);
    LoopHead(q, q1, x, rest);
    if x[1] == '+' || x[1] == '-' {
      SignedExponent(q, q1, x, rest);
    } else {
      assert IsDigit(x[1]) by { assert x[1..][0] == x[1]; }
      var q2 := Append(q1, x[1]).(state := NumberEV);
      ExpDigit(q1, x[1]);
      LoopHead(q1, q2, x[1..], rest);
      assert x[1..][1..] == x[2..];
      assert AllDigits(x[2..]) by {
        assert forall i | 0 <= i < |x| - 2 :: x[2..][i] == x[1..][i + 1];
      }
      NumDigits(q2, x[2..], rest);
      HeadTail2(q.buffer, x);
    }
  }

  /** The sign of an exponent and its first digit. */
  lemma ExponentSignDigit(q1: Parser, x: string, rest: string)
    requires |x| >= 3 && (x[1] == '+' || x[1] == '-') && IsDigit(x[2])
    requires q1.state == NumberE && !q1.inComment
    ensures Loop(q1, x[1..] + rest) ==
      Loop(Append(Append(q1, x[1]), x[2]).(state := NumberEV), x[3..] + rest)
  {
    var q2 := Append(q1, x[1]).(state := NumberES);
    ExpSign(q1, x[1]);
    LoopHead(q1, q2, x[1..], rest);
    assert x[1..][1..] == x[2..];
    var q3 := Append(q2, x[2]).(state := NumberEV);
    ExpDigit(q2, x[2]);
    LoopHead(q2, q3, x[2..], rest);
    assert x[2..][1..] == x[3..];
  }

  lemma SignedExponent(q: Parser, q1: Parser, x: string, rest: string)
    requires IsExponent(x) && x != "" && (x[1] == '+' || x[1] == '-')
    requires q1 == Append(q, x[0]).(state := NumberE) && !q.inComment
    ensures Loop(q1, x[1..] + rest) == Loop(q.(state := NumberEV, buffer := q.buffer + x), rest)
  {
    assert |x| >= 3 && AllDigits(x[2..]);
    assert IsDigit(x[2]) by { assert x[2..][0] == x[2]; }
    ExponentSignDigit(q1, x, rest);
    var q3 := Append(Append(q1, x[1]), x[2]).(state := NumberEV);
    assert AllDigits(x[3..]) by {
      assert forall i | 0 <= i < |x| - 3 :: x[3..][i] == x[2..][i + 1];
    }
    NumDigits(q3, x[3..], rest);
    HeadTail3(q.buffer, x);
  }

  /** A pending fraction or exponent number is put at the character that ends it. */
  lemma EndNumber(q: Parser, rest: string)
    requires (q.state == Number || q.state == NumberEV) && !q.inComment
    requires |rest| > 0 && IsNumberEnd(rest[0])
    ensures Loop(q, rest) == Loop(After(q, Num(q.buffer)), rest)
  {
    EnderIsNoWordChar(rest[0]);
    NumberEnd(q, rest[0]);
    Settle(q, q, Num(q.buffer), rest);
  }

  /** An integer too long for an `int` ends as a double. */
  lemma LongIntegerTail(q: Parser, rest: string)
    requires q.state == Integer && !q.inComment && IsIntLiteral(q.buffer)
    requires |q.buffer| > 9 && !LeadingZero(q.buffer)
    requires |rest| > 0 && IsNumberEnd(rest[0])
    ensures Loop(q, rest) == Loop(After(q, Num(q.buffer)), rest)
  {
    EnderIsNoWordChar(rest[0]);
    IntegerEnd(q, rest[0]);
    assert IntegerValue(q.buffer) == Num(q.buffer);
    Settle(q, q, Num(q.buffer), rest);
  }

  /** The rest of a number after its integer part. */
  lemma NumberTail(q: Parser, f: string, x: string, rest: string)
    requires q.state == Integer && !q.inComment && NumParts(q.buffer, f, x)
    requires |rest| > 0 && IsNumberEnd(rest[0])
    ensures Loop(q, f + (x + rest)) == Loop(After(q, Num(q.buffer + f + x)), rest)
  {
    var m := q.buffer;
    if f == "" && x == "" {
      assert f + (x + rest) == rest && m + f + x == m;
      LongIntegerTail(q, rest);
    } else if f == "" {
      assert f + (x + rest) == x + rest && m + f + x == m + x;
      ExponentRead(q, x, rest);
      var q2 := q.(state := NumberEV, buffer := m + x);
      EndNumber(q2, rest);
      AfterFrame(q, NumberEV, m + x, Num(m + x));
    } else {
      FractionRead(q, f, x + rest);
      var q1 := q.(state := Number, buffer := m + f);
      if x == "" {
        assert x + rest == rest && m + f + x == m + f;
        EndNumber(q1, rest);
        AfterFrame(q, Number, m + f, Num(m + f));
      } else {
        ExponentRead(q1, x, rest);
        var q2 := q.(state := NumberEV, buffer := m + f + x);
        EndNumber(q2, rest);
        AfterFrame(q, NumberEV, m + f + x, Num(m + f + x));
      }
    }
  }

  /** A number token of the accepted shape reads back as the same token. */
  lemma ReadNum(p: Parser, t: string, rest: string)
    requires Fresh(p) && NumToken(t)
    requires |rest| > 0 && IsNumberEnd(rest[0])
    ensures Loop(p, t + rest) == Loop(After(p, Num(t)), rest)
  {
    var m, f, x :| NumParts(m, f, x) && t == m + f + x;
    Concat4(m, f, x, rest);
    IntegerAt(p, m, f + (x + rest));
    var q := p.(state := Integer, buffer := m);
    NumberTail(q, f, x, rest);
    AfterFrame(p, Integer, m, Num(t));
  }

  /** A leading zero is refused only where a plain integer ends: `01.5` is read as a number. */
  lemma LeadingZeroFraction(p: Parser, rest: string)
    requires Fresh(p)
    requires |rest| > 0 && IsNumberEnd(rest[0])
    ensures Loop(p, "01.5" + rest) == Loop(After(p, Num("01.5")), rest)
  {
    assert AllDigits(".5"[1..]);
    assert NumParts("01", ".5", "") && "01.5" == "01" + ".5" + "";
    ReadNum(p, "01.5", rest);
  }
}

=== FILE: seqs.dfy ===
/** Small facts about sequences that the reading and encoding proofs use. */
module Seqs {
  /** A non-empty prefix split into its first element and the rest. */
  lemma SplitHead<T>(d: seq<T>, s: seq<T>)
    requires d != []
    ensures d + s == [d[0]] + (d[1..] + s)
  {
    assert d == [d[0]] + d[1..];
  }

  /** Appending the first element, then the rest, appends the whole. */
  lemma AppendHead<T>(a: seq<T>, d: seq<T>)
    requires d != []
    ensures a + [d[0]] + d[1..] == a + d
  {
    assert d == [d[0]] + d[1..];
  }

  /** Dropping the last element undoes appending it. */
  lemma DropLast<T>(a: seq<T>, x: T)
    ensures (a + [x])[..|a + [x]| - 1] == a
  {
  }

  /** Replacing the last element is dropping it and appending the new one. */
  lemma SetLast<T>(a: seq<T>, x: T)
    requires a != []
    ensures a[|a| - 1 := x] == a[..|a| - 1] + [x]
  {
  }

  /** Regrouping a concatenation of three sequences. */
  lemma Concat3<T>(a: seq<T>, b: seq<T>, c: seq<T>)
    ensures a + b + c == a + (b + c)
  {
  }

  /** Regrouping a concatenation of four sequences. */
  lemma Concat4<T>(a: seq<T>, b: seq<T>, c: seq<T>, d: seq<T>)
    ensures a + b + c + d == a + (b + (c + d))
    ensures a + b + c + d == a + (b + c + d)
  {
  }
}

=== FILE: tree_reading.dfy ===
/** Reading back whole trees: the compact text the encoder writes for a value, read by a
    parser waiting for a value, leaves the parser exactly as `put` of that value followed
    by `value_end`; arrays and objects are opened, filled and closed by the tree builder. */
module TreeReading {
  import opened Values
  import opened Seqs
  import opened Chars
  import opened XdlParser
  import opened ParserFacts
  import opened ScalarReading
  import W = XdlWriter
  import E = XdlEncoder
  import F = EncoderFacts

  // ---------------------------------------------------------------- what the text can carry

  /** A property name the parser reads back as written: natively an unquoted name that
      starts with a letter, digit, '_' or '$' and holds no '=', white space, '/' or NUL;
      in JSON a quoted name without '"', '/' or NUL (the writer does not escape names). */
  predicate NameOk(n: string, json: bool) {
    if json then forall i | 0 <= i < |n| :: n[i] != '"' && n[i] != '/' && n[i] != '\0'
    else
      |n| > 0 && (IsAlnum(n[0]) || n[0] == '_' || n[0] == '$') &&
      forall i | 0 <= i < |n| :: n[i] != '=' && !IsSpace(n[i]) && n[i] != '/' && n[i] != '\0'
  }

  /** A class tag the parser reads back: natively a bare word that is not a keyword, in
      JSON a non-empty text that needs no escape. */
  predicate ClassNameOk(cls: string, json: bool) {
    if json then cls != "" && RawText(cls) else IsWord(cls) && KeywordValue(cls) == None
  }

  /** The class entry, if any, is the first entry and holds a string tag. */
  predicate ClassOk(fields: seq<Field>, json: bool) {
    if fields != [] && fields[0].name == ClassKey then
      fields[0].val.Str? && ClassNameOk(fields[0].val.s, json)
    else !HasKey(fields, ClassKey)
  }

  /** The entries of a dictionary after its class entry. */
  function Members(fields: seq<Field>): (r: seq<Field>)
    ensures FieldsSize(r) <= FieldsSize(fields)
  {
    if fields != [] && fields[0].name == ClassKey then fields[1..] else fields
  }

  /** Values whose compact text reads back as themselves: integers of at most nine
      characters (longer ones read back as doubles), number tokens of the parser's number
      grammar, NUL-free strings, no NONE anywhere (the encoder writes it as `null`), and
      dictionaries with distinct, readable names and a readable class. */
  ghost predicate Encodable(v: Value, json: bool)
    decreases Size(v), 1
  {
    match v
    case Int(i) => |DecimalText(i)| <= 9
    case Num(t) => NumToken(t)
    case Str(s) => NoNul(s)
    case Bool(_) => true
    case Null => true
    case None => false
    case Arr(items) => ItemsEncodable(items, json)
    case Dic(fields) => UniqueNames(fields) && ClassOk(fields, json) && MembersOk(Members(fields), json)
  }

  ghost predicate ItemsEncodable(items: seq<Value>, json: bool)
    decreases ItemsSize(items), 2
  {
    items == [] || (Encodable(items[0], json) && ItemsEncodable(items[1..], json))
  }

  ghost predicate MembersOk(ms: seq<Field>, json: bool)
    decreases FieldsSize(ms), 2
  {
    ms == [] ||
    (ms[0].name != ClassKey && NameOk(ms[0].name, json) && Encodable(ms[0].val, json) &&
     MembersOk(ms[1..], json))
  }

  // ---------------------------------------------------------------- inside a container

  /** Inside an array opened on `base`, holding the items `done` read so far. */
  function InArr(base: Parser, done: seq<Value>, st: State): Parser {
    base.(state := st, ctx := base.ctx + [InArray], lists := base.lists + [ArrC(done)], buffer := "")
  }

  /** Inside an object opened on `base`, holding the entries `done` read so far, with the
      names `pending` not yet given a value. */
  function InObj(base: Parser, done: seq<Field>, st: State, pending: seq<string>): Parser {
    base.(state := st, ctx := base.ctx + [InObject], lists := base.lists + [DicC(done)],
          props := base.props + pending, buffer := "")
  }

  /** '[' opens an empty array and waits for its first item. */
  lemma ArrayOpen(p: Parser)
    requires Fresh(p)
    ensures Feed(p, '[') == (InArr(p, [], WaitValue), false)
  {
    assert Step(p, '[') == OnWaitValue(p, '[', Top(p.ctx));
  }

  /** Closing a container puts it, as a value, into the container it was opened in. */
  lemma CloseInto(base: Parser, q: Parser, c: Container)
    requires |q.ctx| > 0 && q.ctx[..|q.ctx| - 1] == base.ctx
    requires q.lists == base.lists + [c] && q.props == base.props
    requires q.inComment == base.inComment && q.unicode == base.unicode
    ensures CloseContainer(q) == After(base, ContainerValue(c))
  {
    var st := if Top(base.ctx) == Root then WaitValue else WaitSep;
    assert Pop(q.ctx) == base.ctx;
    assert ValueEnd(q.(ctx := Pop(q.ctx))).(lists := base.lists) == base.(state := st, buffer := "");
    assert Pop(q.lists) == base.lists && q.lists[|q.lists| - 1] == c;
    PutFrame(base, st, "", ContainerValue(c));
  }

  /** In an array, ']' closes it when an item or a separator is awaited. */
  lemma CloseBracket(q: Parser)
    requires !q.inComment && Top(q.ctx) == InArray && (q.state == WaitValue || q.state == WaitSep)
    ensures Feed(q, ']') == (CloseContainer(q), false)
  {
    assert Step(q, ']') == Machine(q, ']', InArray);
    if q.state == WaitValue {
      assert Machine(q, ']', InArray) == OnWaitValue(q, ']', InArray) == (CloseContainer(q), Next);
    } else {
      assert Machine(q, ']', InArray) == OnWaitSep(q, ']', InArray) == (CloseContainer(q), Next);
    }
  }

  /** ']' ends the array, whether it waits for an item (an empty array or a trailing
      comma) or for a separator. */
  lemma ArrayClose(base: Parser, done: seq<Value>, st: State)
    requires !base.inComment && (st == WaitValue || st == WaitSep)
    ensures Feed(InArr(base, done, st), ']') == (After(base, Arr(done)), false)
  {
    var q := InArr(base, done, st);
    assert Top(q.ctx) == InArray;
    CloseBracket(q);
    DropLast(base.ctx, InArray);
    CloseInto(base, q, ArrC(done));
  }

  lemma ArraySep(base: Parser, done: seq<Value>)
    requires !base.inComment
    ensures Feed(InArr(base, done, WaitSep), ',') == (InArr(base, done, WaitValue), false)
  {
    var q := InArr(base, done, WaitSep);
    assert Top(q.ctx) == InArray;
    assert Step(q, ',') == OnWaitSep(q, ',', InArray);
  }

  /** A value read inside an array is appended to it. */
  lemma ArrayPut(base: Parser, done: seq<Value>, x: Value)
    ensures After(InArr(base, done, WaitValue), x) == InArr(base, done + [x], WaitSep)
  {
    var q := InArr(base, done, WaitValue);
    assert q.lists[|q.lists| - 1] == ArrC(done);
    assert q.lists[|q.lists| - 1 := ArrC(done + [x])] == base.lists + [ArrC(done + [x])];
    assert Top(q.ctx) == InArray;
  }

  /** '{' opens an empty object and waits for its first property. */
  lemma ObjectOpen(p: Parser)
    requires Fresh(p)
    ensures Feed(p, '{') == (InObj(p, [], WaitProperty, []), false)
  {
    assert Step(p, '{') == OnWaitValue(p, '{', Top(p.ctx));
    assert p.props + [] == p.props;
  }

  /** A class word before '{' opens an object whose first entry is the class. */
  lemma ClassOpen(p: Parser, cls: string)
    requires Fresh(p) && cls != ""
    ensures OpenObject(p.(buffer := cls)) == InObj(p, [Field(ClassKey, Str(cls))], WaitProperty, [])
  {
    assert p.props + [] == p.props;
  }

  /** In an object, '}' closes it when a property or a separator is awaited. */
  lemma CloseBrace(q: Parser)
    requires !q.inComment && Top(q.ctx) == InObject && (q.state == WaitProperty || q.state == WaitSep)
    ensures Feed(q, '}') == (CloseContainer(q), false)
  {
    if q.state == WaitProperty {
      assert Step(q, '}') == Machine(q, '}', InObject) == OnWaitProperty(q, '}') == (CloseContainer(q), Next);
    } else {
      assert Step(q, '}') == Machine(q, '}', InObject) == OnWaitSep(q, '}', InObject) == (CloseContainer(q), Next);
    }
  }

  /** '}' ends the object, whether it waits for a property (an empty object or a trailing
      comma) or for a separator. */
  lemma ObjectClose(base: Parser, done: seq<Field>, st: State)
    requires !base.inComment && (st == WaitProperty || st == WaitSep)
    ensures Feed(InObj(base, done, st, []), '}') == (After(base, Dic(done)), false)
  {
    var q := InObj(base, done, st, []);
    assert Top(q.ctx) == InObject;
    CloseBrace(q);
    DropLast(base.ctx, InObject);
    assert q.props == base.props;
    CloseInto(base, q, DicC(done));
  }

  lemma ObjectSep(base: Parser, done: seq<Field>)
    requires !base.inComment
    ensures Feed(InObj(base, done, WaitSep, []), ',') == (InObj(base, done, WaitProperty, []), false)
  {
    var q := InObj(base, done, WaitSep, []);
    assert Top(q.ctx) == InObject;
    assert Step(q, ',') == OnWaitSep(q, ',', InObject);
  }

  /** A value read after a fresh name is set under that name, which is popped. */
  lemma MemberPut(base: Parser, done: seq<Field>, name: string, x: Value)
    requires !HasKey(done, name)
    ensures After(InObj(base, done, WaitValue, [name]), x) == InObj(base, done + [Field(name, x)], WaitSep, [])
  {
    var q := InObj(base, done, WaitValue, [name]);
    assert q.lists[|q.lists| - 1] == DicC(done);
    assert q.props[|q.props| - 1] == name && Pop(q.props) == base.props + [];
    assert q.lists[|q.lists| - 1 := DicC(done + [Field(name, x)])] == base.lists + [DicC(done + [Field(name, x)])];
    assert Top(q.ctx) == InObject;
  }

  // ---------------------------------------------------------------- property names

  /** The characters a name may hold in PROPERTY (unquoted) or QPROPERTY (quoted). */
  predicate NameChars(d: string, quoted: bool) {
    forall i | 0 <= i < |d| ::
      d[i] != '/' && d[i] != '\0' && (if quoted then d[i] != '"' else d[i] != '=' && !IsSpace(d[i]))
  }

  lemma NameCharStep(q: Parser, c: char)
    requires (q.state == Property || q.state == QProperty) && !q.inComment
    requires NameChars([c], q.state == QProperty)
    ensures Feed(q, c) == (Append(q, c), false)
  {
    assert c == [c][0];
    assert Step(q, c) == Machine(q, c, Top(q.ctx));
  }

  lemma {:induction false} NameBody(q: Parser, d: string, rest: string)
    requires (q.state == Property || q.state == QProperty) && !q.inComment
    requires NameChars(d, q.state == QProperty)
    ensures Loop(q, d + rest) == Loop(q.(buffer := q.buffer + d), rest)
    decreases |d|
  {
    if d == [] {
      assert d + rest == rest;
      assert q.buffer + d == q.buffer;
    } else {
      assert NameChars([d[0]], q.state == QProperty) by { assert [d[0]][0] == d[0]; }
      NameCharStep(q, d[0]);
      LoopHead(q, Append(q, d[0]), d, rest);
      assert NameChars(d[1..], q.state == QProperty) by {
        assert forall i | 0 <= i < |d| - 1 :: d[1..][i] == d[i + 1];
      }
      NameBody(Append(q, d[0]), d[1..], rest);
      AppendHead(q.buffer, d);
    }
  }

  /** The parser once a name has been read: waiting for its value, the name pending. */
  function Named(q: Parser, name: string): Parser {
    q.(state := WaitValue, props := q.props + [name])
  }

  /** An unquoted name ends at '=', which is read again in WAIT_EQUAL. */
  lemma PlainNameEnd(q: Parser)
    requires q.state == Property && !q.inComment
    ensures Feed(q, '=') == (q.(state := WaitValue, props := q.props + [q.buffer], buffer := ""), false)
  {
    var q1 := NewProperty(q, q.buffer).(state := WaitEqual, buffer := "");
    assert Step(q, '=') == OnProperty(q, '=') == (q1, Again);
    assert Step(q1, '=') == OnWaitEqual(q1, '=');
  }

  lemma QuotedNameEnd(q: Parser)
    requires q.state == QProperty && !q.inComment
    ensures Feed(q, '"') == (q.(state := WaitEqual, props := q.props + [q.buffer], buffer := ""), false)
  {
    assert Step(q, '"') == OnQProperty(q, '"');
  }

  lemma ColonStep(q: Parser)
    requires q.state == WaitEqual && !q.inComment
    ensures Feed(q, ':') == (q.(state := WaitValue), false)
  {
    assert Step(q, ':') == OnWaitEqual(q, ':');
  }

  /** `name=` natively. */
  lemma PlainName(q: Parser, name: string, rest: string)
    requires q.state == WaitProperty && !q.inComment && q.buffer == "" && NameOk(name, false)
    ensures Loop(q, name + "=" + rest) == Loop(Named(q, name), rest)
  {
    var c := name[0];
    var q1 := Append(q, c).(state := Property);
    assert Step(q, c) == OnWaitProperty(q, c) == (q1, Next);
    assert name + "=" + rest == name + (['='] + rest);
    LoopHead(q, q1, name, ['='] + rest);
    assert NameChars(name[1..], false) by {
      assert forall i | 0 <= i < |name| - 1 :: name[1..][i] == name[i + 1];
    }
    NameBody(q1, name[1..], ['='] + rest);
    var q2 := q1.(buffer := q1.buffer + name[1..]);
    AppendHead(q.buffer, name);
    assert q2.buffer == name by { assert q.buffer + name == name; }
    PlainNameEnd(q2);
    assert q2.(state := WaitValue, props := q2.props + [q2.buffer], buffer := "") == Named(q, name);
    LoopCons(q2, '=', rest, Named(q, name));
  }

  /** `"name":` in JSON. */
  lemma QuotedName(q: Parser, name: string, rest: string)
    requires q.state == WaitProperty && !q.inComment && q.buffer == "" && NameOk(name, true)
    ensures Loop(q, "\"" + name + "\":" + rest) == Loop(Named(q, name), rest)
  {
    var q1 := q.(state := QProperty);
    assert Step(q, '"') == OnWaitProperty(q, '"') == (q1, Next);
    assert "\"" + name + "\":" + rest == ['"'] + (name + (['"'] + ([':'] + rest)));
    LoopCons(q, '"', name + (['"'] + ([':'] + rest)), q1);
    NameBody(q1, name, ['"'] + ([':'] + rest));
    var q2 := q1.(buffer := name);
    assert q1.buffer + name == name;
    QuotedNameEnd(q2);
    var q3 := q2.(state := WaitEqual, props := q2.props + [name], buffer := "");
    LoopCons(q2, '"', [':'] + rest, q3);
    ColonStep(q3);
    assert q3.(state := WaitValue) == Named(q, name);
    LoopCons(q3, ':', rest, Named(q, name));
  }

  /** The writer's text of a property name reads back as that name, pending. */
  lemma NameRead(q: Parser, name: string, json: bool, rest: string)
    requires q.state == WaitProperty && !q.inComment && q.buffer == "" && NameOk(name, json)
    ensures Loop(q, W.PropertyText(name, json) + rest) == Loop(Named(q, name), rest)
  {
    if json {
      QuotedName(q, name, rest);
    } else {
      PlainName(q, name, rest);
    }
  }

  // ---------------------------------------------------------------- texts

  /** A text that is a list of parts each preceded by a comma, followed by a closing
      bracket, starts with a comma or with the bracket. */
  lemma SepFirst(parts: seq<string>, c: char, rest: string)
    ensures var t := F.Prefixed(parts) + ([c] + rest); |t| > 0 && (t[0] == ',' || t[0] == c)
  {
    if parts != [] {
      assert F.Prefixed(parts) == "," + parts[0] + F.Prefixed(parts[1..]);
    }
  }

  lemma PrefixedJoin(parts: seq<string>)
    requires parts != []
    ensures F.Prefixed(parts) == "," + F.Join(parts)
  {
  }

  lemma CommaHead(j: string, r: string)
    ensures "," + j + r == [','] + (j + r)
  {
  }

  // ---------------------------------------------------------------- closing and texts

  lemma ArrayCloseText(base: Parser, done: seq<Value>, st: State, rest: string)
    requires !base.inComment && (st == WaitValue || st == WaitSep)
    ensures Loop(InArr(base, done, st), "]" + rest) == Loop(After(base, Arr(done)), rest)
  {
    ArrayClose(base, done, st);
    LoopCons(InArr(base, done, st), ']', rest, After(base, Arr(done)));
  }

  lemma ObjectCloseText(base: Parser, done: seq<Field>, st: State, rest: string)
    requires !base.inComment && (st == WaitProperty || st == WaitSep)
    ensures Loop(InObj(base, done, st, []), "}" + rest) == Loop(After(base, Dic(done)), rest)
  {
    ObjectClose(base, done, st);
    LoopCons(InObj(base, done, st, []), '}', rest, After(base, Dic(done)));
  }

  /** The first of several parts, the others each after a comma, then a closing bracket
      `c`: the text after the first part starts with a comma or with `c`. */
  lemma FirstPart(parts: seq<string>, c: char, rest: string)
    requires parts != []
    ensures F.Join(parts) + ([c] + rest) == parts[0] + (F.Prefixed(parts[1..]) + ([c] + rest))
    ensures var t := F.Prefixed(parts[1..]) + ([c] + rest); |t| > 0 && (t[0] == ',' || t[0] == c)
  {
    var tail := parts[1..];
    if tail != [] {
      assert F.Prefixed(tail) == "," + tail[0] + F.Prefixed(tail[1..]);
    }
  }

  /** Parts each after a comma are a comma and then the parts joined by commas. */
  lemma CommaFirst(parts: seq<string>, rest: string)
    requires parts != []
    ensures F.Prefixed(parts) + rest == [','] + (F.Join(parts) + rest)
  {
  }

  lemma EmptyParts(parts: seq<string>, rest: string)
    requires parts == []
    ensures F.Join(parts) + rest == rest && F.Prefixed(parts) + rest == rest
  {
  }

  // ---------------------------------------------------------------- reading values back

  /** The compact text of a value the format can carry, read by a parser waiting for a
      value and followed by a character that ends a value, puts exactly that value. */
  lemma ReadValue(p: Parser, v: Value, json: bool, rest: string)
    requires Fresh(p) && Encodable(v, json)
    requires |rest| > 0 && IsNumberEnd(rest[0])
    ensures Loop(p, F.Compact(v, json) + rest) == Loop(After(p, v), rest)
    decreases Size(v), 0
  {
    match v
    case Int(i) => ReadInt(p, i, rest);
    case Num(t) => ReadNum(p, t, rest);
    case Str(s) => ReadString(p, s, rest);
    case Bool(b) => ReadBool(p, b, json, rest);
    case Null => ReadNull(p, rest);
    case None => assert false;
    case Arr(items) => ReadArray(p, items, json, rest);
    case Dic(fields) => ReadDic(p, fields, json, rest);
  }

  lemma ReadArray(p: Parser, items: seq<Value>, json: bool, rest: string)
    requires Fresh(p) && ItemsEncodable(items, json)
    ensures Loop(p, F.Compact(Arr(items), json) + rest) == Loop(After(p, Arr(items)), rest)
    decreases ItemsSize(items), 4
  {
    var j := F.Join(F.ItemTexts(items, json));
    assert F.Compact(Arr(items), json) == "[" + j + "]";
    Concat4("[", j, "]", rest);
    Concat3(j, "]", rest);
    ArrayOpen(p);
    LoopCons(p, '[', j + ("]" + rest), InArr(p, [], WaitValue));
    ReadItems(p, [], items, json, rest);
    assert [] + items == items;
  }

  /** The items of an array from a parser waiting for the first one (or for the one after
      a comma), then ']'. */
  lemma ReadItems(base: Parser, done: seq<Value>, items: seq<Value>, json: bool, rest: string)
    requires Fresh(base) && ItemsEncodable(items, json)
    ensures Loop(InArr(base, done, WaitValue), F.Join(F.ItemTexts(items, json)) + ("]" + rest)) ==
            Loop(After(base, Arr(done + items)), rest)
    decreases ItemsSize(items), 2
  {
    if items == [] {
      EmptyParts(F.ItemTexts(items, json), "]" + rest);
      ArrayCloseText(base, done, WaitValue, rest);
      assert done + items == done;
    } else {
      ReadItemsCons(base, done, items, json, rest);
    }
  }

  /** The first item, then the others each after a comma, then ']'. */
  lemma ReadItemsCons(base: Parser, done: seq<Value>, items: seq<Value>, json: bool, rest: string)
    requires Fresh(base) && ItemsEncodable(items, json) && items != []
    ensures Loop(InArr(base, done, WaitValue), F.Join(F.ItemTexts(items, json)) + ("]" + rest)) ==
            Loop(After(base, Arr(done + items)), rest)
    decreases ItemsSize(items), 1
  {
    var t := F.ItemTexts(items, json);
    var tail := F.Prefixed(t[1..]) + ("]" + rest);
    FirstPart(t, ']', rest);
    F.ItemTextsCons(items, json);
    assert t[0] == F.Compact(items[0], json) && t[1..] == F.ItemTexts(items[1..], json);
    ReadValue(InArr(base, done, WaitValue), items[0], json, tail);
    ArrayPut(base, done, items[0]);
    ReadItemsTail(base, done + [items[0]], items[1..], json, rest);
    Shift(done, items);
  }

  /** Moving the first of the remaining elements to those already read. */
  lemma Shift<T>(done: seq<T>, todo: seq<T>)
    requires todo != []
    ensures done + [todo[0]] + todo[1..] == done + todo
  {
    assert todo == [todo[0]] + todo[1..];
  }

  /** The items after the first, each preceded by a comma, then ']'. */
  lemma ReadItemsTail(base: Parser, done: seq<Value>, items: seq<Value>, json: bool, rest: string)
    requires Fresh(base) && ItemsEncodable(items, json)
    ensures Loop(InArr(base, done, WaitSep), F.Prefixed(F.ItemTexts(items, json)) + ("]" + rest)) ==
            Loop(After(base, Arr(done + items)), rest)
    decreases ItemsSize(items), 3
  {
    var t := F.ItemTexts(items, json);
    if items == [] {
      EmptyParts(t, "]" + rest);
      ArrayCloseText(base, done, WaitSep, rest);
      assert done + items == done;
    } else {
      CommaFirst(t, "]" + rest);
      ArraySep(base, done);
      LoopCons(InArr(base, done, WaitSep), ',', F.Join(t) + ("]" + rest), InArr(base, done, WaitValue));
      ReadItemsCons(base, done, items, json, rest);
    }
  }

  /** Reading a name adds nothing to the entries read so far: the name is still free. */
  lemma FreshName(done: seq<Field>, ms: seq<Field>)
    requires UniqueNames(done + ms) && ms != []
    ensures !HasKey(done, ms[0].name)
    ensures UniqueNames(done + [ms[0]] + ms[1..])
  {
    Shift(done, ms);
    forall i | 0 <= i < |done|
      ensures Names(done)[i] != ms[0].name
    {
      assert (done + ms)[i] == done[i] && (done + ms)[|done|] == ms[0];
    }
  }

  /** One member: its name, then its value, which is set under the name. */
  lemma ReadMember(base: Parser, done: seq<Field>, f: Field, json: bool, rest: string)
    requires Fresh(base) && NameOk(f.name, json) && Encodable(f.val, json) && !HasKey(done, f.name)
    requires |rest| > 0 && IsNumberEnd(rest[0])
    ensures Loop(InObj(base, done, WaitProperty, []), W.PropertyText(f.name, json) + (F.Compact(f.val, json) + rest)) ==
            Loop(InObj(base, done + [f], WaitSep, []), rest)
    decreases Size(f.val), 1
  {
    var q := InObj(base, done, WaitProperty, []);
    NameRead(q, f.name, json, F.Compact(f.val, json) + rest);
    var q1 := InObj(base, done, WaitValue, [f.name]);
    assert Named(q, f.name) == q1;
    ReadValue(q1, f.val, json, rest);
    MemberPut(base, done, f.name, f.val);
    assert Field(f.name, f.val) == f;
  }

  /** The members of an object from a parser waiting for the first one (or for the one
      after a comma), then '}'. */
  lemma ReadFields(base: Parser, done: seq<Field>, ms: seq<Field>, json: bool, rest: string)
    requires Fresh(base) && MembersOk(ms, json) && UniqueNames(done + ms)
    ensures Loop(InObj(base, done, WaitProperty, []), F.Join(F.MemberTexts(ms, json)) + ("}" + rest)) ==
            Loop(After(base, Dic(done + ms)), rest)
    decreases FieldsSize(ms), 3
  {
    if ms == [] {
      EmptyParts(F.MemberTexts(ms, json), "}" + rest);
      ObjectCloseText(base, done, WaitProperty, rest);
      assert done + ms == done;
    } else {
      ReadFieldsCons(base, done, ms, json, rest);
    }
  }

  /** The texts of members that are all shown: one per member, in order. */
  lemma ShownTexts(ms: seq<Field>, json: bool)
    requires MembersOk(ms, json) && ms != []
    ensures var t := F.MemberTexts(ms, json);
      t != [] && t[0] == W.PropertyText(ms[0].name, json) + F.Compact(ms[0].val, json) &&
      t[1..] == F.MemberTexts(ms[1..], json)
  {
    F.MemberTextsCons(ms, json);
  }

  lemma MemberText(name: string, val: string, tail: string)
    ensures name + val + tail == name + (val + tail)
  {
  }

  /** The first member, then the others each after a comma, then '}'. */
  lemma ReadFieldsCons(base: Parser, done: seq<Field>, ms: seq<Field>, json: bool, rest: string)
    requires Fresh(base) && MembersOk(ms, json) && UniqueNames(done + ms) && ms != []
    ensures Loop(InObj(base, done, WaitProperty, []), F.Join(F.MemberTexts(ms, json)) + ("}" + rest)) ==
            Loop(After(base, Dic(done + ms)), rest)
    decreases FieldsSize(ms), 2
  {
    var f := ms[0];
    var t := F.MemberTexts(ms, json);
    ShownTexts(ms, json);
    var tail := F.Prefixed(t[1..]) + ("}" + rest);
    FirstPart(t, '}', rest);
    MemberText(W.PropertyText(f.name, json), F.Compact(f.val, json), tail);
    FreshName(done, ms);
    ReadMember(base, done, f, json, tail);
    ReadFieldsTail(base, done + [f], ms[1..], json, rest);
    Shift(done, ms);
  }

  /** The members after the first, each preceded by a comma, then '}'. */
  lemma ReadFieldsTail(base: Parser, done: seq<Field>, ms: seq<Field>, json: bool, rest: string)
    requires Fresh(base) && MembersOk(ms, json) && UniqueNames(done + ms)
    ensures Loop(InObj(base, done, WaitSep, []), F.Prefixed(F.MemberTexts(ms, json)) + ("}" + rest)) ==
            Loop(After(base, Dic(done + ms)), rest)
    decreases FieldsSize(ms), 4
  {
    var t := F.MemberTexts(ms, json);
    if ms == [] {
      EmptyParts(t, "}" + rest);
      ObjectCloseText(base, done, WaitSep, rest);
      assert done + ms == done;
    } else {
      ShownTexts(ms, json);
      CommaFirst(t, "}" + rest);
      ObjectSep(base, done);
      LoopCons(InObj(base, done, WaitSep, []), ',', F.Join(t) + ("}" + rest), InObj(base, done, WaitProperty, []));
      ReadFieldsCons(base, done, ms, json, rest);
    }
  }

  /** A dictionary: without a class, with a class word natively, or with the class as
      its first JSON member. */
  lemma ReadDic(p: Parser, fields: seq<Field>, json: bool, rest: string)
    requires Fresh(p) && Encodable(Dic(fields), json)
    ensures Loop(p, F.Compact(Dic(fields), json) + rest) == Loop(After(p, Dic(fields)), rest)
    decreases FieldsSize(fields), 6
  {
    if fields != [] && fields[0].name == ClassKey {
      if json {
        JsonClassDic(p, fields, rest);
      } else {
        NativeClassDic(p, fields, rest);
      }
    } else {
      PlainDic(p, fields, json, rest);
    }
  }

  /** Without a class entry the class is empty and the text is '{', the members, '}'. */
  lemma PlainText(fields: seq<Field>, json: bool)
    requires !(fields != [] && fields[0].name == ClassKey) && !HasKey(fields, ClassKey)
    ensures F.Compact(Dic(fields), json) == "{" + F.Join(F.MemberTexts(fields, json)) + "}"
  {
    assert E.ClassOf(fields) == "";
    assert W.CText("") == "";
    if json {
      assert ([] + F.MemberTexts(fields, json)) == F.MemberTexts(fields, json);
    } else {
      assert "" + "{" == "{";
    }
  }

  lemma BraceText(j: string, rest: string)
    ensures "{" + j + "}" + rest == ['{'] + (j + ("}" + rest))
  {
  }

  lemma PlainDic(p: Parser, fields: seq<Field>, json: bool, rest: string)
    requires Fresh(p) && Encodable(Dic(fields), json)
    requires !(fields != [] && fields[0].name == ClassKey)
    ensures Loop(p, F.Compact(Dic(fields), json) + rest) == Loop(After(p, Dic(fields)), rest)
    decreases FieldsSize(fields), 5
  {
    var j := F.Join(F.MemberTexts(fields, json));
    PlainText(fields, json);
    BraceText(j, rest);
    ObjectOpen(p);
    LoopCons(p, '{', j + ("}" + rest), InObj(p, [], WaitProperty, []));
    assert [] + fields == fields;
    ReadFields(p, [], fields, json, rest);
  }

  /** The class entry gives the class the encoder writes, unchanged by the C string view. */
  lemma ClassTextOf(fields: seq<Field>, json: bool)
    requires fields != [] && fields[0].name == ClassKey && fields[0].val.Str?
    requires ClassNameOk(fields[0].val.s, json)
    ensures E.ClassOf(fields) == fields[0].val.s && W.CText(fields[0].val.s) == fields[0].val.s
  {
    var cls := fields[0].val.s;
    assert Names(fields)[0] == ClassKey;
    assert NoNul(cls) by {
      if !json {
        assert forall i | 0 < i < |cls| :: cls[i] == cls[1..][i - 1];
      }
    }
    CTextWhole(cls);
  }

  /** After the class entry, the members of a dictionary with a class are its other
      entries, and they write the same texts. */
  lemma ClassRest(fields: seq<Field>, json: bool)
    requires fields != [] && fields[0].name == ClassKey
    ensures Members(fields) == fields[1..]
    ensures F.MemberTexts(fields, json) == F.MemberTexts(fields[1..], json)
    ensures [fields[0]] + fields[1..] == fields
  {
    F.MemberTextsCons(fields, json);
  }

  lemma NativeClassText(cls: string, j: string, rest: string)
    ensures cls + "{" + j + "}" + rest == cls + "" + "{" + (j + ("}" + rest))
  {
  }

  lemma NativeClassDic(p: Parser, fields: seq<Field>, rest: string)
    requires Fresh(p) && Encodable(Dic(fields), false)
    requires fields != [] && fields[0].name == ClassKey
    ensures Loop(p, F.Compact(Dic(fields), false) + rest) == Loop(After(p, Dic(fields)), rest)
    decreases FieldsSize(fields), 5
  {
    var cls := fields[0].val.s;
    ClassTextOf(fields, false);
    ClassRest(fields, false);
    var ms := fields[1..];
    var j := F.Join(F.MemberTexts(ms, false));
    assert F.Compact(Dic(fields), false) == cls + "{" + j + "}";
    NativeClassText(cls, j, rest);
    ClassTag(p, cls, "", j + ("}" + rest));
    ClassOpen(p, cls);
    assert Field(ClassKey, Str(cls)) == fields[0];
    ReadFields(p, [fields[0]], ms, false, rest);
  }

  /** The JSON class member is the class key as a property name, then the class quoted. */
  lemma ClassMemberText(cls: string)
    ensures W.ClassMember(cls) == W.PropertyText(ClassKey, true) + ("\"" + cls + "\"")
  {
    var k := ClassKey;
    assert W.ClassMember(cls) == "\"" + k + "\":\"" + cls + "\"";
    assert W.PropertyText(k, true) == "\"" + k + "\":";
    assert "\":\"" == "\":" + "\"";
  }

  lemma JsonClassText(cm: string, pt: string, quoted: string, m: seq<string>, rest: string)
    requires cm == pt + quoted
    ensures "{" + F.Join([cm] + m) + "}" + rest == ['{'] + (pt + (quoted + (F.Prefixed(m) + ("}" + rest))))
  {
    F.JoinCons(cm, m);
  }

  lemma JsonClassDic(p: Parser, fields: seq<Field>, rest: string)
    requires Fresh(p) && Encodable(Dic(fields), true)
    requires fields != [] && fields[0].name == ClassKey
    ensures Loop(p, F.Compact(Dic(fields), true) + rest) == Loop(After(p, Dic(fields)), rest)
    decreases FieldsSize(fields), 5
  {
    var cls := fields[0].val.s;
    ClassTextOf(fields, true);
    ClassRest(fields, true);
    var m := F.MemberTexts(fields[1..], true);
    var tail := F.Prefixed(m) + ("}" + rest);
    assert F.Compact(Dic(fields), true) == "{" + F.Join([W.ClassMember(cls)] + m) + "}";
    ClassMemberText(cls);
    JsonClassText(W.ClassMember(cls), W.PropertyText(ClassKey, true), "\"" + cls + "\"", m, rest);
    JsonClassBody(p, fields, tail);
    ReadFieldsTail(p, [fields[0]], fields[1..], true, rest);
  }

  /** '{' and the class key as a JSON name: the object waits for the class value. */
  lemma JsonClassKey(p: Parser, quoted: string)
    requires Fresh(p) && |quoted| > 0 && quoted[0] == '"'
    ensures Loop(p, ['{'] + (W.PropertyText(ClassKey, true) + quoted)) ==
      Loop(InObj(p, [], WaitValue, [ClassKey]), quoted)
  {
    var q := InObj(p, [], WaitProperty, []);
    ObjectOpen(p);
    LoopCons(p, '{', W.PropertyText(ClassKey, true) + quoted, q);
    assert NameOk(ClassKey, true);
    NameRead(q, ClassKey, true, quoted);
    assert Named(q, ClassKey) == InObj(p, [], WaitValue, [ClassKey]);
  }

  lemma JsonClassBody(p: Parser, fields: seq<Field>, tail: string)
    requires Fresh(p) && fields != [] && fields[0].name == ClassKey && fields[0].val.Str?
    requires RawText(fields[0].val.s)
    ensures var cls := fields[0].val.s;
      Loop(p, ['{'] + (W.PropertyText(ClassKey, true) + ("\"" + cls + "\"" + tail))) ==
      Loop(InObj(p, [fields[0]], WaitSep, []), tail)
  {
    var cls := fields[0].val.s;
    var quoted := "\"" + cls + "\"" + tail;
    JsonClassKey(p, quoted);
    var q1 := InObj(p, [], WaitValue, [ClassKey]);
    ReadRawString(q1, cls, tail);
    MemberPut(p, [], ClassKey, Str(cls));
    assert [] + [Field(ClassKey, Str(cls))] == [fields[0]];
  }
}

=== FILE: values.dfy ===
/** The generic value (`Var`) that the tree builder produces and the encoder walks.
    The storage variants of the source (FLOAT/NUMBER, STRING/SSTRING) are collapsed:
    a floating-point number is kept as the text of its literal, an opaque token. */
module Values {

  /** Reserved dictionary key that carries the class tag of `ClassName{...}`. */
  const ClassKey: string := "$type"

  /** The source's `int` is 32 bits wide. */
  type int32 = x: int | -0x8000_0000 <= x < 0x8000_0000

  datatype Value =
    | Int(i: int32)
    | Num(token: string)
    | Str(s: string)
    | Bool(b: bool)
    | Null
    | None
    | Arr(items: seq<Value>)
    | Dic(fields: seq<Field>)

  /** One entry of a dictionary; a dictionary is an association list kept in insertion order. */
  datatype Field = Field(name: string, val: Value)

  predicate IsContainer(v: Value) {
    v.Arr? || v.Dic?
  }

  function Names(fields: seq<Field>): (r: seq<string>)
    ensures |r| == |fields|
    ensures forall i | 0 <= i < |fields| :: r[i] == fields[i].name
  {
    if fields == [] then [] else [fields[0].name] + Names(fields[1..])
  }

  predicate HasKey(fields: seq<Field>, k: string) {
    k in Names(fields)
  }

  predicate UniqueNames(fields: seq<Field>) {
    forall i, j | 0 <= i < j < |fields| :: fields[i].name != fields[j].name
  }

  /** Dictionary lookup; a missing key reads as the NONE value, as `Var` does. */
  function Lookup(fields: seq<Field>, k: string): (r: Value)
    ensures !HasKey(fields, k) ==> r == None
    ensures |fields| > 0 && fields[0].name == k ==> r == fields[0].val
  {
    if fields == [] then None
    else if fields[0].name == k then fields[0].val
    else Lookup(fields[1..], k)
  }

  /** `HDic::set`: overwrite the value of an existing key in place, else append a new entry. */
  function SetField(fields: seq<Field>, k: string, x: Value): (r: seq<Field>)
    ensures HasKey(r, k) && Lookup(r, k) == x
    ensures HasKey(fields, k) ==> Names(r) == Names(fields)
    ensures !HasKey(fields, k) ==> r == fields + [Field(k, x)]
  {
    if fields == [] then [Field(k, x)]
    else if fields[0].name == k then [Field(k, x)] + fields[1..]
    else
      assert Names(fields) == [fields[0].name] + Names(fields[1..]);
      [fields[0]] + SetField(fields[1..], k, x)
  }

  /** Setting a key keeps the names of a dictionary pairwise distinct. */
  lemma {:induction false} SetFieldKeepsUnique(fields: seq<Field>, k: string, x: Value)
    requires UniqueNames(fields)
    ensures UniqueNames(SetField(fields, k, x))
  {
    var r := SetField(fields, k, x);
    if HasKey(fields, k) {
      assert Names(r) == Names(fields);
      forall i, j | 0 <= i < j < |r| ensures r[i].name != r[j].name {
        assert Names(r)[i] == Names(fields)[i] && Names(r)[j] == Names(fields)[j];
      }
    } else {
      forall i, j | 0 <= i < j < |r| ensures r[i].name != r[j].name {
        if j == |fields| {
          assert fields[i].name in Names(fields) by { assert Names(fields)[i] == fields[i].name; }
        }
      }
    }
  }

  /** Structural size, used to bound the recursion of the encoder. */
  function Size(v: Value): (n: nat)
    ensures n >= 1
  {
    match v
    case Arr(items) => 1 + ItemsSize(items)
    case Dic(fields) => 1 + FieldsSize(fields)
    case _ => 1
  }

  function ItemsSize(items: seq<Value>): nat
  {
    if items == [] then 0 else Size(items[0]) + ItemsSize(items[1..])
  }

  function FieldsSize(fields: seq<Field>): nat
  {
    if fields == [] then 0 else Size(fields[0].val) + FieldsSize(fields[1..])
  }
}

=== FILE: writer.dfy ===
/** `XdlWriter`: the output callbacks of the encoder. Each appends the text of one event
    to the output buffer, in native XDL or in JSON. */
module XdlWriter {
  import opened Values
  import opened Chars

  datatype Writer = Writer(out: string, pretty: bool, json: bool)

  /** The characters of a string up to its first NUL, as a C string sees them. */
  function CText(s: string): (r: string)
    ensures |r| <= |s| && r == s[..|r|]
    ensures forall i | 0 <= i < |r| :: r[i] != '\0'
    ensures |r| < |s| ==> s[|r|] == '\0'
  {
    if s == [] || s[0] == '\0' then "" else [s[0]] + CText(s[1..])
  }

  /** The escape the writer uses for one character: backslash, quote, newline, carriage
      return, tab and form feed are escaped, every other character is written as is. */
  function EscapeChar(c: char): string {
    if c == '\\' then "\\\\"
    else if c == '"' then "\\\""
    else if c == '\n' then "\\n"
    else if c == '\r' then "\\r"
    else if c == '\t' then "\\t"
    else if c == '\U{0C}' then "\\f"
    else [c]
  }

  function EscapeText(s: string): string {
    if s == [] then "" else EscapeChar(s[0]) + EscapeText(s[1..])
  }

  /** `new_string`: the C string between double quotes, escaped. */
  function Quote(s: string): (r: string)
    ensures |r| >= 2 && r[0] == '"' && r[|r| - 1] == '"'
  {
    "\"" + EscapeText(CText(s)) + "\""
  }

  function BoolText(b: bool, json: bool): string {
    if json then (if b then "true" else "false") else (if b then "Y" else "N")
  }

  /** `reset`: the output is emptied, the flags stay. */
  function Reset(w: Writer): (r: Writer)
    ensures r.out == "" && r.pretty == w.pretty && r.json == w.json
  {
    w.(out := "")
  }

  function Emit(w: Writer, t: string): Writer {
    w.(out := w.out + t)
  }

  function PutSeparator(w: Writer): Writer {
    Emit(w, ",")
  }

  /** `new_number(int)`: the decimal text of the integer. */
  function NewInt(w: Writer, i: int32): Writer {
    Emit(w, DecimalText(i))
  }

  /** `new_number(double)`: the text of the number, kept as an opaque token. */
  function NewNum(w: Writer, token: string): Writer {
    Emit(w, token)
  }

  function NewString(w: Writer, s: string): Writer {
    Emit(w, Quote(s))
  }

  /** `new_bool`: `Y`/`N` natively, `true`/`false` in JSON. */
  function NewBool(w: Writer, b: bool): Writer {
    Emit(w, BoolText(b, w.json))
  }

  function NewNull(w: Writer): Writer {
    Emit(w, "null")
  }

  function BeginArray(w: Writer): Writer {
    Emit(w, "[")
  }

  function EndArray(w: Writer): Writer {
    Emit(w, "]")
  }

  /** The JSON member that carries a class tag. */
  function ClassMember(cls: string): string {
    "\"" + ClassKey + "\":\"" + cls + "\""
  }

  /** `begin_object`: natively the class is written unquoted before '{'; in JSON a
      non-empty class becomes the first member, under the class key. */
  function ObjectOpening(cls: string, json: bool): string {
    if json then "{" + (if cls != "" then ClassMember(cls) else "") else cls + "{"
  }

  function BeginObject(w: Writer, cls: string): Writer {
    Emit(w, ObjectOpening(CText(cls), w.json))
  }

  function EndObject(w: Writer): Writer {
    Emit(w, "}")
  }

  /** `new_property`: `"name":` in JSON, `name=` natively; the name is not escaped. */
  function PropertyText(name: string, json: bool): string {
    if json then "\"" + name + "\":" else name + "="
  }

  function NewProperty(w: Writer, name: string): Writer {
    Emit(w, PropertyText(name, w.json))
  }
}
